=== FILE: README.md ===
# A verified model of the snapchat client's core logic

The app is a React Native client over a hosted document database. This
project models the logic that sits underneath its screens as pure Dafny
functions over immutable data, and proves what each operation promises.

The backend is a set of maps:

- uid to user document (`Store.Users`);
- chat id to chat document, and chat id to its message list (`Chats`);
- story id to story document. There are two incompatible story shapes,
  kept apart: `Stories.CameraStories` and `Stories.PostedStories`.

Modelling conventions:

- Time is integer milliseconds, and strings are `seq<char>`.
- A JavaScript `undefined` or `null` is `None` in an `Option`.
- `arrayUnion` appends an element if it is absent. `arrayRemove` drops
  every copy.
- A handler's effect on the backend, on the screen state and on the alert
  it shows is one result value.

The model covers these parts of the app:

- **Friend graph** (`FriendGraph`, `FriendRequestsScreen`, `FriendsScreen`).
  - Send, accept, reject and cancel a request, and remove a friend. Each
    one updates two user documents.
  - Two mirror invariants are preserved by every operation and by any
    sequence of operations:
    - `b` is in `a`'s outgoing requests exactly when `a` is in `b`'s
      incoming requests;
    - friendship is symmetric.
  - Also modelled: search and the friend filter.
- **Chats**:
  - group creation (`CreateGroupChat`);
  - opening a chat, sending a message and drawing messages (`ChatDetail`);
  - the chat list: rows, search filter, unread badge, last-message line and
    navigation (`ChatList`).
- **Notifications**:
  - the scheduled notices and truncation (`NotificationHelper`);
  - the in-app inbox with its unread counter and badge (`NotificationInbox`);
  - age labels, icons and tap routing (`NotificationsScreen`).
- **Stories**:
  - the camera upload (`Camera`);
  - posting a story (`CreateStory`);
  - the feed with expiry and ordering (`StoriesFeed`);
  - the viewer's index state machine and view marking (`StoryViewer`).
- **Redux slices**: the chat, user and story reducers (`ChatSlice`,
  `UserSlice`, `StorySlice`). They are built on the shared record operations
  in `Records`.
- **Forms**: `Register`, `Login`, `ForgotPassword` and `EditProfile`.
- **Camera filters**: the lookup tables in `FilterUtils` and `FilterAssets`,
  and their agreement.

Shared helpers:

- `Js`: truthiness, `||`, `filter`, `find`, `arrayUnion` and `arrayRemove`.
- `Text`: `trim` over JavaScript's whitespace and line terminators,
  ASCII `toLowerCase`, `includes` and decimal rendering.
- `Store` (user documents), `Chats` (chat and message documents) and `Ui`
  (alerts).

Where a handler calls a helper that does not exist, the model follows the
code rather than its evident intent. Examples are
`NotificationHelper.sendFriendAcceptedNotification` and the `updateFriends`
and `updateUserProfile` actions. Such a call throws a `TypeError` after the
database writes, so the handler's `catch` branch reports a failure. These
handlers exist twice in the model:

- once as written;
- once as evidently intended, with a lemma relating the two (see
  "## Findings").

## Model

| member | source | states |
|---|---|---|
| Store.ToEntry | src/screens/profile/FriendsScreen.js:75-80 | A fetched friend row uses username falling back to email, displayName falling back to '', and photoURL falling back to null. |
| Chats.Post | src/screens/chat/ChatDetailScreen.js:137 | Adding to a chat's `messages` appends the message to that chat's messages and leaves every other chat's messages unchanged. |
| FriendGraph.SendRequest | src/screens/profile/FriendRequestsScreen.js:176-183 | Succeeds iff both user documents exist. The recipient gains the sender as an incoming request and the sender gains the recipient as an outgoing request. Friends and all other documents are unchanged. |
| FriendGraph.AcceptRequest | src/screens/profile/FriendRequestsScreen.js:210-219 | Each party gains the other as a friend. The acceptor loses the incoming request and the sender loses the outgoing one. Nothing else changes. |
| FriendGraph.RejectRequest | src/screens/profile/FriendRequestsScreen.js:246-253 | The request leaves both sides. Both friend lists are unchanged. |
| FriendGraph.CancelRequest | src/screens/profile/FriendRequestsScreen.js:273-280 | The sender's request leaves the recipient's incoming list and the sender's outgoing list. Friends are unchanged. |
| FriendGraph.RemoveFriend | src/screens/profile/FriendsScreen.js:120-127 | Each uid leaves the other's friends array. Requests and other documents are unchanged. |
| FriendGraph.Apply | src/screens/profile/FriendRequestsScreen.js:170-292 | An operation of the friend screens succeeds iff both user documents exist, and never adds or deletes a document. |
| FriendGraph.Run | src/screens/profile/FriendRequestsScreen.js:170-292 | A sequence of operations keeps the set of user documents. When no operation's actor has a document, every operation fails and the store is unchanged. |
| FriendGraph.CancelIsReject | src/screens/profile/FriendRequestsScreen.js:273-280 | A cancelling its request to B produces exactly the store that B rejecting A's request produces. |
| FriendGraph.SendRequestIdempotent | src/screens/profile/FriendRequestsScreen.js:176-183 | Sending the same request twice leaves the store as sending it once. |
| FriendGraph.ApplyKeepsMirrors | src/screens/profile/FriendRequestsScreen.js:170-292 | Every successful send, accept, reject, cancel or remove preserves both mirror invariants (requests and friendship). |
| FriendGraph.RunKeepsMirrors | src/screens/profile/FriendRequestsScreen.js:170-292 | Any sequence of friend-screen operations, failed ones included, preserves both mirror invariants. |
| FriendRequestsScreen.Entries | src/screens/profile/FriendRequestsScreen.js:69-77 | The request lists hold one row per fetched document, built from that document. |
| FriendRequestsScreen.Search | src/screens/profile/FriendRequestsScreen.js:118-161 | A blank query is rejected with its alert. Otherwise the results are exactly the fetched users other than oneself who are not a friend, not an incoming request and not an outgoing request. |
| FriendRequestsScreen.SendRequest | src/screens/profile/FriendRequestsScreen.js:170-202 | On success the store gets the request. A recipient listed in the results joins the end of the outgoing list, and the results keep, in order and with every copy, exactly the rows of other users. An unlisted recipient leaves the screen unchanged. A failed write changes nothing and alerts an error. |
| FriendRequestsScreen.AcceptRequestAsWritten | src/screens/profile/FriendRequestsScreen.js:204-238 | The store gets the accept, but the screen is unchanged and the alert is 'Failed to accept friend request'. |
| FriendRequestsScreen.AcceptRequest | src/screens/profile/FriendRequestsScreen.js:224-232 | On success, with a success alert, the listed request entry itself joins the end of the friend list and the incoming list keeps, in order and with every copy, exactly the requests from other senders. An unlisted sender leaves the screen unchanged. |
| FriendRequestsScreen.AcceptAsWrittenLeavesStaleRequest | src/screens/profile/FriendRequestsScreen.js:222-229 | For a listed request, both versions write the same store. The as-written screen still lists the request and shows an error. The corrected one removes the request and shows success. |
| FriendRequestsScreen.RejectRequest | src/screens/profile/FriendRequestsScreen.js:240-265 | On success the request leaves the store. The incoming list keeps, in order and with every copy, exactly the requests from other senders. On failure nothing changes and an error is shown. |
| FriendRequestsScreen.CancelRequest | src/screens/profile/FriendRequestsScreen.js:267-292 | On success the request leaves the store. The outgoing list keeps, in order and with every copy, exactly the requests to other recipients. On failure nothing changes and an error is shown. |
| FriendsScreen.FilterFriends | src/screens/profile/FriendsScreen.js:42-52 | A blank query shows the whole list. Otherwise the result is the order-preserving subsequence whose lower-cased username or displayName contains the lower-cased query. A row without a username throws (None). |
| FriendsScreen.ToLowerIdempotent | src/screens/profile/FriendsScreen.js:44-46 | Lower-casing twice is lower-casing once. |
| FriendsScreen.FilterIgnoresCase | src/screens/profile/FriendsScreen.js:44-47 | The query's letter case does not change the filtered list. |
| FriendsScreen.FilterFriendsAppend | src/screens/profile/FriendsScreen.js:44-47 | Filtering a concatenation is concatenating the filtered pieces. |
| Store.Without | src/screens/profile/FriendsScreen.js:130-132 | The kept list is the order-preserving subsequence of rows whose uid differs from the removed one, each kept entry with its full multiplicity. |
| FriendsScreen.WithoutIdempotent | src/screens/profile/FriendsScreen.js:130 | Removing the same friend twice leaves the list as removing once. |
| FriendsScreen.RemoveFriendAsWritten | src/screens/profile/FriendsScreen.js:114-143 | The store is updated and the local list shrinks, yet the alert is 'Failed to remove friend'. |
| FriendsScreen.RemoveFriend | src/screens/profile/FriendsScreen.js:119-138 | On success the store loses the friendship in both directions and the list loses the row, with a success alert. On failure nothing changes. |
| FriendsScreen.RemoveAsWrittenReportsFailure | src/screens/profile/FriendsScreen.js:134-142 | Both versions write the same store and list. The as-written one reports an error and the corrected one reports success. |
| FriendsScreen.DirectChatId | src/screens/profile/FriendsScreen.js:176 | The id is the opener's uid, '_', then the friend's uid. |
| FriendsScreen.DirectChatIdInjective | src/screens/profile/FriendsScreen.js:176 | For an opener uid without '_', the id determines both uids. |
| FriendsScreen.DirectChatIdNotSymmetric | src/screens/profile/FriendsScreen.js:176 | Two friends opening a chat with each other get different ids. |
| FriendsScreen.OpenChat | src/screens/profile/FriendsScreen.js:175-180 | The chat parameters carry the direct id, the friend's uid, displayName falling back to username, and the photo. |
| CreateGroupChat.FilterKeepsUnique | src/screens/chat/CreateGroupChatScreen.js:38 | Dropping friends from a selection keeps the uids distinct. |
| CreateGroupChat.Toggle | src/screens/chat/CreateGroupChatScreen.js:36-42 | A selected friend is dropped and any other is appended. Other friends are unaffected, and uids stay distinct. |
| CreateGroupChat.ToggleTwice | src/screens/chat/CreateGroupChatScreen.js:36-42 | Toggling an unselected friend on and off restores the selection. |
| CreateGroupChat.CreatorName | src/screens/chat/CreateGroupChatScreen.js:63 | The creator is recorded by displayName, else email. |
| CreateGroupChat.FriendName | src/screens/chat/CreateGroupChatScreen.js:67 | A friend is recorded by displayName, else username. |
| CreateGroupChat.NamesFrom | src/screens/chat/CreateGroupChatScreen.js:66-68 | Every selected friend gets an entry with its name. Earlier entries for other uids are kept. |
| CreateGroupChat.Participants | src/screens/chat/CreateGroupChatScreen.js:59 | The creator followed by the selected uids in order, so there are 1 + n of them. |
| CreateGroupChat.GroupDoc | src/screens/chat/CreateGroupChatScreen.js:71-82 | The document is a group with the trimmed name and the participants and names above. lastMessage is null, the creator is the last sender, and unreadCounts is empty. |
| CreateGroupChat.SystemMessage | src/screens/chat/CreateGroupChatScreen.js:85-92 | The first message is a read system message reading `<creator> created the group "<name>"`. A creator with neither displayName nor email is written as "null". |
| CreateGroupChat.Invites | src/screens/chat/CreateGroupChatScreen.js:95-102 | There is one invite per selected friend, in order, and none to the creator. |
| CreateGroupChat.Validate | src/screens/chat/CreateGroupChatScreen.js:45-53 | A blank name is rejected first and an empty selection second. Validation passes iff neither applies. |
| CreateGroupChat.CreateGroupAsWritten | src/screens/chat/CreateGroupChatScreen.js:44-117 | Validation failures write nothing. Otherwise the chat and system message are written, then the first invite throws: no invites, no navigation, and an error alert. |
| CreateGroupChat.CreateGroup | src/screens/chat/CreateGroupChatScreen.js:55-111 | A valid creation adds the group document and its system message, sends all invites, and routes to the new group. |
| CreateGroupChat.CreateAsWrittenReportsFailure | src/screens/chat/CreateGroupChatScreen.js:95-114 | Both versions write the same chat and messages. The as-written one sends no invite and reports an error. |
| ChatDetail.Detail | src/screens/chat/ChatDetailScreen.js:73-78 | A participant row shows displayName, else username. |
| ChatDetail.ParticipantsOf | src/screens/chat/ChatDetailScreen.js:66-81 | The list is every participant other than the current user, in order. A participant without a user document aborts the list. |
| ChatDetail.ResetUnread | src/screens/chat/ChatDetailScreen.js:85-89 | The user's unread count is set to 0 only when it is above 0. Other users' counts and the other fields are untouched. |
| ChatDetail.Open | src/screens/chat/ChatDetailScreen.js:61-93 | A missing chat changes nothing. A direct chat is reset. A group chat is reset only when its participant list loads. |
| ChatDetail.OpenIdempotent | src/screens/chat/ChatDetailScreen.js:85-89 | Opening a chat again changes nothing more. |
| ChatDetail.TextMessage | src/screens/chat/ChatDetailScreen.js:127-134 | The message has the trimmed text, the sender's uid, displayName else email, unread, and type 'text'. |
| ChatDetail.Summarize | src/screens/chat/ChatDetailScreen.js:140-144 | The chat's lastMessage and lastMessageSenderId become the text and the sender. Nothing else changes. |
| ChatDetail.SendAsWritten | src/screens/chat/ChatDetailScreen.js:123-174 | Blank input sends nothing. Otherwise the message and summary are written. A group send then throws, keeping the input and alerting 'Failed to send message'. A direct send clears the input and schedules the message notice. |
| ChatDetail.Send | src/screens/chat/ChatDetailScreen.js:123-173 | The same writes. The input is cleared iff the chat exists, and an alert appears iff the chat document is missing. |
| ChatDetail.GroupSendAsWrittenKeepsInput | src/screens/chat/ChatDetailScreen.js:147-172 | In a group both versions store the same message and summary. The as-written one keeps the input text and the corrected one clears it. |
| ChatDetail.Render | src/screens/chat/ChatDetailScreen.js:247-268 | System messages get their own line. A bubble is one's own iff the sender is the current user. The sender's name is shown iff the message is another's in a group chat. |
| ChatDetail.OwnMessageRendersAsMine | src/screens/chat/ChatDetailScreen.js:248-268 | A message one sends is drawn as one's own bubble, without a name. |
| ChatList.FirstOther | src/screens/main/ChatScreen.js:63 | The recipient is the first participant other than the current user. There is none iff every participant is the current user. |
| ChatList.RowFor | src/screens/main/ChatScreen.js:62-83 | Corrected row, with Firestore's `doc` in reach. A group is kept as a group row. A direct chat is kept iff it has another participant, whose name (displayName else username) and photo are copied in. |
| ChatList.BuildRows | src/screens/main/ChatScreen.js:55-89 | Corrected handler, with Firestore's `doc` in reach. The list is aborted iff some direct chat's recipient has no user document. Otherwise the rows are exactly the rows the chats yield, in snapshot order, none invented. |
| ChatList.BuildRowsAsWritten | src/screens/main/ChatScreen.js:55-89 | As written, the loop variable `doc` (line 58) hides Firestore's `doc`. The list is aborted iff some direct chat has another participant, whether or not that user exists. Otherwise the rows are exactly the snapshot's group chats as group rows, in snapshot order, none invented. |
| ChatList.BuildRowsAsWrittenAgrees | src/screens/main/ChatScreen.js:55-89 | Whenever the as-written handler sets a list, the corrected one sets the same list, whatever the user documents. |
| ChatList.ShadowedDocDropsDirectChat | src/screens/main/ChatScreen.js:58-65 | A direct chat with a recipient who has a user document aborts the as-written handler. The corrected one lists it with the recipient's name and photo. |
| ChatList.Keeps | src/screens/main/ChatScreen.js:123-130 | A chat is kept iff its first other participant is a friend whose lower-cased username contains the lower-cased query. |
| ChatList.FilterRows | src/screens/main/ChatScreen.js:123-130 | The filtered list is the order-preserving subsequence of rows that are kept. |
| ChatList.EmptyQueryKeepsFriendChats | src/screens/main/ChatScreen.js:125-129 | With an empty query, a chat is kept iff its first other participant is a friend. |
| ChatList.UnreadShown | src/screens/main/ChatScreen.js:133 | The badge shows the user's unread count, or 0 when there is none. |
| ChatList.OpenClearsBadge | src/screens/chat/ChatDetailScreen.js:85-89 | Opening a chat turns its positive badge to 0 and leaves every other chat's badge as it was. |
| ChatList.LastLineAsWritten | src/screens/main/ChatScreen.js:169-171 | The line is "You: " followed by the interpolated last message iff the current user sent it. |
| ChatList.LastLine | src/screens/main/ChatScreen.js:169-171 | An absent last message shows nothing. Otherwise the line is prefixed "You: " iff the current user sent it. |
| ChatList.NoMessageShowsYouNull | src/screens/main/ChatScreen.js:169-171 | A chat whose last sender is the user but which has no message reads "You: null" as written, and nothing when corrected. |
| ChatList.NewGroupShowsYouNull | src/screens/chat/CreateGroupChatScreen.js:78-80 | A freshly created group shows "You: null" to its creator as written. |
| ChatList.SendShowsYou | src/screens/main/ChatScreen.js:169-171 | After one's own send, both versions show "You: " and the text. |
| ChatList.Press | src/screens/main/ChatScreen.js:102-117 | A group row navigates with the group name. A direct row navigates with the recipient's id, name and photo. Both pass the chat id. |
| NotificationHelper.SenderName | src/utils/NotificationHelper.js:31-32 | The sender is named by displayName, else username, else 'Someone'. The name is never empty. |
| NotificationHelper.Truncate | src/utils/NotificationHelper.js:38-41 | A body over 100 characters becomes its first 97 plus '...', exactly 100. Otherwise it is unchanged. |
| NotificationHelper.TruncateIdempotent | src/utils/NotificationHelper.js:38-41 | Truncating twice is truncating once. |
| NotificationHelper.TruncateKeepsPrefix | src/utils/NotificationHelper.js:38-41 | What survives truncation, without the '...', is a prefix of the body. |
| NotificationHelper.MessageNotice | src/utils/NotificationHelper.js:20-55 | Nothing is scheduled iff the sender has no document. Otherwise the title is '<name> sent you a message' and the body is truncated. The payload is type 'message' with sender and chat. |
| NotificationHelper.FriendRequestNotice | src/utils/NotificationHelper.js:62-91 | Nothing is scheduled iff the sender has no document. Otherwise the title is 'New Friend Request', with the request body and a 'friendRequest' payload. |
| NotificationHelper.StoryNotice | src/utils/NotificationHelper.js:99-129 | Nothing is scheduled iff the sender has no document. Otherwise the title is 'New Story', with the story body and a 'story' payload carrying the story id. |
| NotificationHelper.TestNotice | src/utils/NotificationHelper.js:137-145 | Missing arguments take the default title and body. The payload type is 'test'. |
| NotificationHelper.NoticeKindsDistinct | src/utils/NotificationHelper.js:44-123 | The three sender-based notices carry pairwise distinct payload types. |
| NotificationInbox.CountUnread | src/contexts/NotificationContext.js:89-95 | The number of unread entries is at most the list length. |
| NotificationInbox.Received | src/contexts/NotificationContext.js:32-39 | A received notification enters the list unread, with its id, title, body, data and arrival time. |
| NotificationInbox.Add | src/contexts/NotificationContext.js:79-85 | The entry goes first, the counter goes up by one, and the badge shows the new counter. |
| NotificationInbox.MarkIf | src/contexts/NotificationContext.js:89-95 | Exactly the entries with the id become read. The others are unchanged. |
| NotificationInbox.MarkRead | src/contexts/NotificationContext.js:88-103 | Entries with the id become read. The counter becomes max(0, counter - 1) whatever the id, and the badge equals it. |
| NotificationInbox.MarkAll | src/contexts/NotificationContext.js:106-114 | Every entry becomes read, in the same order and number. The counter and badge are 0. |
| NotificationInbox.AllReadCount | src/contexts/NotificationContext.js:106-109 | A list whose every entry is read has no unread entries. |
| NotificationInbox.UnreadWith | src/contexts/NotificationContext.js:89-95 | The unread entries with a given id are some of the unread entries. |
| NotificationInbox.MarkIfCount | src/contexts/NotificationContext.js:89-95 | Marking by id lowers the unread count by the number of unread entries with that id. |
| NotificationInbox.UnreadWithUnique | src/contexts/NotificationContext.js:89-95 | With distinct ids, at most one unread entry has a given id, and one does iff such an entry exists. |
| NotificationInbox.MarkIfKeepsIds | src/contexts/NotificationContext.js:89-95 | Marking keeps the ids distinct. |
| NotificationInbox.AddKeepsValid | src/contexts/NotificationContext.js:79-85 | Adding an unread entry with a fresh id keeps the badge equal to the counter, and the counter between 0 and the unread count. |
| NotificationInbox.MarkReadKeepsValid | src/contexts/NotificationContext.js:88-103 | Marking one entry keeps that invariant. |
| NotificationInbox.MarkAllKeepsValid | src/contexts/NotificationContext.js:106-114 | Marking all keeps that invariant. |
| NotificationInbox.AddKeepsExact | src/contexts/NotificationContext.js:79-85 | An exact counter stays exact when an unread entry is added. |
| NotificationInbox.MarkUnreadKeepsExact | src/contexts/NotificationContext.js:88-103 | An exact counter stays exact when a listed unread entry is marked. |
| NotificationInbox.MarkAllKeepsExact | src/contexts/NotificationContext.js:106-114 | An exact counter stays exact after marking all. |
| NotificationInbox.MarkReadTwiceUndercounts | src/contexts/NotificationContext.js:98-99 | Marking an already read entry still lowers the counter, leaving it below the number of unread entries. |
| NotificationsScreen.WholeMinutes | src/screens/notifications/NotificationsScreen.js:42-43 | The minutes are the floor of the age over 60000. |
| NotificationsScreen.Bucket | src/screens/notifications/NotificationsScreen.js:45-55 | Under a minute is 'Just now'. Minutes are 1..59, hours 1..23 and days at least 1, each the floor of the age in that unit. |
| NotificationsScreen.Label | src/screens/notifications/NotificationsScreen.js:45-55 | The label is 'Just now' exactly for the first bucket. Otherwise it starts with a digit. |
| NotificationsScreen.Counted | src/screens/notifications/NotificationsScreen.js:48-54 | The label reads '<n><unit> ago'. |
| NotificationsScreen.LabelInjective | src/screens/notifications/NotificationsScreen.js:45-55 | Distinct buckets have distinct labels. |
| NotificationsScreen.BucketMonotone | src/screens/notifications/NotificationsScreen.js:42-55 | An older entry never shows a younger label. |
| NotificationsScreen.Icon | src/screens/notifications/NotificationsScreen.js:58-65 | Each of 'message', 'friendRequest' and 'story' has its own icon. Every other type gets the default. |
| NotificationsScreen.RouteOf | src/screens/notifications/NotificationsScreen.js:26-33 | A tap navigates only when the type matches and its id field (chatId, senderId or storyId) is present and non-empty. |
| NotificationsScreen.SchedulesAreRoutable | src/screens/notifications/NotificationsScreen.js:27-32 | Every notice the app schedules routes to the chat, request list or story it announces. |
| NotificationsScreen.Press | src/screens/notifications/NotificationsScreen.js:19-34 | An entry is marked read only if it was unread, and the tap follows its route. |
| NotificationsScreen.PressKeepsExact | src/screens/notifications/NotificationsScreen.js:21-23 | Tapping a listed entry keeps an exact counter exact. |
| NotificationsScreen.MarkAllVisible | src/screens/notifications/NotificationsScreen.js:108-116 | 'Mark all read' is offered iff the unread counter is positive. |
| NotificationsScreen.MarkAllVisibleIffUnread | src/screens/notifications/NotificationsScreen.js:108-116 | With an exact counter, the control is offered iff some listed entry is unread. |
| NotificationsScreen.MarkAllHidesControl | src/contexts/NotificationContext.js:106-114 | After marking all, the 'Mark all read' control is hidden. |
| Records.IdOf | src/redux/slices/chatSlice.js:51 | `obj.id` is present iff the record has an id field. |
| Records.Spread | src/redux/slices/chatSlice.js:53 | The payload's fields override the entry's, and the entry's other fields stay. |
| Records.SpreadIdempotent | src/redux/slices/chatSlice.js:53 | Spreading the same payload twice is spreading it once. |
| Records.FindIndex | src/redux/slices/chatSlice.js:51 | The index found is the first with a matching id, and there is none iff no entry matches. |
| Records.FindIndexAppend | src/redux/slices/chatSlice.js:51 | An appended entry is found only if no earlier entry matches. |
| Records.UpdateById | src/redux/slices/chatSlice.js:50-55 | The payload is merged into the first matching entry. The length and other entries are unchanged, and nothing changes when there is no match. |
| Records.SpreadKeepsId | src/redux/slices/chatSlice.js:53 | The merged entry keeps its id. |
| Records.UpdateByIdIdempotent | src/redux/slices/storySlice.js:46-51 | Updating twice with the same payload is updating once. |
| Records.RemoveById | src/redux/slices/userSlice.js:43-45 | The result is the order-preserving subsequence without the id. Every record with another id is kept with all its copies. |
| Records.RemoveByIdIdempotent | src/redux/slices/userSlice.js:43-45 | Removing twice is removing once. |
| Records.RemoveByIdAppend | src/redux/slices/userSlice.js:43-45 | Removal distributes over concatenation. |
| Records.Begin | src/redux/slices/chatSlice.js:15-18 | A fetch start sets loading and clears the error. |
| Records.Succeed | src/redux/slices/chatSlice.js:19-23 | A fetch success clears loading and the error. |
| Records.Fail | src/redux/slices/chatSlice.js:24-27 | A fetch failure clears loading and records the error. |
| Records.FetchCycle | src/redux/slices/chatSlice.js:15-27 | After a start and an outcome, the flags depend only on the outcome. |
| ChatSlice.Reduce | src/redux/slices/chatSlice.js:14-58 | Each action's effect on flags, chats, messages and the active chat. Each field changes only under the actions that own it: append, merge at the first match, clear, or replace. |
| ChatSlice.UpdateAddedChat | src/redux/slices/chatSlice.js:44-55 | Updating a newly added chat is adding the merged chat. |
| ChatSlice.ClearForgetsAdded | src/redux/slices/chatSlice.js:46-58 | Clearing after adding a message is clearing. |
| ChatSlice.UpdateAbsentChat | src/redux/slices/chatSlice.js:50-55 | An update without a matching chat changes no state. |
| UserSlice.Reduce | src/redux/slices/userSlice.js:14-51 | Each action's effect on flags, friends and requests. addFriend and addFriendRequest append to their own list only, the removals filter by id, and the flags change only on fetch actions. |
| UserSlice.RemoveTwice | src/redux/slices/userSlice.js:43-51 | Both removals are idempotent. |
| UserSlice.AddThenRemoveFriend | src/redux/slices/userSlice.js:40-45 | Removing a just-added friend by its id is removing by that id. |
| StorySlice.Reduce | src/redux/slices/storySlice.js:14-51 | `stories` changes only on fetchStoriesSuccess. addStory appends to myStories, removeStory filters it and updateStory merges at the first match. |
| StorySlice.RemoveAndUpdateIdempotent | src/redux/slices/storySlice.js:43-51 | removeStory and updateStory are idempotent. |
| StorySlice.UpdateAfterRemove | src/redux/slices/storySlice.js:43-51 | Updating a story just removed changes nothing. |
| Stories.Flip | src/screens/main/CameraScreen.js:123-129 | Flipping always changes the facing. |
| Stories.ToggleFlash | src/screens/main/CameraScreen.js:131-137 | Toggling always changes the flash mode. |
| Stories.TogglesAreInvolutions | src/screens/story/CreateStoryScreen.js:67-81 | Each toggle applied twice is the identity. |
| Camera.Extension | src/screens/main/CameraScreen.js:90 | The extension is the dot-free suffix after the last '.', or the whole uri when there is no dot. |
| Camera.ExtensionAfterDot | src/screens/main/CameraScreen.js:90 | A name followed by '.' and a dot-free suffix has that suffix as its extension. |
| Camera.FileName | src/screens/main/CameraScreen.js:89-90 | The file name starts with the uid and '_', and keeps the captured file's extension. |
| Camera.MediaPath | src/screens/main/CameraScreen.js:91 | The storage path is 'media/' followed by the file name. |
| Camera.MediaType | src/screens/main/CameraScreen.js:102 | The type is 'video' iff the uri contains "video", and 'image' otherwise. |
| Camera.NewStory | src/screens/main/CameraScreen.js:103-111 | The story expires 86400000 ms after now, starts with no viewers, and carries the media and the uploader. |
| Camera.Send | src/screens/main/CameraScreen.js:82-121 | With nothing captured, nothing happens. A failed upload writes nothing and alerts 'Failed to upload media'. Otherwise the story is added and the app navigates with its media. |
| Camera.SendKeepsMedia | src/screens/main/CameraScreen.js:103-114 | The stored story and the navigation carry the same media URL and type. |
| Camera.OnPress | src/screens/main/CameraScreen.js:202 | A press stops recording when recording, and takes a picture otherwise. |
| Camera.OnLongPress | src/screens/main/CameraScreen.js:203 | A long press stops recording when recording, and starts it otherwise. |
| Camera.RecordingAfter | src/screens/main/CameraScreen.js:58-68 | Starting sets recording, stopping clears it, and a picture keeps it. |
| Camera.PressFlipsRecording | src/screens/main/CameraScreen.js:55-76 | While recording, either press stops recording. Otherwise only a long press starts it. |
| CreateStory.Retake | src/screens/story/CreateStoryScreen.js:107-110 | Retake clears the image and the caption and keeps the camera settings. |
| CreateStory.FlipCamera | src/screens/story/CreateStoryScreen.js:67-73 | Only the facing changes. |
| CreateStory.SwitchFlash | src/screens/story/CreateStoryScreen.js:75-81 | Only the flash mode changes. |
| CreateStory.StoragePath | src/screens/story/CreateStoryScreen.js:126 | The path is 'stories/<uid>/<timestamp>'. |
| CreateStory.StoryDoc | src/screens/story/CreateStoryScreen.js:133-148 | The username falls back to email and the photo to null. The document expires a day after now, has a trimmed caption and one 'image' media entry with the URL, and starts with no views. |
| CreateStory.Post | src/screens/story/CreateStoryScreen.js:112-158 | With no image, an error and nothing uploaded or written. A failed upload gives 'Failed to post story'. Otherwise exactly the new story is added, with the success alert. |
| CreateStory.PostAddsOneStory | src/screens/story/CreateStoryScreen.js:133-152 | A successful post with a fresh id adds exactly that story. |
| CreateStory.RetakeBlocksPost | src/screens/story/CreateStoryScreen.js:107-116 | Posting right after a retake uploads and writes nothing. |
| StoriesFeed.ConsSorted | src/screens/main/StoriesScreen.js:45 | A story expiring no earlier than every listed one can head a descending list. |
| StoriesFeed.Insert | src/screens/main/StoriesScreen.js:45 | Inserting keeps the order descending and adds exactly the one story. |
| StoriesFeed.SortDesc | src/screens/main/StoriesScreen.js:45 | The result is descending by expiry and a permutation of the input. |
| StoriesFeed.Feed | src/screens/main/StoriesScreen.js:42-46 | The feed is exactly the stories expiring after now, ordered by expiry descending. |
| StoriesFeed.FeedShrinksOverTime | src/screens/main/StoriesScreen.js:44 | A later feed lists no story an earlier one did not. |
| StoriesFeed.ShowsEmptyState | src/screens/main/StoriesScreen.js:141 | The empty state replaces the grid iff nothing is listed. |
| StoriesFeed.EmptyStateIffAllExpired | src/screens/main/StoriesScreen.js:42-46 | The empty state shows iff every fetched story has expired. |
| StoriesFeed.EmptyStateStays | src/screens/main/StoriesScreen.js:42-46 | Once the empty state shows, a later time shows it too. |
| StoriesFeed.TileOf | src/screens/main/StoriesScreen.js:95-108 | A tile is viewed iff the user is among the viewers, and shows the video mark iff the type is 'video'. |
| StoriesFeed.Press | src/screens/main/StoriesScreen.js:78-92 | A story already viewed is not written again. Otherwise the user is added to its viewers and nothing else changes. A missing document aborts before navigation. |
| StoriesFeed.PressIdempotent | src/screens/main/StoriesScreen.js:81-85 | Pressing twice is pressing once. |
| StoryViewer.Load | src/screens/story/StoryViewScreen.js:45-61 | The viewer shows the story's media list, or nothing when the story is missing. |
| StoryViewer.Start | src/screens/story/StoryViewScreen.js:40-43 | The viewer starts at the first item, unpaused, and shows something iff there is media. |
| StoryViewer.Next | src/screens/story/StoryViewScreen.js:88-94 | Advances iff the index is below the last. Otherwise the viewer exits. |
| StoryViewer.Previous | src/screens/story/StoryViewScreen.js:96-102 | Goes back iff the index is above 0. Otherwise the viewer exits. |
| StoryViewer.StepsKeepShowing | src/screens/story/StoryViewScreen.js:88-102 | While viewing, the index stays in range. With no media, both steps exit. |
| StoryViewer.StepsUndo | src/screens/story/StoryViewScreen.js:88-102 | Next then previous, and previous then next, return to the same item. |
| StoryViewer.NextReachesEnd | src/screens/story/StoryViewScreen.js:88-94 | Repeated next steps reach the last item, and one more exits. |
| StoryViewer.Pause | src/screens/story/StoryViewScreen.js:104-118 | Pause flips the paused flag and nothing else. |
| StoryViewer.PauseTwice | src/screens/story/StoryViewScreen.js:104-118 | Pausing twice is the identity. |
| StoryViewer.BarAt | src/screens/story/StoryViewScreen.js:129-134 | A bar is full before the current item, empty after it, and animating exactly at it. |
| StoryViewer.Bars | src/screens/story/StoryViewScreen.js:123-134 | There is one bar per media item. |
| StoryViewer.OneBarAnimates | src/screens/story/StoryViewScreen.js:129-134 | While viewing, exactly the current bar animates. |
| StoryViewer.MarkViewed | src/screens/story/StoryViewScreen.js:63-72 | The user joins the story's views, and nothing else changes. A missing story is not written. |
| StoryViewer.MarkViewedIdempotent | src/screens/story/StoryViewScreen.js:66-68 | Marking twice is marking once. |
| StoryViewer.ReplyVisible | src/screens/story/StoryViewScreen.js:228 | The reply box is shown unless the `userId` navigation parameter is the viewer's uid. |
| StoryViewer.ReplyVisibleCases | src/screens/story/StoryViewScreen.js:23 | With the owner passed, the box is hidden exactly on one's own story. With no `userId` passed, it is shown to everyone. |
| EditProfile.Loaded | src/screens/profile/EditProfileScreen.js:49-55 | Text fields default to '' and the photo to null. |
| EditProfile.Opening | src/screens/profile/EditProfileScreen.js:29-35 | The editor opens with the app's profile values or the defaults, with no snapshot. |
| EditProfile.Fetch | src/screens/profile/EditProfileScreen.js:41-58 | The loaded values fill the form, and the snapshot equals them. A missing document changes nothing. |
| EditProfile.Cancel | src/screens/profile/EditProfileScreen.js:161-168 | Cancel restores the snapshot. |
| EditProfile.CancelRestoresLoad | src/screens/profile/EditProfileScreen.js:163-166 | Whatever was typed after loading, cancel restores the loaded values. |
| EditProfile.Trimmed | src/screens/profile/EditProfileScreen.js:127-132 | Username, displayName and bio are trimmed, and the photo is passed through. |
| EditProfile.TrimmedIdempotent | src/screens/profile/EditProfileScreen.js:127-132 | Trimming twice is trimming once. |
| EditProfile.Write | src/screens/profile/EditProfileScreen.js:127-132 | The document gets the four trimmed values and keeps every other field. |
| EditProfile.Account | src/screens/profile/EditProfileScreen.js:136-141 | The signed-in account gets the new displayName and photo. |
| EditProfile.SaveAsWritten | src/screens/profile/EditProfileScreen.js:116-158 | A blank username is rejected without writing. Otherwise the document and account are written, then the undefined action throws: 'Failed to update profile', and the screen stays. |
| EditProfile.Save | src/screens/profile/EditProfileScreen.js:116-153 | The same writes, then the app profile becomes the trimmed values, success is shown, and the screen is left. |
| EditProfile.SaveAsWrittenReportsFailure | src/screens/profile/EditProfileScreen.js:144-158 | Both versions write the same document and account. Only the corrected one reports success. |
| EditProfile.TypeBio | src/screens/profile/EditProfileScreen.js:264 | The bio is capped at 150 characters, and shorter input is kept. |
| EditProfile.Counter | src/screens/profile/EditProfileScreen.js:266 | The counter reads '<length>/150'. |
| EditProfile.CounterBounded | src/screens/profile/EditProfileScreen.js:264-266 | Whatever is typed, the counter's number is at most 150. |
| Register.Validate | src/screens/auth/RegisterScreen.js:31-44 | The checks run in order: an empty field, then a mismatch, then a password under 6. Each message is reported iff its check is the first to fail. |
| Register.SixCharactersPass | src/screens/auth/RegisterScreen.js:41 | A 6-character password passes. |
| Register.ErrorMessage | src/screens/auth/RegisterScreen.js:78-86 | Each known code has its own message. Every other code gets the default. |
| Register.NewUser | src/screens/auth/RegisterScreen.js:59-67 | The document's uid is the new account's, with the form's username and email. photoURL is null and friends and friendRequests are empty (the absent request arrays read as empty). |
| Register.Submit | src/screens/auth/RegisterScreen.js:30-90 | An invalid form alerts and does not sign up. A failed sign-up alerts 'Registration Error'. A success writes the new user's document and signs in. Loading always ends false. |
| Register.SubmitWritesOwnDocument | src/screens/auth/RegisterScreen.js:57-67 | A successful registration writes exactly the new account's own document. |
| Login.ErrorMessage | src/screens/auth/LoginScreen.js:47-53 | An unknown user and a wrong password share one message, rate limiting has its own, and every other code gets the default. |
| Login.Submit | src/screens/auth/LoginScreen.js:26-60 | An empty field is rejected without signing in. Success signs in, failure alerts 'Login Error', and loading always ends false. |
| Login.NoAccountProbe | src/screens/auth/LoginScreen.js:49-50 | A missing account and a wrong password are indistinguishable. |
| ForgotPassword.ErrorMessage | src/screens/auth/ForgotPasswordScreen.js:37-43 | The two known codes have their own messages. Every other code gets the default. |
| ForgotPassword.Submit | src/screens/auth/ForgotPasswordScreen.js:23-48 | An email without '@' is rejected. Success sets emailSent. Failure keeps it and alerts. Loading always ends false. |
| ForgotPassword.Plausible | src/screens/auth/ForgotPasswordScreen.js:24 | The email check: non-empty and containing '@'. |
| ForgotPassword.PlausibleIffAt | src/screens/auth/ForgotPasswordScreen.js:24 | The emptiness test adds nothing: an email passes iff it contains '@'. |
| ForgotPassword.InvalidEmailSameMessage | src/screens/auth/ForgotPasswordScreen.js:24-43 | A rejected email and the backend's invalid-email code show the same message. |
| FilterUtils.Overlay | src/utils/FilterUtils.js:7-24 | Only sepia, grayscale, vintage and saturate get a colour. Everything else is transparent. |
| FilterUtils.BlendMode | src/utils/FilterUtils.js:27-42 | Five filters get their modes. Blur and unknown filters get 'normal'. |
| FilterUtils.IsFaceFilter | src/utils/FilterUtils.js:45-47 | A filter is a face filter iff it is 'dog', 'cat' or 'bunny'. |
| FilterUtils.TintImpliesBlend | src/utils/FilterUtils.js:7-42 | A tinted filter has a blend mode. Invert is the only untinted one with a mode. |
| FilterUtils.FaceEmojiAsWritten | src/utils/FilterUtils.js:50-61 | The literal three-character strings, with the dog's as the default. |
| FilterUtils.FaceEmoji | src/utils/FilterUtils.js:50-61 | Dog, cat and bunny faces, with the dog as the default. |
| FilterUtils.Utf8Four | src/utils/FilterUtils.js:53 | A supplementary code point encodes as a lead byte followed by three continuation bytes. |
| FilterUtils.Cp1252 | src/utils/FilterUtils.js:53 | Windows-1252 decodes bytes outside 0x80-0x9F to the same code point. |
| FilterUtils.EmojiMisread | src/utils/FilterUtils.js:50-61 | Each literal is the intended emoji's UTF-8 bytes read as Windows-1252, so it differs from the emoji. |
| FilterUtils.Assets | src/utils/FilterUtils.js:64-84 | Assets exist iff the filter is a face filter, and the ears and nose paths are named after it. |
| FilterAssets.ThumbnailIds | src/components/camera/filters/FilterAssets.js:10-21 | The ids of the thumbnails, in order. |
| FilterAssets.FaceFiltersAgree | src/components/camera/filters/FilterAssets.js:42-47 | Both isFaceFilter versions, the emoji keys, and having assets all agree. |
| FilterAssets.IsFaceFilter | src/components/camera/filters/FilterAssets.js:42-47 | A filter is a face filter iff it is in FACE_FILTERS. |
| FilterAssets.OverlaysAgree | src/components/camera/filters/FilterAssets.js:31-39 | Every overlay colour in the table equals getFilterOverlay's. |
| FilterAssets.EmojisAgree | src/components/camera/filters/FilterAssets.js:24-28 | The table's emoji equals the corrected getFaceFilterEmoji and differs from the as-written one. |
| FilterAssets.ThumbnailsCover | src/components/camera/filters/FilterAssets.js:10-21 | The ids are distinct and start with 'none'. They cover every overlay key and every face filter. |

## Left out

- Backend and device SDK calls are reduced to their effect on the maps. This covers queries, snapshot listeners, uploads, authentication, scheduling, the camera and the image picker. An upload is a download URL that may be missing (failure). A snapshot is the sequence of documents it returns.
- Two `updateDoc` calls in one handler are taken together. A handler either applies both writes or, when a document is missing, neither. Partial failure between them, and their async ordering, are not modelled.
- Server timestamps and `new Date()` are parameters. `createdAt`, `lastMessageTimestamp` and the payload timestamps are not stored.
- Stale-closure reads are not modelled: of `unreadCount` in the notification context (lines 84, 98), and of `paused` in the viewer's animation callback. Each operation sees the state the previous one left.
- NotificationInbox.Add: the badge is set to the new counter. The source computes it from a closure value, which agrees when operations are sequential.
- Records: field values are primitives, so `Record` equality is structural. The stores' real chat and story objects also hold arrays and nested objects, where JavaScript's `===` compares references. Only `id` (a string) is ever compared, so no modelled operation depends on the difference.
- FriendRequestsScreen.AcceptRequest: the corrected handler keeps the screen's friend list update local. The `updateFriends` action it dispatches does not exist in userSlice.
- `fetchFriends` in FriendsScreen dispatches the nonexistent `updateFriends`, so in the source it always ends in 'Failed to load friends'. The loading path is not modelled beyond the row mapping (`Store.ToEntry`).
- The Redux `friends` list is never filled by the code shown, so the chat-list filter keeps nothing in practice. `ChatList.FilterRows` models the filter on an arbitrary list.
- The app state has no `profile` field, so CreateStory's username always falls back to the email and EditProfile opens with defaults. Both are modelled with the profile as an `Option`.
- Navigation parameters disagree between screens and are not modelled. StoriesScreen passes `{ story }` while StoryViewScreen reads `storyId`. Neither StoriesScreen nor NotificationsScreen passes `userId`, so the reply box shows on one's own story too (`StoryViewer.ReplyVisibleCases`). CameraScreen passes `mediaURL` while CreateStoryScreen reads `imageUri`.
- A story posted from CreateStory has no `viewers` field, so the story grid's `viewers.includes` would throw on it. The two shapes are kept separate. An empty `media` list makes the viewer's render read past the end, which is not modelled.
- The image send of ChatDetail calls the undefined `setUploading` first, so it always fails without writing. It is not modelled.
- The helpers `sendGroupMessageNotification`, `sendGroupInviteNotification` and `sendFriendAcceptedNotification` are not defined. Their bodies are not invented: the corrected handlers send no group message notice, and record each invite only as a value.
- String lengths are counted in code points, while JavaScript counts UTF-16 units. This affects the password length, notification truncation and the bio cap.
- `toLowerCase` lower-cases ASCII letters only. `trim` strips the full set of JavaScript whitespace and line terminators.
- StoriesFeed.Feed: the order among stories with equal expiry is left unspecified, as the database does not promise one.
- Floating-point face geometry, animation, image quality, the UI styling and the badge caps ("9+") are left out. So are the notification service wrappers, the navigator, the map and profile screens, and the auth slice.

## Findings

| source | as written | input that shows it | evidently intended | confidence | as-written member | corrected member |
|---|---|---|---|---|---|---|
| src/utils/FilterUtils.js:50-61 | the emoji literals are UTF-8 bytes decoded as Windows-1252 (three characters such as U+00F0 U+0178 U+00B6) | getFaceFilterEmoji('dog') | the dog, cat and bunny emoji U+1F436, U+1F431, U+1F430 used by FilterAssets.js | not executed | FilterUtils.FaceEmojiAsWritten | FilterUtils.FaceEmoji |
| src/screens/profile/FriendRequestsScreen.js:222 | `sendFriendAcceptedNotification` is not defined; the call throws after both writes, so the accept is reported as failed and the request stays listed | accepting any listed request whose two documents exist | the accepted request leaves the list and success is shown | not executed | FriendRequestsScreen.AcceptRequestAsWritten | FriendRequestsScreen.AcceptRequest |
| src/screens/chat/CreateGroupChatScreen.js:96 | `sendGroupInviteNotification` is not defined; the group and its message are written, then creation is reported as failed | any non-blank name with one friend selected | success alert and navigation to the new group | not executed | CreateGroupChat.CreateGroupAsWritten | CreateGroupChat.CreateGroup |
| src/screens/chat/ChatDetailScreen.js:152 | `sendGroupMessageNotification` is not defined; a stored group message is reported as failed and stays in the input | sending "hi" in an existing group chat | the input is cleared with no error | not executed | ChatDetail.SendAsWritten | ChatDetail.Send |
| src/screens/main/ChatScreen.js:169-171 | a chat with `lastMessage` null and the user as last sender shows "You: null" | a group just created by the user | no last-message text until a message exists | not executed | ChatList.LastLineAsWritten | ChatList.LastLine |
| src/screens/main/ChatScreen.js:58-65 | the loop variable `doc` hides Firestore's `doc`, so `doc(db, 'users', …)` calls a document snapshot and throws; the listener rejects and the chat list is never set | a snapshot with one direct chat between "ann" and "bob", where "bob" has a user document | each direct chat listed with the recipient's name and photo | not executed | ChatList.BuildRowsAsWritten | ChatList.BuildRows |
| src/screens/profile/EditProfileScreen.js:144 | `updateUserProfile` is not exported by userSlice; the save writes the document and account, then reports 'Failed to update profile' and stays | saving with username "ann" | success, the app profile updated, and the screen left | not executed | EditProfile.SaveAsWritten | EditProfile.Save |
| src/screens/profile/FriendsScreen.js:135 | `updateFriends` is not exported by userSlice; a completed removal is reported as 'Failed to remove friend' | removing any friend whose two documents exist | 'Friend removed successfully' | not executed | FriendsScreen.RemoveFriendAsWritten | FriendsScreen.RemoveFriend |

=== FILE: camera.dfy ===
/** The camera screen: the shutter button's capture and record states, the
    camera toggles, and sending a capture as a story. Upload is reduced to
    its outcome, a download URL or a failure. */
module Camera {
  import opened Js
  import opened Text
  import opened Store
  import opened Ui
  import opened Stories

  /** `uri.split('.').pop()`: the text after the last '.', or the whole uri
      when it has none. */
  function Extension(uri: string): (e: string)
    ensures |e| <= |uri| && e == uri[|uri| - |e|..]
    ensures '.' !in e
    ensures |e| < |uri| ==> uri[|uri| - |e| - 1] == '.'
    decreases |uri|
  {
    if |uri| == 0 then ""
    else if uri[|uri| - 1] == '.' then ""
    else
      var e := Extension(uri[..|uri| - 1]);
      assert uri[..|uri| - 1][|uri| - 1 - |e|..] == uri[|uri| - 1 - |e|..|uri| - 1];
      e + [uri[|uri| - 1]]
  }

  /** Whatever precedes it, a dot-free text after a '.' is the extension. */
  lemma {:induction false} ExtensionAfterDot(a: string, e: string)
    requires '.' !in e
    ensures Extension(a + "." + e) == e
    decreases |e|
  {
    var u := a + "." + e;
    if |e| > 0 {
      var init := e[..|e| - 1];
      assert u[..|u| - 1] == a + "." + init;
      assert '.' !in init by {
        forall i | 0 <= i < |init| ensures init[i] != '.' { assert init[i] == e[i]; }
      }
      ExtensionAfterDot(a, init);
      assert e == init + [e[|e| - 1]];
    }
  }

  /** A name `<uid>_<stamp>.<e>` starts with the uid and '_' and has
      extension `e`. */
  lemma NameParts(uid: string, stamp: string, e: string)
    requires '.' !in e
    ensures var f := uid + "_" + stamp + "." + e;
            |f| > |uid| && f[..|uid|] == uid && f[|uid|] == '_' && Extension(f) == e
  {
    var rest := "_" + stamp + "." + e;
    assert uid + "_" + stamp + "." + e == uid + rest;
    assert (uid + rest)[..|uid|] == uid;
    assert (uid + rest)[|uid|] == '_';
    ExtensionAfterDot(uid + "_" + stamp, e);
  }

  /** The uploaded file's name: `<uid>_<milliseconds>.<extension>`. */
  function FileName(uid: Uid, ts: nat, uri: string): (f: string)
    ensures |f| > |uid| && f[..|uid|] == uid && f[|uid|] == '_'
    ensures Extension(f) == Extension(uri)
  {
    var e := Extension(uri);
    NameParts(uid, NatToString(ts), e);
    uid + "_" + NatToString(ts) + "." + e
  }

  /** The storage path: `media/<file name>`. */
  function MediaPath(uid: Uid, ts: nat, uri: string): (p: string)
    ensures |p| > 6 && p[..6] == "media/" && p[6..] == FileName(uid, ts, uri)
  {
    "media/" + FileName(uid, ts, uri)
  }

  /** 'video' when the uri mentions "video", else 'image'. */
  function MediaType(uri: string): (t: string)
    ensures t == "video" <==> Includes(uri, "video")
    ensures t == "image" <==> !Includes(uri, "video")
  {
    if Includes(uri, "video") then "video" else "image"
  }

  /** The parameters the composer is opened with after a send. */
  datatype Next = Next(mediaURL: string, mediaType: string)

  /** The effect of a send: the store, the upload made, the alert, and
      where the screen goes. */
  datatype Sent = Sent(stories: CameraStories, upload: Option<string>, alert: Option<Alert>, next: Option<Next>)

  /** The story a send writes: owned by the sender under their display
      name, typed by the capture's uri, expiring a day after `now`, seen by
      no one. */
  function NewStory(user: AuthUser, url: string, uri: string, now: int): (st: CameraStory)
    ensures st.userId == user.uid && st.username == user.displayName
    ensures st.mediaURL == url && st.mediaType == MediaType(uri)
    ensures st.expiresAt - now == DayMs && st.viewers == []
  {
    CameraStory(user.uid, user.displayName, url, MediaType(uri), now + DayMs, [])
  }

  /** handleSend. `captured` is the capture's uri, if any; `ts` and `now`
      are the two clock readings; `newId` is the id the backend gives the
      new document (a fresh one); `download` is the URL, or `None` when the
      upload fails. */
  function Send(captured: Option<string>, user: AuthUser, stories: CameraStories, newId: string,
                ts: nat, now: int, download: Option<string>): (s: Sent)
    ensures captured.None? ==> s == Sent(stories, None, None, None)
    ensures captured.Some? ==> s.upload == Some(MediaPath(user.uid, ts, captured.value))
    ensures captured.Some? && download.None? ==>
              s.stories == stories && s.alert == Some(Error("Failed to upload media")) && s.next.None?
    ensures captured.Some? && download.Some? ==>
              s.stories == stories[newId := NewStory(user, download.value, captured.value, now)]
    ensures captured.Some? && download.Some? ==>
              s.alert.None? && s.next == Some(Next(download.value, MediaType(captured.value)))
  {
    match captured
    case None => Sent(stories, None, None, None)
    case Some(uri) =>
      var path := MediaPath(user.uid, ts, uri);
      match download
      case None => Sent(stories, Some(path), Some(Error("Failed to upload media")), None)
      case Some(url) =>
        Sent(stories[newId := NewStory(user, url, uri, now)], Some(path), None, Some(Next(url, MediaType(uri))))
  }

  /** The capture and the stored story agree on the media type, and the
      stored file keeps the capture's extension. */
  lemma SendKeepsMedia(uri: string, user: AuthUser, stories: CameraStories, newId: string, ts: nat, now: int, url: string)
    ensures var s := Send(Some(uri), user, stories, newId, ts, now, Some(url));
            && Extension(s.upload.value[6..]) == Extension(uri)
            && (s.stories[newId].mediaType == "video" <==> Includes(uri, "video"))
  {
  }

  /** What the shutter button does. */
  datatype Shutter = TakePicture | StartRecording | StopRecording

  /** A tap stops a recording in progress and otherwise takes a picture; a
      long press stops a recording or starts one. */
  function OnPress(recording: bool): (a: Shutter)
    ensures recording <==> a == StopRecording
    ensures !recording ==> a == TakePicture
  {
    if recording then StopRecording else TakePicture
  }

  function OnLongPress(recording: bool): (a: Shutter)
    ensures recording <==> a == StopRecording
    ensures !recording ==> a == StartRecording
  {
    if recording then StopRecording else StartRecording
  }

  /** The recording flag right after the action. */
  function RecordingAfter(recording: bool, a: Shutter): (r: bool)
    ensures a == StartRecording ==> r
    ensures a == StopRecording ==> !r
    ensures a == TakePicture ==> r == recording
  {
    match a
    case StartRecording => true
    case StopRecording => false
    case TakePicture => recording
  }

  /** Any press during a recording ends it; a long press otherwise starts
      one, and a tap leaves the flag alone. */
  lemma PressFlipsRecording(recording: bool)
    ensures recording ==> !RecordingAfter(recording, OnPress(recording)) && !RecordingAfter(recording, OnLongPress(recording))
    ensures !recording ==> RecordingAfter(recording, OnLongPress(recording)) && !RecordingAfter(recording, OnPress(recording))
  {
  }
}

=== FILE: chat_detail.dfy ===
/** The chat screen of one conversation: loading it (participants, unread
    reset), sending a text message, and how each message is drawn.
    `isGroupChat` comes from the navigation parameters, not from the chat
    document. */
module ChatDetail {
  import opened Js
  import opened Text
  import opened Store
  import opened Ui
  import opened Chats
  import opened NotificationHelper

  /** A row of the group's participant list. */
  datatype Participant = Participant(uid: Uid, displayName: Option<string>, username: Option<string>, photoURL: Option<string>)

  /** The participant row built from a user document. */
  function Detail(id: Uid, d: UserDoc): (p: Participant)
    ensures p.uid == id && p.username == d.username && p.photoURL == d.photoURL
    ensures p.displayName == (if Truthy(d.displayName) then d.displayName else d.username)
  {
    Participant(id, Or(d.displayName, d.username), d.username, d.photoURL)
  }

  function PUids(ps: seq<Participant>): (r: seq<Uid>)
    ensures |r| == |ps| && forall i | 0 <= i < |ps| :: r[i] == ps[i].uid
  {
    seq(|ps|, i requires 0 <= i < |ps| => ps[i].uid)
  }

  /** Some participant other than `me` has no user document. */
  predicate Missing(users: Users, me: Uid, ids: seq<Uid>)
  {
    exists i | 0 <= i < |ids| :: ids[i] != me && ids[i] !in users
  }

  /** A participant is missing in a list exactly when it is the head or is
      missing from the tail. */
  lemma MissingCons(users: Users, me: Uid, ids: seq<Uid>)
    requires |ids| > 0
    ensures Missing(users, me, ids) <==> (ids[0] != me && ids[0] !in users) || Missing(users, me, ids[1..])
  {
    var tail := ids[1..];
    if Missing(users, me, tail) {
      var i :| 0 <= i < |tail| && tail[i] != me && tail[i] !in users;
      assert ids[i + 1] == tail[i];
    }
    if Missing(users, me, ids) {
      var i :| 0 <= i < |ids| && ids[i] != me && ids[i] !in users;
      if i > 0 { assert tail[i - 1] == ids[i]; }
    }
  }

  /** The participant loop: every participant but the current user, looked
      up in order; a participant without a user document makes the loop
      throw, and the list is then never set (`None`). */
  function ParticipantsOf(users: Users, me: Uid, ids: seq<Uid>): (r: Option<seq<Participant>>)
    ensures r.None? <==> Missing(users, me, ids)
    ensures r.Some? ==> PUids(r.value) == Filter(ids, (x: Uid) => x != me)
    ensures r.Some? ==> forall p | p in r.value :: p.uid != me && p.uid in users && p == Detail(p.uid, users[p.uid])
    decreases |ids|
  {
    if |ids| == 0 then Some([])
    else
      var rest := ParticipantsOf(users, me, ids[1..]);
      MissingCons(users, me, ids);
      if ids[0] == me then rest
      else if ids[0] !in users then None
      else if rest.None? then None
      else
        var r := [Detail(ids[0], users[ids[0]])] + rest.value;
        assert PUids(r) == [ids[0]] + PUids(rest.value);
        Some(r)
  }

  /** `unreadCounts[me]` is set to 0 only when it is above 0. */
  function ResetUnread(c: ChatDoc, me: Uid): (r: ChatDoc)
    ensures r.unreadCounts.Keys == c.unreadCounts.Keys
    ensures forall u | u in c.unreadCounts && u != me :: r.unreadCounts[u] == c.unreadCounts[u]
    ensures me in c.unreadCounts ==>
              r.unreadCounts[me] == (if c.unreadCounts[me] > 0 then 0 else c.unreadCounts[me])
    ensures r.(unreadCounts := c.unreadCounts) == c
  {
    if me in c.unreadCounts && c.unreadCounts[me] > 0 then c.(unreadCounts := c.unreadCounts[me := 0])
    else c
  }

  /** The effect of opening a chat: the store after the unread reset and the
      participant list, if one was set. */
  datatype Opened = Opened(chats: ChatStore, participants: Option<seq<Participant>>)

  /** fetchChatData. A missing chat document makes every field read throw,
      so nothing happens; in a group chat a missing participant document
      throws before the reset. */
  function Open(chats: ChatStore, users: Users, me: Uid, chatId: string, isGroupChat: bool): (o: Opened)
    ensures chatId !in chats ==> o == Opened(chats, None)
    ensures !isGroupChat ==> o.participants.None?
    ensures isGroupChat && chatId in chats ==> o.participants == ParticipantsOf(users, me, chats[chatId].participants)
    ensures o.chats.Keys == chats.Keys
    ensures forall c | c in chats && c != chatId :: o.chats[c] == chats[c]
    ensures chatId in chats && (!isGroupChat || o.participants.Some?) ==>
              o.chats[chatId] == ResetUnread(chats[chatId], me)
    ensures chatId in chats && isGroupChat && o.participants.None? ==> o.chats == chats
  {
    if chatId !in chats then Opened(chats, None)
    else
      var c := chats[chatId];
      var ps := if isGroupChat then ParticipantsOf(users, me, c.participants) else None;
      if isGroupChat && ps.None? then Opened(chats, None)
      else Opened(chats[chatId := ResetUnread(c, me)], ps)
  }

  /** Opening a chat a second time changes nothing more. */
  lemma OpenIdempotent(chats: ChatStore, users: Users, me: Uid, chatId: string, isGroupChat: bool)
    ensures var once := Open(chats, users, me, chatId, isGroupChat);
            Open(once.chats, users, me, chatId, isGroupChat) == once
  {
    var once := Open(chats, users, me, chatId, isGroupChat);
    if chatId in chats && (!isGroupChat || once.participants.Some?) {
      var c := chats[chatId];
      var r := ResetUnread(c, me);
      assert r.participants == c.participants;
      assert ResetUnread(r, me) == r;
      assert once.chats[chatId := ResetUnread(r, me)] == once.chats;
    }
  }

  /** The message a send adds: trimmed text from the current user, unread. */
  function TextMessage(me: AuthUser, input: string): (m: MessageDoc)
    ensures m.text == Trim(input) && m.senderId == me.uid && !m.read && m.kind == "text"
    ensures Truthy(me.displayName) ==> m.senderName == me.displayName
    ensures !Truthy(me.displayName) ==> m.senderName == me.email
  {
    MessageDoc(Trim(input), me.uid, Or(me.displayName, me.email), false, "text")
  }

  /** The chat summary after a send: the last message and its sender. */
  function Summarize(c: ChatDoc, sender: Uid, text: string): (r: ChatDoc)
    ensures r.lastMessage == Some(text) && r.lastMessageSenderId == Some(sender)
    ensures r.(lastMessage := c.lastMessage, lastMessageSenderId := c.lastMessageSenderId) == c
  {
    c.(lastMessage := Some(text), lastMessageSenderId := Some(sender))
  }

  /** The effect of a send: both stores, the input box, the alert shown and
      the local notification scheduled (on the sending device: the helper
      ignores the receiver). */
  datatype Sent = Sent(chats: ChatStore, messages: MessageStore, input: string, alert: Option<Alert>, notice: Option<Notice>)

  /** handleSendMessage as written. The message is added; updating a missing
      chat document fails; in a group chat the call to
      `sendGroupMessageNotification`, which NotificationHelper does not
      define, throws, so the input is kept and a failure is reported. */
  function SendAsWritten(chats: ChatStore, ms: MessageStore, users: Users, me: AuthUser, chatId: string, isGroupChat: bool, input: string): (s: Sent)
    ensures Blank(input) ==> s == Sent(chats, ms, input, None, None)
    ensures !Blank(input) ==> s.messages == Post(ms, chatId, TextMessage(me, input))
    ensures !Blank(input) && chatId !in chats ==>
              s.chats == chats && s.input == input && s.alert == Some(Error("Failed to send message"))
    ensures !Blank(input) && chatId in chats ==>
              s.chats == chats[chatId := Summarize(chats[chatId], me.uid, Trim(input))]
    ensures !Blank(input) && chatId in chats && isGroupChat ==>
              s.input == input && s.alert == Some(Error("Failed to send message")) && s.notice.None?
    ensures !Blank(input) && chatId in chats && !isGroupChat ==>
              s.input == "" && s.alert.None? && s.notice == MessageNotice(users, me.uid, Trim(input), chatId)
  {
    TrimEmptyIffBlank(input);
    if Trim(input) == [] then Sent(chats, ms, input, None, None)
    else
      var text := Trim(input);
      var ms' := Post(ms, chatId, TextMessage(me, input));
      if chatId !in chats then Sent(chats, ms', input, Some(Error("Failed to send message")), None)
      else
        var chats' := chats[chatId := Summarize(chats[chatId], me.uid, text)];
        if isGroupChat then Sent(chats', ms', input, Some(Error("Failed to send message")), None)
        else Sent(chats', ms', "", None, MessageNotice(users, me.uid, text, chatId))
  }

  /** handleSendMessage as evidently intended: a group send that reached the
      store clears the input like a direct one. */
  function Send(chats: ChatStore, ms: MessageStore, users: Users, me: AuthUser, chatId: string, isGroupChat: bool, input: string): (s: Sent)
    ensures Blank(input) ==> s == Sent(chats, ms, input, None, None)
    ensures !Blank(input) ==> s.messages == Post(ms, chatId, TextMessage(me, input))
    ensures !Blank(input) && chatId in chats ==>
              s.chats == chats[chatId := Summarize(chats[chatId], me.uid, Trim(input))]
    ensures !Blank(input) ==> (s.input == "" <==> chatId in chats)
    ensures s.alert.Some? <==> !Blank(input) && chatId !in chats
  {
    TrimEmptyIffBlank(input);
    if Trim(input) == [] then Sent(chats, ms, input, None, None)
    else
      var text := Trim(input);
      var ms' := Post(ms, chatId, TextMessage(me, input));
      if chatId !in chats then Sent(chats, ms', input, Some(Error("Failed to send message")), None)
      else
        var chats' := chats[chatId := Summarize(chats[chatId], me.uid, text)];
        if isGroupChat then Sent(chats', ms', "", None, None)
        else Sent(chats', ms', "", None, MessageNotice(users, me.uid, text, chatId))
  }

  /** Discovered discrepancy: a group message that was stored is reported
      as failed and stays in the input box, inviting a duplicate send. */
  lemma GroupSendAsWrittenKeepsInput(chats: ChatStore, ms: MessageStore, users: Users, me: AuthUser, chatId: string, input: string)
    requires !Blank(input) && chatId in chats
    ensures SendAsWritten(chats, ms, users, me, chatId, true, input).messages
            == Send(chats, ms, users, me, chatId, true, input).messages
    ensures SendAsWritten(chats, ms, users, me, chatId, true, input).chats
            == Send(chats, ms, users, me, chatId, true, input).chats
    ensures SendAsWritten(chats, ms, users, me, chatId, true, input).input == input != ""
    ensures Send(chats, ms, users, me, chatId, true, input).input == ""
  {
  }

  /** How a message is drawn. */
  datatype View = SystemLine(text: string) | Bubble(mine: bool, senderName: Option<Option<string>>, text: string)

  /** renderMessage: system messages get their own line; otherwise the
      bubble is the current user's or another's, and the sender's name is
      shown only on another's message in a group chat. */
  function Render(m: MessageDoc, me: Uid, isGroupChat: bool): (v: View)
    ensures v.SystemLine? <==> m.kind == "system"
    ensures v.text == m.text
    ensures v.Bubble? ==> (v.mine <==> m.senderId == me)
    ensures v.Bubble? ==> (v.senderName.Some? <==> m.senderId != me && isGroupChat)
    ensures v.Bubble? && v.senderName.Some? ==> v.senderName.value == m.senderName
  {
    if m.kind == "system" then SystemLine(m.text)
    else
      var mine := m.senderId == me;
      Bubble(mine, if !mine && isGroupChat then Some(m.senderName) else None, m.text)
  }

  /** One's own message is drawn as one's own bubble, without a name. */
  lemma OwnMessageRendersAsMine(me: AuthUser, input: string, isGroupChat: bool)
    ensures Render(TextMessage(me, input), me.uid, isGroupChat) == Bubble(true, None, Trim(input))
  {
  }
}

=== FILE: chat_list.dfy ===
/** The chat list: the rows built from the chats the user takes part in,
    the search filter, the unread badge, the last-message line and where a
    row leads. */
module ChatList {
  import opened Js
  import opened Text
  import opened Store
  import opened Chats
  import ChatDetail
  import CreateGroupChat

  /** A row. A direct chat carries the other participant's name and photo;
      a group chat is marked as such. */
  datatype Row =
    | DirectRow(id: string, doc: ChatDoc, recipientId: Uid, recipientName: Option<string>, recipientPhoto: Option<string>)
    | GroupRow(id: string, doc: ChatDoc)

  /** `participants.find(id => id !== me)`. */
  function FirstOther(participants: seq<Uid>, me: Uid): (r: Option<Uid>)
    ensures r.Some? ==> r.value != me && r.value in participants
    ensures r.None? <==> forall i | 0 <= i < |participants| :: participants[i] == me
  {
    Find(participants, (u: Uid) => u != me)
  }

  /** The direct chat's other participant is present, non-empty, but has no
      user document: reading its fields throws. */
  predicate Dangling(users: Users, me: Uid, c: ChatDoc)
  {
    !IsGroup(c) && Truthy(FirstOther(c.participants, me)) && FirstOther(c.participants, me).value !in users
  }

  /** The row for one chat document as evidently intended, with Firestore's
      `doc` in reach; a direct chat whose other participant is missing or
      empty gets none. */
  function RowFor(users: Users, me: Uid, id: string, c: ChatDoc): (r: Option<Row>)
    requires !Dangling(users, me, c)
    ensures IsGroup(c) ==> r == Some(GroupRow(id, c))
    ensures !IsGroup(c) ==> (r.Some? <==> Truthy(FirstOther(c.participants, me)))
    ensures r.Some? && r.value.DirectRow? ==>
              var u := r.value.recipientId;
              && r.value.id == id && r.value.doc == c
              && Some(u) == FirstOther(c.participants, me) && u != me && u != "" && u in users
              && r.value.recipientName == Or(users[u].displayName, users[u].username)
              && r.value.recipientPhoto == users[u].photoURL
  {
    if IsGroup(c) then Some(GroupRow(id, c))
    else
      var other := FirstOther(c.participants, me);
      if Truthy(other) then
        var d := users[other.value];
        Some(DirectRow(id, c, other.value, Or(d.displayName, d.username), d.photoURL))
      else None
  }

  /** The row a snapshot chat yields, `None` for a dangling one. */
  function RowOf(users: Users, me: Uid, e: (string, ChatDoc)): Option<Row>
  {
    if Dangling(users, me, e.1) then None else RowFor(users, me, e.0, e.1)
  }

  /** The row each snapshot chat yields, position by position. */
  function Candidates(users: Users, me: Uid, snapshot: seq<(string, ChatDoc)>): (r: seq<Option<Row>>)
    ensures |r| == |snapshot| && forall k | 0 <= k < |snapshot| :: r[k] == RowOf(users, me, snapshot[k])
  {
    seq(|snapshot|, k requires 0 <= k < |snapshot| => RowOf(users, me, snapshot[k]))
  }

  /** Peeling the first chat off a snapshot peels its candidate off. */
  lemma CandidatesCons(users: Users, me: Uid, snapshot: seq<(string, ChatDoc)>)
    requires |snapshot| > 0
    ensures Candidates(users, me, snapshot) == [RowOf(users, me, snapshot[0])] + Candidates(users, me, snapshot[1..])
  {
    assert Candidates(users, me, snapshot)[1..] == Candidates(users, me, snapshot[1..]);
  }

  /** With no dangling chat, the `Some` candidates are exactly the rows of
      the snapshot's chats. */
  lemma CandidateRows(users: Users, me: Uid, snapshot: seq<(string, ChatDoc)>)
    requires forall k | 0 <= k < |snapshot| :: !Dangling(users, me, snapshot[k].1)
    ensures forall k | 0 <= k < |snapshot| ::
              RowFor(users, me, snapshot[k].0, snapshot[k].1).Some? ==>
                RowFor(users, me, snapshot[k].0, snapshot[k].1).value in Somes(Candidates(users, me, snapshot))
    ensures forall row | row in Somes(Candidates(users, me, snapshot)) ::
              exists k | 0 <= k < |snapshot| :: RowFor(users, me, snapshot[k].0, snapshot[k].1) == Some(row)
  {
    var cs := Candidates(users, me, snapshot);
    forall k | 0 <= k < |snapshot| && RowFor(users, me, snapshot[k].0, snapshot[k].1).Some?
      ensures RowFor(users, me, snapshot[k].0, snapshot[k].1).value in Somes(cs)
    {
      assert cs[k] in cs;
    }
    forall row | row in Somes(cs)
      ensures exists k | 0 <= k < |snapshot| :: RowFor(users, me, snapshot[k].0, snapshot[k].1) == Some(row)
    {
      var k :| 0 <= k < |cs| && cs[k] == Some(row);
      assert RowFor(users, me, snapshot[k].0, snapshot[k].1) == Some(row);
    }
  }

  function RowId(r: Row): string
  {
    match r
    case DirectRow(id, _, _, _, _) => id
    case GroupRow(id, _) => id
  }

  /** The snapshot handler as evidently intended: one row per chat in
      snapshot order, direct chats without another participant dropped. A
      dangling direct chat makes the handler throw and the list is not set
      (`None`). */
  function BuildRows(users: Users, me: Uid, snapshot: seq<(string, ChatDoc)>): (r: Option<seq<Row>>)
    ensures r.None? <==> exists k | 0 <= k < |snapshot| :: Dangling(users, me, snapshot[k].1)
    ensures r.Some? ==> |r.value| <= |snapshot|
    ensures r.Some? ==> forall k | 0 <= k < |snapshot| ::
              RowFor(users, me, snapshot[k].0, snapshot[k].1).Some? ==>
                RowFor(users, me, snapshot[k].0, snapshot[k].1).value in r.value
    ensures r.Some? ==> forall row | row in r.value ::
              exists k | 0 <= k < |snapshot| :: RowFor(users, me, snapshot[k].0, snapshot[k].1) == Some(row)
    ensures r.Some? ==> r.value == Somes(Candidates(users, me, snapshot))
    decreases |snapshot|
  {
    if |snapshot| == 0 then Some([])
    else
      var (id, c) := snapshot[0];
      var rest := BuildRows(users, me, snapshot[1..]);
      assert forall k | 1 <= k < |snapshot| :: snapshot[k] == snapshot[1..][k - 1];
      if Dangling(users, me, c) then None
      else if rest.None? then
        var k :| 0 <= k < |snapshot[1..]| && Dangling(users, me, snapshot[1..][k].1);
        assert Dangling(users, me, snapshot[k + 1].1);
        None
      else
        var row := RowFor(users, me, id, c);
        var rows := (if row.Some? then [row.value] else []) + rest.value;
        CandidatesCons(users, me, snapshot);
        SomesCons(RowOf(users, me, snapshot[0]), Candidates(users, me, snapshot[1..]));
        CandidateRows(users, me, snapshot);
        Some(rows)
  }

  /** As written, the loop variable `doc` hides Firestore's `doc`, so the
      user lookup of a direct chat with another participant calls a
      document snapshot and throws, whether or not that user exists. */
  predicate CallsShadowedDoc(me: Uid, c: ChatDoc)
  {
    !IsGroup(c) && Truthy(FirstOther(c.participants, me))
  }

  /** The group row of each snapshot chat, position by position. */
  function GroupCandidates(snapshot: seq<(string, ChatDoc)>): (r: seq<Option<Row>>)
    ensures |r| == |snapshot|
    ensures forall k | 0 <= k < |snapshot| ::
              r[k] == if IsGroup(snapshot[k].1) then Some(GroupRow(snapshot[k].0, snapshot[k].1)) else None
  {
    seq(|snapshot|, k requires 0 <= k < |snapshot| =>
          if IsGroup(snapshot[k].1) then Some(GroupRow(snapshot[k].0, snapshot[k].1)) else None)
  }

  /** Peeling the first chat off a snapshot peels its group candidate off. */
  lemma GroupCandidatesCons(snapshot: seq<(string, ChatDoc)>)
    requires |snapshot| > 0
    ensures GroupCandidates(snapshot) == [GroupCandidates(snapshot)[0]] + GroupCandidates(snapshot[1..])
  {
    assert GroupCandidates(snapshot)[1..] == GroupCandidates(snapshot[1..]);
  }

  /** The `Some` group candidates are exactly the group rows of the
      snapshot's group chats. */
  lemma GroupCandidateRows(snapshot: seq<(string, ChatDoc)>)
    ensures forall row | row in Somes(GroupCandidates(snapshot)) :: row.GroupRow?
    ensures forall k | 0 <= k < |snapshot| && IsGroup(snapshot[k].1) ::
              GroupRow(snapshot[k].0, snapshot[k].1) in Somes(GroupCandidates(snapshot))
    ensures forall row | row in Somes(GroupCandidates(snapshot)) ::
              exists k | 0 <= k < |snapshot| :: row == GroupRow(snapshot[k].0, snapshot[k].1)
  {
    var cs := GroupCandidates(snapshot);
    forall k | 0 <= k < |snapshot| && IsGroup(snapshot[k].1)
      ensures GroupRow(snapshot[k].0, snapshot[k].1) in Somes(cs)
    {
      assert cs[k] in cs;
    }
    forall row | row in Somes(cs)
      ensures row.GroupRow? && exists k | 0 <= k < |snapshot| :: row == GroupRow(snapshot[k].0, snapshot[k].1)
    {
      var k :| 0 <= k < |cs| && cs[k] == Some(row);
      assert row == GroupRow(snapshot[k].0, snapshot[k].1);
    }
  }

  /** The snapshot handler as written: any direct chat with another
      participant makes it throw, so the list is only ever set when every
      direct chat is dropped, and then holds the group rows alone. */
  function BuildRowsAsWritten(me: Uid, snapshot: seq<(string, ChatDoc)>): (r: Option<seq<Row>>)
    ensures r.None? <==> exists k | 0 <= k < |snapshot| :: CallsShadowedDoc(me, snapshot[k].1)
    ensures r.Some? ==> forall row | row in r.value :: row.GroupRow?
    ensures r.Some? ==> forall k | 0 <= k < |snapshot| && IsGroup(snapshot[k].1) ::
              GroupRow(snapshot[k].0, snapshot[k].1) in r.value
    ensures r.Some? ==> r.value == Somes(GroupCandidates(snapshot))
    ensures r.Some? ==> forall row | row in r.value ::
              exists k | 0 <= k < |snapshot| :: row == GroupRow(snapshot[k].0, snapshot[k].1)
    decreases |snapshot|
  {
    if |snapshot| == 0 then Some([])
    else
      var (id, c) := snapshot[0];
      var rest := BuildRowsAsWritten(me, snapshot[1..]);
      assert forall k | 1 <= k < |snapshot| :: snapshot[k] == snapshot[1..][k - 1];
      if CallsShadowedDoc(me, c) then None
      else if rest.None? then
        var k :| 0 <= k < |snapshot[1..]| && CallsShadowedDoc(me, snapshot[1..][k].1);
        assert CallsShadowedDoc(me, snapshot[k + 1].1);
        None
      else
        var rows := (if IsGroup(c) then [GroupRow(id, c)] else []) + rest.value;
        GroupCandidatesCons(snapshot);
        SomesCons(GroupCandidates(snapshot)[0], GroupCandidates(snapshot[1..]));
        GroupCandidateRows(snapshot);
        Some(rows)
  }

  /** Whenever the handler as written does not throw, it sets the same list
      as the corrected one, whatever the user documents. */
  lemma {:induction false} BuildRowsAsWrittenAgrees(users: Users, me: Uid, snapshot: seq<(string, ChatDoc)>)
    ensures BuildRowsAsWritten(me, snapshot).Some? ==> BuildRows(users, me, snapshot) == BuildRowsAsWritten(me, snapshot)
    decreases |snapshot|
  {
    if |snapshot| > 0 && BuildRowsAsWritten(me, snapshot).Some? {
      BuildRowsAsWrittenAgrees(users, me, snapshot[1..]);
      assert !CallsShadowedDoc(me, snapshot[0].1);
    }
  }

  /** Discovered discrepancy: a direct chat with a recipient who has a user
      document makes the handler as written throw, where the corrected one
      lists it with the recipient's name and photo. */
  lemma ShadowedDocDropsDirectChat(bob: UserDoc)
    ensures var c := ChatDoc(None, None, None, ["ann", "bob"], map[], None, None, map[]);
            && BuildRowsAsWritten("ann", [("c1", c)]).None?
            && BuildRows(map["bob" := bob], "ann", [("c1", c)])
               == Some([DirectRow("c1", c, "bob", Or(bob.displayName, bob.username), bob.photoURL)])
  {
    var c := ChatDoc(None, None, None, ["ann", "bob"], map[], None, None, map[]);
    assert FirstOther(c.participants, "ann") == Some("bob") by {
      assert c.participants[0] == "ann" && c.participants[1] == "bob";
    }
    var users := map["bob" := bob];
    var snapshot := [("c1", c)];
    var row := DirectRow("c1", c, "bob", Or(bob.displayName, bob.username), bob.photoURL);
    assert CallsShadowedDoc("ann", snapshot[0].1);
    assert snapshot[1..] == [];
    assert RowFor(users, "ann", "c1", c) == Some(row);
    assert [row] + [] == [row];
    assert BuildRows(users, "ann", snapshot) == Some([row]);
  }

  /** The chat's other participant is a friend whose username contains the
      lower-cased query; `None` when the friend's username is missing, which
      makes `toLowerCase` throw. */
  function Keeps(row: Row, friends: seq<Entry>, me: Uid, query: string): (r: Option<bool>)
    ensures var other := FirstOther(row.doc.participants, me);
            var f := Find(friends, (e: Entry) => Some(e.uid) == other);
            && (f.None? ==> r == Some(false))
            && (f.Some? && f.value.username.None? ==> r.None?)
            && (f.Some? && f.value.username.Some? ==>
                  r == Some(Includes(ToLower(f.value.username.value), ToLower(query))))
  {
    var other := FirstOther(row.doc.participants, me);
    match Find(friends, (e: Entry) => Some(e.uid) == other)
    case None => Some(false)
    case Some(f) =>
      if f.username.None? then None
      else Some(Includes(ToLower(f.username.value), ToLower(query)))
  }

  /** filteredChats: the rows kept, in order; `None` if any check throws. The
      query is not trimmed, and group rows are checked like direct ones. */
  function FilterRows(rows: seq<Row>, friends: seq<Entry>, me: Uid, query: string): (r: Option<seq<Row>>)
    ensures r.None? <==> exists i | 0 <= i < |rows| :: Keeps(rows[i], friends, me, query).None?
    ensures r.Some? ==> Subsequence(r.value, rows)
    ensures r.Some? ==> forall row :: row in r.value <==> row in rows && Keeps(row, friends, me, query) == Some(true)
    decreases |rows|
  {
    if |rows| == 0 then Some([])
    else
      var k := Keeps(rows[0], friends, me, query);
      var rest := FilterRows(rows[1..], friends, me, query);
      assert forall i | 1 <= i < |rows| :: rows[i] == rows[1..][i - 1];
      if k.None? then None
      else if rest.None? then
        var i :| 0 <= i < |rows[1..]| && Keeps(rows[1..][i], friends, me, query).None?;
        assert Keeps(rows[i + 1], friends, me, query).None?;
        None
      else if k.value then
        var r := [rows[0]] + rest.value;
        assert r[1..] == rest.value;
        Some(r)
      else Some(rest.value)
  }

  /** With an empty query the filter still drops every chat whose other
      participant is not among the friends. */
  lemma EmptyQueryKeepsFriendChats(row: Row, friends: seq<Entry>, me: Uid)
    requires forall f | f in friends :: f.username.Some?
    ensures Keeps(row, friends, me, "") == Some(FirstOther(row.doc.participants, me).Some? &&
                                                FirstOther(row.doc.participants, me).value in Uids(friends))
  {
    var other := FirstOther(row.doc.participants, me);
    var f := Find(friends, (e: Entry) => Some(e.uid) == other);
    if f.Some? {
      IncludesEmpty(ToLower(f.value.username.value));
      var i :| 0 <= i < |friends| && friends[i] == f.value;
      assert Uids(friends)[i] == f.value.uid;
    } else if other.Some? {
      forall i | 0 <= i < |friends| ensures Uids(friends)[i] != other.value {
        assert Some(friends[i].uid) != other;
      }
    }
  }

  /** The badge number: `unreadCounts[me]` when truthy, else 0. */
  function UnreadShown(c: ChatDoc, me: Uid): (n: int)
    ensures n != 0 ==> me in c.unreadCounts && n == c.unreadCounts[me]
    ensures me in c.unreadCounts ==> n == c.unreadCounts[me]
    ensures me !in c.unreadCounts ==> n == 0
  {
    if me in c.unreadCounts && c.unreadCounts[me] != 0 then c.unreadCounts[me] else 0
  }

  /** Opening a chat clears its positive badge and leaves the other chats'
      badges alone. */
  lemma OpenClearsBadge(chats: ChatStore, users: Users, me: Uid, chatId: string, isGroupChat: bool)
    requires chatId in chats
    requires !isGroupChat || ChatDetail.ParticipantsOf(users, me, chats[chatId].participants).Some?
    ensures var after := ChatDetail.Open(chats, users, me, chatId, isGroupChat).chats;
            UnreadShown(after[chatId], me) == (if UnreadShown(chats[chatId], me) > 0 then 0 else UnreadShown(chats[chatId], me))
            && forall c | c in chats && c != chatId :: UnreadShown(after[c], me) == UnreadShown(chats[c], me)
  {
  }

  /** The last-message line as written: `You: ${lastMessage}` when the
      current user sent the last message, which shows "You: null" for a
      group that has no message yet. */
  function LastLineAsWritten(c: ChatDoc, me: Uid): (s: string)
    ensures c.lastMessageSenderId == Some(me) ==>
              s == "You: " + (if c.lastMessage.Some? then c.lastMessage.value else "null")
    ensures c.lastMessageSenderId != Some(me) ==>
              s == (if c.lastMessage.Some? then c.lastMessage.value else "")
  {
    var text := match c.lastMessage case Some(t) => t case None => "null";
    if c.lastMessageSenderId == Some(me) then "You: " + text
    else match c.lastMessage case Some(t) => t case None => ""
  }

  /** The last-message line as evidently intended: the "You: " prefix only
      in front of an actual message. */
  function LastLine(c: ChatDoc, me: Uid): (s: string)
    ensures c.lastMessage.None? ==> s == ""
    ensures c.lastMessage.Some? && c.lastMessageSenderId == Some(me) ==>
              |s| == 5 + |c.lastMessage.value| && s[..5] == "You: " && s[5..] == c.lastMessage.value
    ensures c.lastMessage.Some? && c.lastMessageSenderId != Some(me) ==> s == c.lastMessage.value
  {
    match c.lastMessage
    case None => ""
    case Some(t) => if c.lastMessageSenderId == Some(me) then "You: " + t else t
  }

  /** A chat whose last sender is the current user but which has no last
      message yet reads "You: null" as written, and nothing as intended. */
  lemma NoMessageShowsYouNull(c: ChatDoc, me: Uid)
    requires c.lastMessage.None? && c.lastMessageSenderId == Some(me)
    ensures LastLineAsWritten(c, me) == "You: null"
    ensures LastLine(c, me) == ""
  {
    assert LastLineAsWritten(c, me) == "You: " + "null";
  }

  /** Discovered discrepancy: the creator of a new group sees "You: null". */
  lemma NewGroupShowsYouNull(me: AuthUser, name: string, sel: seq<Entry>)
    ensures LastLineAsWritten(CreateGroupChat.GroupDoc(me, name, sel), me.uid) == "You: null"
    ensures LastLine(CreateGroupChat.GroupDoc(me, name, sel), me.uid) == ""
  {
    NoMessageShowsYouNull(CreateGroupChat.GroupDoc(me, name, sel), me.uid);
  }

  /** After a send the sender's row reads "You: <text>". */
  lemma SendShowsYou(c: ChatDoc, me: Uid, text: string)
    ensures LastLine(ChatDetail.Summarize(c, me, text), me) == "You: " + text
    ensures LastLineAsWritten(ChatDetail.Summarize(c, me, text), me) == "You: " + text
  {
  }

  /** The parameters a row passes to the chat screen. */
  datatype Route =
    | GroupRoute(chatId: string, groupName: Option<string>)
    | DirectRoute(chatId: string, recipientId: Uid, recipientName: Option<string>, recipientPhoto: Option<string>)

  /** handleChatPress. */
  function Press(row: Row): (r: Route)
    ensures row.GroupRow? <==> r.GroupRoute?
    ensures r.chatId == RowId(row)
    ensures row.GroupRow? ==> r.groupName == row.doc.name
    ensures row.DirectRow? ==> r.recipientId == row.recipientId && r.recipientName == row.recipientName
                               && r.recipientPhoto == row.recipientPhoto
  {
    match row
    case GroupRow(id, c) => GroupRoute(id, c.name)
    case DirectRow(id, _, u, n, p) => DirectRoute(id, u, n, p)
  }
}

=== FILE: chat_slice.dfy ===
/** The client-side chat store: the chat list, the open chat, its messages
    and the shared loading and error flags, changed only by the reducers
    below. */
module ChatSlice {
  import opened Js
  import opened Records

  /** `activeChat` is `None` for null. */
  datatype State = State(chats: seq<Record>, activeChat: Option<Record>, messages: seq<Record>, flags: Flags)

  const Initial := State([], None, [], Flags(false, Null))

  /** The slice's actions, one per reducer. */
  datatype Action =
    | FetchChatsStart
    | FetchChatsSuccess(chats: seq<Record>)
    | FetchChatsFailure(error: Value)
    | SetActiveChat(active: Option<Record>)
    | FetchMessagesStart
    | FetchMessagesSuccess(messages: seq<Record>)
    | FetchMessagesFailure(error: Value)
    | AddMessage(message: Record)
    | AddChat(chat: Record)
    | UpdateChat(payload: Record)
    | ClearMessages

  /** The reducer. */
  function Reduce(s: State, a: Action): (r: State)
    // the flags: start, success and failure
    ensures a.FetchChatsStart? || a.FetchMessagesStart? ==> r.flags.loading && r.flags.error == Null
    ensures a.FetchChatsSuccess? || a.FetchMessagesSuccess? ==> !r.flags.loading && r.flags.error == Null
    ensures a.FetchChatsFailure? || a.FetchMessagesFailure? ==> !r.flags.loading && r.flags.error == a.error
    ensures r.flags != s.flags ==> a.FetchChatsStart? || a.FetchChatsSuccess? || a.FetchChatsFailure?
                                   || a.FetchMessagesStart? || a.FetchMessagesSuccess? || a.FetchMessagesFailure?
    // the chat list
    ensures a.FetchChatsSuccess? ==> r.chats == a.chats
    ensures a.AddChat? ==> |r.chats| == |s.chats| + 1 && r.chats[..|s.chats|] == s.chats && r.chats[|s.chats|] == a.chat
    ensures a.UpdateChat? ==> r.chats == UpdateById(s.chats, a.payload)
    ensures r.chats != s.chats ==> a.FetchChatsSuccess? || a.AddChat? || a.UpdateChat?
    // the messages
    ensures a.FetchMessagesSuccess? ==> r.messages == a.messages
    ensures a.AddMessage? ==> |r.messages| == |s.messages| + 1 && r.messages[..|s.messages|] == s.messages
                              && r.messages[|s.messages|] == a.message
    ensures a.ClearMessages? ==> r.messages == []
    ensures r.messages != s.messages ==> a.FetchMessagesSuccess? || a.AddMessage? || a.ClearMessages?
    // the open chat
    ensures a.SetActiveChat? ==> r.activeChat == a.active
    ensures r.activeChat != s.activeChat ==> a.SetActiveChat?
  {
    match a
    case FetchChatsStart => s.(flags := Begin(s.flags))
    case FetchChatsSuccess(cs) => s.(chats := cs, flags := Succeed(s.flags))
    case FetchChatsFailure(e) => s.(flags := Fail(s.flags, e))
    case SetActiveChat(c) => s.(activeChat := c)
    case FetchMessagesStart => s.(flags := Begin(s.flags))
    case FetchMessagesSuccess(ms) => s.(messages := ms, flags := Succeed(s.flags))
    case FetchMessagesFailure(e) => s.(flags := Fail(s.flags, e))
    case AddMessage(m) => s.(messages := s.messages + [m])
    case AddChat(c) => s.(chats := s.chats + [c])
    case UpdateChat(p) => s.(chats := UpdateById(s.chats, p))
    case ClearMessages => s.(messages := [])
  }

  /** Updating a chat that was just added, under an id no earlier chat
      carries, is the same as adding the merged chat. */
  lemma UpdateAddedChat(s: State, c: Record, p: Record)
    requires IdOf(c) == IdOf(p)
    requires forall i | 0 <= i < |s.chats| :: IdOf(s.chats[i]) != IdOf(p)
    ensures Reduce(Reduce(s, AddChat(c)), UpdateChat(p)) == Reduce(s, AddChat(Spread(c, p)))
  {
    FindIndexAppend(s.chats, c, IdOf(p));
    assert (s.chats + [c])[|s.chats| := Spread(c, p)] == s.chats + [Spread(c, p)];
  }

  /** Clearing the messages forgets an added message. */
  lemma ClearForgetsAdded(s: State, m: Record)
    ensures Reduce(Reduce(s, AddMessage(m)), ClearMessages) == Reduce(s, ClearMessages)
  {
  }

  /** An update whose id is absent from the list changes nothing. */
  lemma UpdateAbsentChat(s: State, p: Record)
    requires forall i | 0 <= i < |s.chats| :: IdOf(s.chats[i]) != IdOf(p)
    ensures Reduce(s, UpdateChat(p)) == s
  {
  }
}

=== FILE: chats.dfy ===
/** The `chats` collection and its `messages` sub-collections. Server
    timestamps are not modelled: a message sub-collection is a sequence in
    the order the messages were added, which is the order the chat screen
    lists them in. */
module Chats {
  import opened Js
  import opened Store

  /** A chat document. `kind` is the `type` field ('group' for group chats);
      `participantNames` maps a uid to the name shown for it; a missing entry
      of `unreadCounts` reads as undefined. */
  datatype ChatDoc = ChatDoc(
    kind: Option<string>,
    name: Option<string>,
    createdBy: Option<Uid>,
    participants: seq<Uid>,
    participantNames: map<Uid, Option<string>>,
    lastMessage: Option<string>,
    lastMessageSenderId: Option<Uid>,
    unreadCounts: map<Uid, int>)

  predicate IsGroup(c: ChatDoc)
  {
    c.kind == Some("group")
  }

  /** A document of a chat's `messages` sub-collection; `kind` is its `type`
      field ('text' or 'system'). */
  datatype MessageDoc = MessageDoc(text: string, senderId: string, senderName: Option<string>, read: bool, kind: string)

  type ChatStore = map<string, ChatDoc>

  /** Message sub-collections by chat id; a chat without an entry has no
      messages. A sub-collection can be written whether or not its chat
      document exists. */
  type MessageStore = map<string, seq<MessageDoc>>

  function MessagesOf(ms: MessageStore, chatId: string): seq<MessageDoc>
  {
    if chatId in ms then ms[chatId] else []
  }

  /** `addDoc` on a chat's `messages` sub-collection. */
  function Post(ms: MessageStore, chatId: string, m: MessageDoc): (r: MessageStore)
    ensures MessagesOf(r, chatId) == MessagesOf(ms, chatId) + [m]
    ensures forall c | c != chatId :: MessagesOf(r, c) == MessagesOf(ms, c)
  {
    ms[chatId := MessagesOf(ms, chatId) + [m]]
  }
}

=== FILE: create_story.dfy ===
/** The story composer: the chosen image, the caption, the camera toggles,
    and posting the story. Upload and download-URL retrieval are reduced to
    their outcome, a download URL or a failure. */
module CreateStory {
  import opened Js
  import opened Text
  import opened Store
  import opened Ui
  import opened Stories

  /** The composer's state; `image` is the chosen image's uri, if any. */
  datatype Composer = Composer(image: Option<string>, caption: string, facing: Facing, flash: Flash)

  /** handleRetake: back to the camera with an empty caption. */
  function Retake(c: Composer): (r: Composer)
    ensures r.image.None? && r.caption == ""
    ensures r.facing == c.facing && r.flash == c.flash
  {
    c.(image := None, caption := "")
  }

  /** handleFlipCamera and handleFlashToggle. */
  function FlipCamera(c: Composer): (r: Composer)
    ensures r.facing == Flip(c.facing) && r.(facing := c.facing) == c
  {
    c.(facing := Flip(c.facing))
  }

  function SwitchFlash(c: Composer): (r: Composer)
    ensures r.flash == ToggleFlash(c.flash) && r.(flash := c.flash) == c
  {
    c.(flash := ToggleFlash(c.flash))
  }

  /** The storage path of an upload: `stories/<uid>/<milliseconds>`. */
  function StoragePath(uid: Uid, now: nat): (p: string)
    ensures |p| == 8 + |uid| + 1 + |NatToString(now)|
    ensures p[..8] == "stories/" && p[8..8 + |uid|] == uid && p[8 + |uid|] == '/'
    ensures p[9 + |uid|..] == NatToString(now)
  {
    "stories/" + uid + "/" + NatToString(now)
  }

  /** The document a post writes. The username and photo come from the
      profile when set, else the email and null; the caption is trimmed;
      the story expires a day after `now`. */
  function StoryDoc(user: AuthUser, profile: Option<UserDoc>, now: int, caption: string, url: string): (s: PostedStory)
    ensures s.userId == user.uid
    ensures profile.Some? && Truthy(profile.value.username) ==> s.username == profile.value.username
    ensures (profile.None? || !Truthy(profile.value.username)) ==> s.username == user.email
    ensures s.userPhoto.Some? <==> profile.Some? && Truthy(profile.value.photoURL)
    ensures s.userPhoto.Some? ==> s.userPhoto == profile.value.photoURL
    ensures s.expiresAt - now == DayMs
    ensures s.caption == Trim(caption)
    ensures s.media == [Media(url, "image")] && s.views == []
  {
    var username := if profile.Some? then profile.value.username else None;
    var photo := if profile.Some? then profile.value.photoURL else None;
    PostedStory(user.uid, Or(username, user.email), Or(photo, None), now + DayMs, Trim(caption), [Media(url, "image")], [])
  }

  /** The effect of a post: the store, the upload made, and the alert. */
  datatype Posted = Posted(stories: PostedStories, upload: Option<string>, alert: Alert)

  /** handlePost. `pathNow` and `now` are the two clock readings; `newId` is
      the id the backend gives the new document (a fresh one); `download` is the uploaded file's URL,
      or `None` when the upload fails. */
  function Post(c: Composer, user: AuthUser, profile: Option<UserDoc>, stories: PostedStories, newId: string,
                pathNow: nat, now: int, download: Option<string>): (p: Posted)
    ensures !Truthy(c.image) ==> p == Posted(stories, None, Error("Please capture or select an image first"))
    ensures Truthy(c.image) ==> p.upload == Some(StoragePath(user.uid, pathNow))
    ensures Truthy(c.image) && download.None? ==> p.stories == stories && p.alert == Error("Failed to post story")
    ensures Truthy(c.image) && download.Some? ==>
              && p.stories == stories[newId := StoryDoc(user, profile, now, c.caption, download.value)]
              && p.alert == Done("Your story has been posted!")
    ensures p.stories.Keys <= stories.Keys + {newId}
  {
    if !Truthy(c.image) then Posted(stories, None, Error("Please capture or select an image first"))
    else
      var path := StoragePath(user.uid, pathNow);
      match download
      case None => Posted(stories, Some(path), Error("Failed to post story"))
      case Some(url) =>
        Posted(stories[newId := StoryDoc(user, profile, now, c.caption, url)], Some(path), Done("Your story has been posted!"))
  }

  /** A post adds exactly one story, owned by the poster and not yet seen
      by anyone, and leaves every other story as it was. */
  lemma PostAddsOneStory(c: Composer, user: AuthUser, profile: Option<UserDoc>, stories: PostedStories, newId: string,
                         pathNow: nat, now: int, url: string)
    requires newId !in stories && Truthy(c.image)
    ensures var after := Post(c, user, profile, stories, newId, pathNow, now, Some(url)).stories;
            && after.Keys == stories.Keys + {newId}
            && (forall id | id in stories :: after[id] == stories[id])
            && after[newId].userId == user.uid && after[newId].views == []
            && |after[newId].media| == 1 && after[newId].media[0].kind == "image"
  {
  }

  /** After a retake nothing can be posted. */
  lemma RetakeBlocksPost(c: Composer, user: AuthUser, profile: Option<UserDoc>, stories: PostedStories, newId: string,
                         pathNow: nat, now: int, download: Option<string>)
    ensures Post(Retake(c), user, profile, stories, newId, pathNow, now, download).stories == stories
    ensures Post(Retake(c), user, profile, stories, newId, pathNow, now, download).upload.None?
  {
  }
}

=== FILE: edit_profile.dfy ===
/** The profile editor: loading the user's fields, saving them trimmed,
    cancelling back to what was loaded, and the bio length cap. */
module EditProfile {
  import opened Js
  import opened Text
  import opened Store
  import opened Ui

  /** The four edited fields; `photoURL` is `None` for null. */
  datatype Fields = Fields(username: string, displayName: string, bio: string, photoURL: Option<string>)

  /** The editor: the fields as edited and the snapshot taken at load time
      (`None` until a document was loaded, the source's `{}`). */
  datatype Editor = Editor(fields: Fields, original: Option<Fields>)

  /** A user document's fields with the editor's defaults: '' for text,
      null for the photo. */
  function Loaded(d: UserDoc): (f: Fields)
    ensures f.username == OrText(d.username, "") && f.displayName == OrText(d.displayName, "")
    ensures f.bio == OrText(d.bio, "")
    ensures f.photoURL.Some? <==> Truthy(d.photoURL)
    ensures f.photoURL.Some? ==> f.photoURL == d.photoURL
  {
    Fields(OrText(d.username, ""), OrText(d.displayName, ""), OrText(d.bio, ""), Or(d.photoURL, None))
  }

  /** The editor as it opens, before the load: from the store's profile,
      if one is there, with the same defaults. */
  function Opening(profile: Option<UserDoc>): (e: Editor)
    ensures e.original.None?
    ensures profile.Some? ==> e.fields == Loaded(profile.value)
    ensures profile.None? ==> e.fields == Fields("", "", "", None)
  {
    match profile
    case Some(d) => Editor(Loaded(d), None)
    case None => Editor(Fields("", "", "", None), None)
  }

  /** fetchUserData: with a document, both the fields and the snapshot
      take its values; without one nothing changes. */
  function Fetch(e: Editor, users: Users, uid: Uid): (r: Editor)
    ensures uid !in users ==> r == e
    ensures uid in users ==> r.fields == Loaded(users[uid]) && r.original == Some(r.fields)
  {
    if uid in users then Editor(Loaded(users[uid]), Some(Loaded(users[uid]))) else e
  }

  /** handleCancel: all four fields back to the snapshot; `None` when no
      snapshot was taken, which leaves them undefined. The screen is left
      either way. */
  function Cancel(e: Editor): (r: Option<Fields>)
    ensures r == e.original
  {
    e.original
  }

  /** Whatever was edited after a load, cancelling restores the load. */
  lemma CancelRestoresLoad(e: Editor, users: Users, uid: Uid, edited: Fields)
    requires uid in users
    ensures Cancel(Fetch(e, users, uid).(fields := edited)) == Some(Loaded(users[uid]))
  {
  }

  /** The fields a save writes: the three texts trimmed, the photo as is. */
  function Trimmed(f: Fields): (t: Fields)
    ensures t.username == Trim(f.username) && t.displayName == Trim(f.displayName)
    ensures t.bio == Trim(f.bio) && t.photoURL == f.photoURL
  {
    Fields(Trim(f.username), Trim(f.displayName), Trim(f.bio), f.photoURL)
  }

  /** Saving twice writes the same fields. */
  lemma TrimmedIdempotent(f: Fields)
    ensures Trimmed(Trimmed(f)) == Trimmed(f)
  {
    TrimIdempotent(f.username);
    TrimIdempotent(f.displayName);
    TrimIdempotent(f.bio);
  }

  /** The user document after a save. */
  function Write(d: UserDoc, t: Fields): (r: UserDoc)
    ensures r.username == Some(t.username) && r.displayName == Some(t.displayName)
    ensures r.bio == Some(t.bio) && r.photoURL == t.photoURL
    ensures r.(username := d.username, displayName := d.displayName, bio := d.bio, photoURL := d.photoURL) == d
  {
    d.(username := Some(t.username), displayName := Some(t.displayName), bio := Some(t.bio), photoURL := t.photoURL)
  }

  /** The effect of a save: the user documents, the signed-in account's
      profile, the profile the client store holds, the alert, and whether
      the screen is left. */
  datatype Saved = Saved(users: Users, session: Option<AuthUser>, profile: Option<Fields>, alert: Alert, left: bool)

  /** handleSave as written. A blank username is refused. A missing user
      document makes the update fail. Otherwise the document and the
      account are updated, and then the call to `updateUserProfile`, which
      the user store does not define, throws: a failure is reported and
      the screen stays. */
  function SaveAsWritten(e: Editor, users: Users, uid: Uid, session: Option<AuthUser>, profile: Option<Fields>): (s: Saved)
    ensures Blank(e.fields.username) ==> s == Saved(users, session, profile, Error("Username is required"), false)
    ensures !Blank(e.fields.username) && uid !in users ==>
              s == Saved(users, session, profile, Error("Failed to update profile"), false)
    ensures !Blank(e.fields.username) && uid in users ==>
              && s.users == users[uid := Write(users[uid], Trimmed(e.fields))]
              && s.profile == profile && s.alert == Error("Failed to update profile") && !s.left
  {
    TrimEmptyIffBlank(e.fields.username);
    if Trim(e.fields.username) == "" then Saved(users, session, profile, Error("Username is required"), false)
    else if uid !in users then Saved(users, session, profile, Error("Failed to update profile"), false)
    else
      var t := Trimmed(e.fields);
      Saved(users[uid := Write(users[uid], t)], Account(session, t), profile, Error("Failed to update profile"), false)
  }

  /** The signed-in account's display name and photo after a save. */
  function Account(session: Option<AuthUser>, t: Fields): (r: Option<AuthUser>)
    ensures r.Some? <==> session.Some?
    ensures r.Some? ==> r.value == session.value.(displayName := Some(t.displayName), photoURL := t.photoURL)
  {
    match session
    case None => None
    case Some(u) => Some(u.(displayName := Some(t.displayName), photoURL := t.photoURL))
  }

  /** handleSave as evidently intended: the same record goes to the user
      document and to the client store, success is reported and the
      screen is left. */
  function Save(e: Editor, users: Users, uid: Uid, session: Option<AuthUser>, profile: Option<Fields>): (s: Saved)
    ensures Blank(e.fields.username) ==> s == Saved(users, session, profile, Error("Username is required"), false)
    ensures !Blank(e.fields.username) && uid !in users ==>
              s == Saved(users, session, profile, Error("Failed to update profile"), false)
    ensures !Blank(e.fields.username) && uid in users ==>
              && s.users == users[uid := Write(users[uid], Trimmed(e.fields))]
              && s.session == Account(session, Trimmed(e.fields))
              && s.profile == Some(Trimmed(e.fields)) && s.alert == Done("Profile updated successfully") && s.left
    ensures s.left ==> s.profile.Some? && s.profile.value.username != ""
  {
    TrimEmptyIffBlank(e.fields.username);
    if Trim(e.fields.username) == "" then Saved(users, session, profile, Error("Username is required"), false)
    else if uid !in users then Saved(users, session, profile, Error("Failed to update profile"), false)
    else
      var t := Trimmed(e.fields);
      Saved(users[uid := Write(users[uid], t)], Account(session, t), Some(t), Done("Profile updated successfully"), true)
  }

  /** Discovered discrepancy: a save that reached the user document and
      the account still reports failure and keeps the screen open. */
  lemma SaveAsWrittenReportsFailure(e: Editor, users: Users, uid: Uid, session: Option<AuthUser>, profile: Option<Fields>)
    requires !Blank(e.fields.username) && uid in users
    ensures SaveAsWritten(e, users, uid, session, profile).users == Save(e, users, uid, session, profile).users
    ensures SaveAsWritten(e, users, uid, session, profile).session == Save(e, users, uid, session, profile).session
    ensures SaveAsWritten(e, users, uid, session, profile).alert == Error("Failed to update profile")
    ensures Save(e, users, uid, session, profile).alert == Done("Profile updated successfully")
  {
  }

  /** The longest bio the input accepts. */
  const MaxBio := 150

  /** The bio input's `maxLength`: typing stops at 150 characters. */
  function TypeBio(text: string): (b: string)
    ensures |b| <= MaxBio
    ensures |text| <= MaxBio ==> b == text
    ensures |text| > MaxBio ==> b == text[..MaxBio]
  {
    if |text| > MaxBio then text[..MaxBio] else text
  }

  /** The counter under the bio: `<length>/150`. */
  function Counter(bio: string): (c: string)
    ensures |c| == |NatToString(|bio|)| + 4 && c[..|NatToString(|bio|)|] == NatToString(|bio|)
    ensures c[|NatToString(|bio|)|..] == "/150"
  {
    NatToString(|bio|) + "/150"
  }

  /** A typed bio's counter reads back a number of at most 150. */
  lemma CounterBounded(text: string)
    ensures var c := Counter(TypeBio(text));
            var digits := c[..|c| - 4];
            AllDigits(digits) && ParseNat(digits) <= MaxBio
  {
    var b := TypeBio(text);
    var c := Counter(b);
    assert c[..|c| - 4] == NatToString(|b|);
    ParseNatToString(|b|);
  }
}

=== FILE: filter_assets.dfy ===
/** The filter tables the filter picker shows, and how they line up with
    the filter helpers. */
module FilterAssets {
  import FilterUtils

  /** A picker entry. */
  datatype Thumbnail = Thumbnail(id: string, name: string, icon: string)

  const Thumbnails: seq<Thumbnail> := [
    Thumbnail("none", "None", "\U{1F50D}"),
    Thumbnail("sepia", "Sepia", "\U{1F305}"),
    Thumbnail("grayscale", "B&W", "\U{26AB}"),
    Thumbnail("vintage", "Vintage", "\U{1F4F7}"),
    Thumbnail("blur", "Blur", "\U{1F32B}\U{FE0F}"),
    Thumbnail("saturate", "Vibrant", "\U{1F308}"),
    Thumbnail("invert", "Invert", "\U{1F504}"),
    Thumbnail("dog", "Dog", FilterUtils.Dog),
    Thumbnail("cat", "Cat", FilterUtils.Cat),
    Thumbnail("bunny", "Bunny", FilterUtils.Bunny)
  ]

  const FaceFilterEmojis: map<string, string> :=
    map["dog" := FilterUtils.Dog, "cat" := FilterUtils.Cat, "bunny" := FilterUtils.Bunny]

  const Overlays: map<string, string> := map[
    "sepia" := "rgba(112, 66, 20, 0.2)",
    "grayscale" := "rgba(0, 0, 0, 0.4)",
    "vintage" := "rgba(255, 240, 200, 0.2)",
    "saturate" := "rgba(255, 100, 100, 0.1)",
    "blur" := "transparent",
    "invert" := "transparent",
    "none" := "transparent"
  ]

  const FaceFilters: seq<string> := ["dog", "cat", "bunny"]

  /** isFaceFilter: membership in the face-filter list. */
  predicate IsFaceFilter(f: string)
  {
    f in FaceFilters
  }

  function ThumbnailIds(ts: seq<Thumbnail>): (ids: seq<string>)
    ensures |ids| == |ts| && forall i | 0 <= i < |ts| :: ids[i] == ts[i].id
  {
    seq(|ts|, i requires 0 <= i < |ts| => ts[i].id)
  }

  /** The two files agree on which filters are face filters, and the face
      filters are exactly the keys of the emoji table. */
  lemma FaceFiltersAgree(f: string)
    ensures IsFaceFilter(f) <==> FilterUtils.IsFaceFilter(f)
    ensures IsFaceFilter(f) <==> f in FaceFilterEmojis
    ensures IsFaceFilter(f) <==> FilterUtils.Assets(f).Some?
  {
  }

  /** The overlay table gives every filter it lists the colour the helper
      computes. */
  lemma OverlaysAgree()
    ensures forall f | f in Overlays :: Overlays[f] == FilterUtils.Overlay(f)
  {
    forall f | f in Overlays ensures Overlays[f] == FilterUtils.Overlay(f) {
      assert f in {"sepia", "grayscale", "vintage", "saturate", "blur", "invert", "none"};
    }
  }

  /** The emoji table holds the intended emoji, which the helper's
      corrected lookup returns and its literals as written do not. */
  lemma EmojisAgree(f: string)
    requires IsFaceFilter(f)
    ensures FaceFilterEmojis[f] == FilterUtils.FaceEmoji(f)
    ensures FaceFilterEmojis[f] != FilterUtils.FaceEmojiAsWritten(f)
  {
    FilterUtils.EmojiMisread(f);
  }

  /** The picker's ids are distinct, start with 'none', and cover every
      overlay and every face filter. */
  lemma ThumbnailsCover()
    ensures var ids := ThumbnailIds(Thumbnails);
            && ids[0] == "none"
            && (forall i, j | 0 <= i < j < |ids| :: ids[i] != ids[j])
            && (forall f | f in Overlays :: f in ids)
            && (forall f | f in FaceFilters :: f in ids)
  {
    var ids := ThumbnailIds(Thumbnails);
    assert ids == ["none", "sepia", "grayscale", "vintage", "blur", "saturate", "invert", "dog", "cat", "bunny"];
  }
}

=== FILE: filter_utils.dfy ===
/** The camera filter helpers: overlay colour, blend mode, which filters
    are face filters, their emoji and their image assets. */
module FilterUtils {
  import opened Js

  /** The colour filters that tint the picture. */
  predicate Tinted(f: string)
  {
    f == "sepia" || f == "grayscale" || f == "vintage" || f == "saturate"
  }

  /** getFilterOverlay: a tint for the four colour filters, transparent
      for everything else. */
  function Overlay(f: string): (c: string)
    ensures c != "transparent" <==> Tinted(f)
    ensures f == "sepia" ==> c == "rgba(112, 66, 20, 0.2)"
    ensures f == "grayscale" ==> c == "rgba(0, 0, 0, 0.4)"
    ensures f == "vintage" ==> c == "rgba(255, 240, 200, 0.2)"
    ensures f == "saturate" ==> c == "rgba(255, 100, 100, 0.1)"
  {
    match f
    case "sepia" => "rgba(112, 66, 20, 0.2)"
    case "grayscale" => "rgba(0, 0, 0, 0.4)"
    case "vintage" => "rgba(255, 240, 200, 0.2)"
    case "saturate" => "rgba(255, 100, 100, 0.1)"
    case "blur" => "transparent"
    case "invert" => "transparent"
    case _ => "transparent"
  }

  /** getFilterBlendMode: five filters blend specially, the rest normally. */
  function BlendMode(f: string): (m: string)
    ensures m != "normal" <==> Tinted(f) || f == "invert"
    ensures f == "sepia" ==> m == "multiply"
    ensures f == "grayscale" ==> m == "saturation"
    ensures f == "vintage" ==> m == "overlay"
    ensures f == "saturate" ==> m == "screen"
    ensures f == "invert" ==> m == "difference"
  {
    match f
    case "sepia" => "multiply"
    case "grayscale" => "saturation"
    case "vintage" => "overlay"
    case "saturate" => "screen"
    case "invert" => "difference"
    case _ => "normal"
  }

  /** Only tinted filters have a non-normal blend, except invert, which
      blends without a tint. */
  lemma TintImpliesBlend(f: string)
    ensures Overlay(f) != "transparent" ==> BlendMode(f) != "normal"
    ensures BlendMode(f) != "normal" && Overlay(f) == "transparent" ==> f == "invert"
  {
  }

  /** isFaceFilter. */
  predicate IsFaceFilter(f: string)
  {
    f in ["dog", "cat", "bunny"]
  }

  /** The intended emoji for each face filter. */
  const Dog := "\U{1F436}"
  const Cat := "\U{1F431}"
  const Bunny := "\U{1F430}"

  /** getFaceFilterEmoji as written: the literals are the emoji's UTF-8
      bytes read back as Windows-1252 text (see `Misread`), so each is three
      odd characters rather than an emoji. Unknown filters get the dog's. */
  function FaceEmojiAsWritten(f: string): (e: string)
    ensures |e| == 3 && e[0] == 'ð' && e[1] == 'Ÿ'
    ensures f == "cat" ==> e[2] == '±'
    ensures f == "bunny" ==> e[2] == '°'
    ensures f != "cat" && f != "bunny" ==> e[2] == '¶'
  {
    match f
    case "dog" => "ðŸ¶"
    case "cat" => "ðŸ±"
    case "bunny" => "ðŸ°"
    case _ => "ðŸ¶"
  }

  /** getFaceFilterEmoji as evidently intended: the emoji themselves. */
  function FaceEmoji(f: string): (e: string)
    ensures |e| == 1
    ensures f == "cat" ==> e == Cat
    ensures f == "bunny" ==> e == Bunny
    ensures f != "cat" && f != "bunny" ==> e == Dog
  {
    match f
    case "cat" => Cat
    case "bunny" => Bunny
    case _ => Dog
  }

  /** The four UTF-8 bytes of a code point at or above U+10000. */
  function Utf8Four(cp: nat): (bs: seq<nat>)
    requires 0x10000 <= cp < 0x110000
    ensures |bs| == 4 && 0xF0 <= bs[0] < 0xF8
    ensures forall i | 1 <= i < 4 :: 0x80 <= bs[i] < 0xC0
  {
    [0xF0 + cp / 0x40000, 0x80 + (cp / 0x1000) % 0x40, 0x80 + (cp / 0x40) % 0x40, 0x80 + cp % 0x40]
  }

  /** One byte read as Windows-1252. The five bytes the code page leaves
      undefined produce nothing. */
  function Cp1252(b: nat): (s: string)
    requires b < 0x100
    ensures |s| <= 1
    ensures (b < 0x80 || b >= 0xA0) ==> s == [b as char]
  {
    if b < 0x80 || b >= 0xA0 then [b as char]
    else
      match b
      case 0x80 => "€" case 0x82 => "‚" case 0x83 => "ƒ" case 0x84 => "„"
      case 0x85 => "…" case 0x86 => "†" case 0x87 => "‡" case 0x88 => "ˆ"
      case 0x89 => "‰" case 0x8A => "Š" case 0x8B => "‹" case 0x8C => "Œ"
      case 0x8E => "Ž" case 0x91 => "‘" case 0x92 => "’" case 0x93 => "“"
      case 0x94 => "”" case 0x95 => "•" case 0x96 => "–" case 0x97 => "—"
      case 0x98 => "˜" case 0x99 => "™" case 0x9A => "š" case 0x9B => "›"
      case 0x9C => "œ" case 0x9E => "ž" case 0x9F => "Ÿ"
      case _ => ""
  }

  /** A one-character emoji's UTF-8 bytes, each read as Windows-1252. */
  function Misread(e: string): (s: string)
    requires |e| == 1 && 0x10000 <= e[0] as int < 0x110000
  {
    var bs := Utf8Four(e[0] as int);
    Cp1252(bs[0]) + Cp1252(bs[1]) + Cp1252(bs[2]) + Cp1252(bs[3])
  }

  /** Discovered discrepancy: each literal as written is exactly the
      intended emoji misread this way, and differs from it. */
  lemma EmojiMisread(f: string)
    ensures FaceEmojiAsWritten(f) == Misread(FaceEmoji(f))
    ensures FaceEmojiAsWritten(f) != FaceEmoji(f)
  {
    if f == "cat" {
      assert Utf8Four(0x1F431) == [0xF0, 0x9F, 0x90, 0xB1];
    } else if f == "bunny" {
      assert Utf8Four(0x1F430) == [0xF0, 0x9F, 0x90, 0xB0];
    } else {
      assert Utf8Four(0x1F436) == [0xF0, 0x9F, 0x90, 0xB6];
    }
  }

  /** The ear and nose images of a face filter. */
  datatype FaceAssets = FaceAssets(ears: string, nose: string)

  /** getFaceFilterAssets: the filter's two images, or null. */
  function Assets(f: string): (a: Option<FaceAssets>)
    ensures a.Some? <==> IsFaceFilter(f)
    ensures a.Some? ==> a.value == FaceAssets("assets/filters/" + f + "_ears.png", "assets/filters/" + f + "_nose.png")
  {
    match f
    case "dog" => Some(FaceAssets("assets/filters/dog_ears.png", "assets/filters/dog_nose.png"))
    case "cat" => Some(FaceAssets("assets/filters/cat_ears.png", "assets/filters/cat_nose.png"))
    case "bunny" => Some(FaceAssets("assets/filters/bunny_ears.png", "assets/filters/bunny_nose.png"))
    case _ => None
  }
}

=== FILE: forgot_password.dfy ===
/** Password reset: the email check and the message for each failure. The
    auth service is reduced to its answer: sent, or an error code. */
module ForgotPassword {
  import opened Js
  import opened Ui

  /** The email check: non-empty and containing '@'. */
  predicate Plausible(email: string)
  {
    email != "" && '@' in email
  }

  /** The emptiness test adds nothing: an address is accepted exactly when
      it contains '@'. */
  lemma PlausibleIffAt(email: string)
    ensures Plausible(email) <==> '@' in email
  {
  }

  /** The message for a reset error code. */
  function ErrorMessage(code: string): (m: string)
    ensures code == "auth/user-not-found" <==> m == "No account exists with this email address"
    ensures code == "auth/invalid-email" <==> m == "Please enter a valid email address"
    ensures m == "Failed to send reset email" <==> code != "auth/user-not-found" && code != "auth/invalid-email"
  {
    if code == "auth/user-not-found" then "No account exists with this email address"
    else if code == "auth/invalid-email" then "Please enter a valid email address"
    else "Failed to send reset email"
  }

  /** The screen's state after a request. */
  datatype Outcome = Outcome(emailSent: bool, alert: Option<Alert>, loading: bool)

  /** handleResetPassword. `send` is `None` when the email went out, else
      the error code. */
  function Submit(emailSent: bool, email: string, send: Option<string>): (o: Outcome)
    ensures !o.loading
    ensures !Plausible(email) ==> o == Outcome(emailSent, Some(Error("Please enter a valid email address")), false)
    ensures Plausible(email) && send.None? ==> o == Outcome(true, None, false)
    ensures Plausible(email) && send.Some? ==> o == Outcome(emailSent, Some(Error(ErrorMessage(send.value))), false)
    ensures o.emailSent <==> emailSent || (Plausible(email) && send.None?)
  {
    if !Plausible(email) then Outcome(emailSent, Some(Error("Please enter a valid email address")), false)
    else match send
      case None => Outcome(true, None, false)
      case Some(code) => Outcome(emailSent, Some(Error(ErrorMessage(code))), false)
  }

  /** An email the form turns away and one the service calls invalid get
      the same message. */
  lemma InvalidEmailSameMessage(emailSent: bool, bad: string, good: string)
    requires !Plausible(bad) && Plausible(good)
    ensures Submit(emailSent, bad, None).alert == Submit(emailSent, good, Some("auth/invalid-email")).alert
  {
  }
}

=== FILE: friend_graph.dfy ===
/** The friend graph as stored in the `users` collection: each user document
    holds `friends`, `incomingRequests` and `outgoingRequests` uid arrays.
    Every operation of the friend screens updates two documents with
    `arrayUnion` / `arrayRemove` so that the two mirror invariants hold:
    `b` is in `a`'s outgoing requests exactly when `a` is in `b`'s incoming
    requests, and friendship is symmetric. */
module FriendGraph {
  import opened Js
  import opened Store

  /** `updateDoc` on a document that does not exist fails. */
  datatype GraphError = NoDocument(uid: Uid)

  ghost predicate RequestMirror(db: Users)
  {
    forall a, b | a in db && b in db :: b in db[a].outgoingRequests <==> a in db[b].incomingRequests
  }

  ghost predicate FriendMirror(db: Users)
  {
    forall a, b | a in db && b in db :: b in db[a].friends <==> a in db[b].friends
  }

  ghost predicate Mirrored(db: Users)
  {
    RequestMirror(db) && FriendMirror(db)
  }

  function AddIncoming(d: UserDoc, x: Uid): UserDoc
  {
    d.(incomingRequests := ArrayUnion(d.incomingRequests, x))
  }

  function AddOutgoing(d: UserDoc, x: Uid): UserDoc
  {
    d.(outgoingRequests := ArrayUnion(d.outgoingRequests, x))
  }

  function DropIncoming(d: UserDoc, x: Uid): UserDoc
  {
    d.(incomingRequests := ArrayRemove(d.incomingRequests, x))
  }

  function DropOutgoing(d: UserDoc, x: Uid): UserDoc
  {
    d.(outgoingRequests := ArrayRemove(d.outgoingRequests, x))
  }

  /** handleSendRequest: the recipient gains the sender as an incoming
      request, then the sender gains the recipient as an outgoing request. */
  function SendRequest(db: Users, me: Uid, recipient: Uid): (r: Result<Users, GraphError>)
    ensures r.Success? <==> me in db && recipient in db
    ensures r.Success? ==> r.value.Keys == db.Keys
    ensures r.Success? ==> me in r.value[recipient].incomingRequests && recipient in r.value[me].outgoingRequests
    ensures r.Success? ==> forall u, y | u in db ::
      && (y in r.value[u].incomingRequests <==> y in db[u].incomingRequests || (u == recipient && y == me))
      && (y in r.value[u].outgoingRequests <==> y in db[u].outgoingRequests || (u == me && y == recipient))
      && r.value[u].friends == db[u].friends
    ensures r.Success? ==> forall u | u in db && u != me && u != recipient :: r.value[u] == db[u]
  {
    if recipient !in db then Failure(NoDocument(recipient))
    else
      var db1 := db[recipient := AddIncoming(db[recipient], me)];
      if me !in db1 then Failure(NoDocument(me))
      else Success(db1[me := AddOutgoing(db1[me], recipient)])
  }

  /** handleAcceptRequest: the acceptor gains the sender as a friend and
      loses the incoming request; the sender gains the acceptor as a friend
      and loses the outgoing request. */
  function AcceptRequest(db: Users, me: Uid, sender: Uid): (r: Result<Users, GraphError>)
    ensures r.Success? <==> me in db && sender in db
    ensures r.Success? ==> r.value.Keys == db.Keys
    ensures r.Success? ==> sender in r.value[me].friends && me in r.value[sender].friends
    ensures r.Success? ==> sender !in r.value[me].incomingRequests && me !in r.value[sender].outgoingRequests
    ensures r.Success? ==> forall u, y | u in db ::
      && (y in r.value[u].friends <==> y in db[u].friends || (u == me && y == sender) || (u == sender && y == me))
      && (y in r.value[u].incomingRequests <==> y in db[u].incomingRequests && !(u == me && y == sender))
      && (y in r.value[u].outgoingRequests <==> y in db[u].outgoingRequests && !(u == sender && y == me))
    ensures r.Success? ==> forall u | u in db && u != me && u != sender :: r.value[u] == db[u]
  {
    if me !in db then Failure(NoDocument(me))
    else
      var d := db[me];
      var db1 := db[me := d.(friends := ArrayUnion(d.friends, sender),
                             incomingRequests := ArrayRemove(d.incomingRequests, sender))];
      if sender !in db1 then Failure(NoDocument(sender))
      else
        var e := db1[sender];
        Success(db1[sender := e.(friends := ArrayUnion(e.friends, me),
                                 outgoingRequests := ArrayRemove(e.outgoingRequests, me))])
  }

  /** handleRejectRequest: the request disappears from both sides. */
  function RejectRequest(db: Users, me: Uid, sender: Uid): (r: Result<Users, GraphError>)
    ensures r.Success? <==> me in db && sender in db
    ensures r.Success? ==> r.value.Keys == db.Keys
    ensures r.Success? ==> sender !in r.value[me].incomingRequests && me !in r.value[sender].outgoingRequests
    ensures r.Success? ==> forall u, y | u in db ::
      && (y in r.value[u].incomingRequests <==> y in db[u].incomingRequests && !(u == me && y == sender))
      && (y in r.value[u].outgoingRequests <==> y in db[u].outgoingRequests && !(u == sender && y == me))
      && r.value[u].friends == db[u].friends
    ensures r.Success? ==> forall u | u in db && u != me && u != sender :: r.value[u] == db[u]
  {
    if me !in db then Failure(NoDocument(me))
    else
      var db1 := db[me := DropIncoming(db[me], sender)];
      if sender !in db1 then Failure(NoDocument(sender))
      else Success(db1[sender := DropOutgoing(db1[sender], me)])
  }

  /** handleCancelRequest: the sender withdraws its request to `recipient`. */
  function CancelRequest(db: Users, me: Uid, recipient: Uid): (r: Result<Users, GraphError>)
    ensures r.Success? <==> me in db && recipient in db
    ensures r.Success? ==> r.value.Keys == db.Keys
    ensures r.Success? ==> me !in r.value[recipient].incomingRequests && recipient !in r.value[me].outgoingRequests
    ensures r.Success? ==> forall u | u in db :: r.value[u].friends == db[u].friends
    ensures r.Success? ==> forall u | u in db && u != me && u != recipient :: r.value[u] == db[u]
  {
    if recipient !in db then Failure(NoDocument(recipient))
    else
      var db1 := db[recipient := DropIncoming(db[recipient], me)];
      if me !in db1 then Failure(NoDocument(me))
      else Success(db1[me := DropOutgoing(db1[me], recipient)])
  }

  /** handleRemoveFriend: each uid leaves the other's friends array. */
  function RemoveFriend(db: Users, me: Uid, friend: Uid): (r: Result<Users, GraphError>)
    ensures r.Success? <==> me in db && friend in db
    ensures r.Success? ==> r.value.Keys == db.Keys
    ensures r.Success? ==> friend !in r.value[me].friends && me !in r.value[friend].friends
    ensures r.Success? ==> forall u, y | u in db ::
      && (y in r.value[u].friends <==> y in db[u].friends && !(u == me && y == friend) && !(u == friend && y == me))
      && r.value[u].incomingRequests == db[u].incomingRequests
      && r.value[u].outgoingRequests == db[u].outgoingRequests
    ensures r.Success? ==> forall u | u in db && u != me && u != friend :: r.value[u] == db[u]
  {
    if me !in db then Failure(NoDocument(me))
    else
      var db1 := db[me := db[me].(friends := ArrayRemove(db[me].friends, friend))];
      if friend !in db1 then Failure(NoDocument(friend))
      else Success(db1[friend := db1[friend].(friends := ArrayRemove(db1[friend].friends, me))])
  }

  /** Cancelling A's request to B and B rejecting A's request produce the
      same pair of user records (the writes come in the opposite order). */
  lemma CancelIsReject(db: Users, a: Uid, b: Uid)
    ensures CancelRequest(db, a, b).Success? <==> RejectRequest(db, b, a).Success?
    ensures CancelRequest(db, a, b).Success? ==> CancelRequest(db, a, b).value == RejectRequest(db, b, a).value
  {
    if a in db && b in db {
      var c := CancelRequest(db, a, b).value;
      var j := RejectRequest(db, b, a).value;
      forall u | u in db ensures c[u] == j[u] {
        if u == a || u == b {
          assert c[u].incomingRequests == j[u].incomingRequests;
          assert c[u].outgoingRequests == j[u].outgoingRequests;
        }
      }
    }
  }

  /** Sending the same request twice leaves the store as sending it once. */
  lemma SendRequestIdempotent(db: Users, me: Uid, recipient: Uid)
    requires SendRequest(db, me, recipient).Success?
    ensures SendRequest(SendRequest(db, me, recipient).value, me, recipient)
            == SendRequest(db, me, recipient)
  {
    var d1 := SendRequest(db, me, recipient).value;
    assert d1[recipient := AddIncoming(d1[recipient], me)] == d1;
    assert d1[me := AddOutgoing(d1[me], recipient)] == d1;
  }

  /** The operations of the friend screens. */
  datatype Action =
    | Send(me: Uid, other: Uid)
    | Accept(me: Uid, other: Uid)
    | Reject(me: Uid, other: Uid)
    | Cancel(me: Uid, other: Uid)
    | Remove(me: Uid, other: Uid)

  /** One operation, as the screen handler performs it: it succeeds iff
      both user documents exist, and never adds or deletes a document. */
  function Apply(db: Users, a: Action): (r: Result<Users, GraphError>)
    ensures r.Success? <==> a.me in db && a.other in db
    ensures r.Success? ==> r.value.Keys == db.Keys
  {
    match a
    case Send(me, o) => SendRequest(db, me, o)
    case Accept(me, o) => AcceptRequest(db, me, o)
    case Reject(me, o) => RejectRequest(db, me, o)
    case Cancel(me, o) => CancelRequest(db, me, o)
    case Remove(me, o) => RemoveFriend(db, me, o)
  }

  /** Every operation that succeeds keeps both mirror invariants. */
  lemma ApplyKeepsMirrors(db: Users, a: Action)
    requires Mirrored(db) && Apply(db, a).Success?
    ensures Mirrored(Apply(db, a).value)
  {
    var n := Apply(db, a).value;
    match a
    case Cancel(me, o) =>
      CancelIsReject(db, me, o);
    case _ =>
  }

  /** A run of operations; a failed one shows an alert and changes nothing. */
  function Run(db: Users, actions: seq<Action>): (r: Users)
    ensures r.Keys == db.Keys
    ensures (forall i | 0 <= i < |actions| :: actions[i].me !in db) ==> r == db
    decreases |actions|
  {
    if |actions| == 0 then db
    else
      var r := Apply(db, actions[0]);
      assert forall i | 1 <= i < |actions| :: actions[i] == actions[1..][i - 1];
      Run(if r.Success? then r.value else db, actions[1..])
  }

  /** Any sequence of friend-screen operations keeps both mirror invariants. */
  lemma {:induction false} RunKeepsMirrors(db: Users, actions: seq<Action>)
    requires Mirrored(db)
    ensures Mirrored(Run(db, actions))
    decreases |actions|
  {
    if |actions| > 0 {
      var r := Apply(db, actions[0]);
      if r.Success? {
        ApplyKeepsMirrors(db, actions[0]);
      }
      RunKeepsMirrors(if r.Success? then r.value else db, actions[1..]);
    }
  }
}

=== FILE: friend_requests.dfy ===
/** The friend-requests screen: user search, and the send / accept / reject /
    cancel handlers with the local lists they keep next to the store. */
module FriendRequestsScreen {
  import opened Js
  import opened Text
  import opened Store
  import opened Ui
  import FriendGraph

  /** The screen's lists; `friends` is the friend list of the shared app state. */
  datatype Screen = Screen(incoming: seq<Entry>, outgoing: seq<Entry>, results: seq<Entry>, friends: seq<Entry>)

  /** A handler's effect: the store after it, the screen after it, the alert shown. */
  datatype Outcome = Outcome(db: Users, screen: Screen, alert: Alert)

  /** The list entries of fetched documents. */
  function Entries(ds: seq<UserDoc>): (es: seq<Entry>)
    ensures |es| == |ds|
    ensures forall d | d in ds :: ToEntry(d) in es
    ensures forall e | e in es :: exists d | d in ds :: ToEntry(d) == e && d.uid == e.uid
  {
    if |ds| == 0 then [] else [ToEntry(ds[0])] + Entries(ds[1..])
  }

  /** A uid already shown on the screen as a friend or in either request list. */
  predicate Known(s: Screen, u: Uid)
  {
    u in Uids(s.friends) || u in Uids(s.incoming) || u in Uids(s.outgoing)
  }

  /** handleSearch. `snapshot` is the backend's answer to the username range
      query; a blank query is refused before any query runs. */
  function Search(query: string, me: Uid, snapshot: seq<UserDoc>, s: Screen): (r: Result<seq<Entry>, Alert>)
    ensures r.Failure? <==> Blank(query)
    ensures r.Failure? ==> r.error == Error("Please enter a username to search")
    ensures r.Success? ==> forall e | e in r.value :: e.uid != me && !Known(s, e.uid)
    ensures r.Success? ==> forall e | e in r.value :: exists d | d in snapshot :: ToEntry(d) == e
    ensures r.Success? ==> forall d | d in snapshot && d.uid != me && !Known(s, d.uid) :: ToEntry(d) in r.value
  {
    TrimEmptyIffBlank(query);
    if Trim(query) == [] then Failure(Error("Please enter a username to search"))
    else
      var found := Entries(Filter(snapshot, (d: UserDoc) => d.uid != me));
      var kept := Filter(found, (e: Entry) => !Known(s, e.uid));
      Success(kept)
  }

  /** handleSendRequest. On success the recipient moves from the search
      results to the end of the outgoing list. */
  function SendRequest(db: Users, me: Uid, s: Screen, recipientId: Uid): (o: Outcome)
    ensures FriendGraph.SendRequest(db, me, recipientId).Failure? ==>
              o == Outcome(db, s, Error("Failed to send friend request"))
    ensures FriendGraph.SendRequest(db, me, recipientId).Success? ==>
              && o.db == FriendGraph.SendRequest(db, me, recipientId).value
              && o.alert == Done("Friend request sent")
              && o.screen.incoming == s.incoming && o.screen.friends == s.friends
    ensures FriendGraph.SendRequest(db, me, recipientId).Success? && recipientId in Uids(s.results) ==>
              && |o.screen.outgoing| == |s.outgoing| + 1
              && o.screen.outgoing[..|s.outgoing|] == s.outgoing
              && o.screen.outgoing[|s.outgoing|].uid == recipientId
              && o.screen.outgoing[|s.outgoing|] in s.results
              && recipientId !in Uids(o.screen.results)
              && (forall e | e in s.results && e.uid != recipientId :: e in o.screen.results)
              && Subsequence(o.screen.results, s.results)
              && (forall e :: multiset(o.screen.results)[e] ==
                               if e.uid != recipientId then multiset(s.results)[e] else 0)
    ensures FriendGraph.SendRequest(db, me, recipientId).Success? && recipientId !in Uids(s.results) ==>
              o.screen == s
  {
    match FriendGraph.SendRequest(db, me, recipientId)
    case Failure(_) => Outcome(db, s, Error("Failed to send friend request"))
    case Success(db') =>
      var found := Find(s.results, (e: Entry) => e.uid == recipientId);
      var rest := Without(s.results, recipientId);
      var s' := match found
        case Some(recipient) => s.(outgoing := s.outgoing + [recipient], results := rest)
        case None => s;
      assert found.Some? <==> recipientId in Uids(s.results) by {
        if found.None? {
          assert forall i :: 0 <= i < |s.results| ==> Uids(s.results)[i] != recipientId;
        } else {
          var k :| 0 <= k < |s.results| && s.results[k] == found.value;
          assert Uids(s.results)[k] == recipientId;
        }
      }
      Outcome(db', s', Done("Friend request sent"))
  }

  /** handleAcceptRequest as written: both documents are updated, then the
      call to `sendFriendAcceptedNotification`, which NotificationHelper
      does not define, throws; the catch leaves both lists as they were and
      reports a failure. */
  function AcceptRequestAsWritten(db: Users, me: Uid, s: Screen, senderId: Uid): (o: Outcome)
    ensures FriendGraph.AcceptRequest(db, me, senderId).Success? ==>
              o.db == FriendGraph.AcceptRequest(db, me, senderId).value
    ensures FriendGraph.AcceptRequest(db, me, senderId).Failure? ==> o.db == db
    ensures o.screen == s
    ensures o.alert == Error("Failed to accept friend request")
  {
    match FriendGraph.AcceptRequest(db, me, senderId)
    case Failure(_) => Outcome(db, s, Error("Failed to accept friend request"))
    case Success(db') => Outcome(db', s, Error("Failed to accept friend request"))
  }

  /** handleAcceptRequest as evidently intended: after both documents are
      updated the sender leaves the incoming list and joins the friends. */
  function AcceptRequest(db: Users, me: Uid, s: Screen, senderId: Uid): (o: Outcome)
    ensures FriendGraph.AcceptRequest(db, me, senderId).Failure? ==>
              o == Outcome(db, s, Error("Failed to accept friend request"))
    ensures FriendGraph.AcceptRequest(db, me, senderId).Success? ==>
              && o.db == FriendGraph.AcceptRequest(db, me, senderId).value
              && o.alert == Done("Friend request accepted")
              && o.screen.outgoing == s.outgoing && o.screen.results == s.results
    ensures FriendGraph.AcceptRequest(db, me, senderId).Success? && senderId in Uids(s.incoming) ==>
              && senderId !in Uids(o.screen.incoming)
              && (forall e | e in s.incoming && e.uid != senderId :: e in o.screen.incoming)
              && Subsequence(o.screen.incoming, s.incoming)
              && (forall e :: multiset(o.screen.incoming)[e] ==
                               if e.uid != senderId then multiset(s.incoming)[e] else 0)
              && |o.screen.friends| == |s.friends| + 1
              && o.screen.friends[..|s.friends|] == s.friends
              && o.screen.friends[|s.friends|].uid == senderId
              && o.screen.friends[|s.friends|] in s.incoming
    ensures FriendGraph.AcceptRequest(db, me, senderId).Success? && senderId !in Uids(s.incoming) ==>
              o.screen == s
  {
    match FriendGraph.AcceptRequest(db, me, senderId)
    case Failure(_) => Outcome(db, s, Error("Failed to accept friend request"))
    case Success(db') =>
      var found := Find(s.incoming, (e: Entry) => e.uid == senderId);
      assert found.Some? <==> senderId in Uids(s.incoming) by {
        if found.None? {
          assert forall i :: 0 <= i < |s.incoming| ==> Uids(s.incoming)[i] != senderId;
        } else {
          var k :| 0 <= k < |s.incoming| && s.incoming[k] == found.value;
          assert Uids(s.incoming)[k] == senderId;
        }
      }
      var s' := match found
        case Some(sender) =>
          s.(friends := s.friends + [sender],
             incoming := Without(s.incoming, senderId))
        case None => s;
      Outcome(db', s', Done("Friend request accepted"))
  }

  /** Discovered discrepancy: when a listed request is accepted, the store
      makes the two users friends, yet the as-written screen still lists the
      sender as a pending request and reports a failure. */
  lemma AcceptAsWrittenLeavesStaleRequest(db: Users, me: Uid, s: Screen, senderId: Uid)
    requires me in db && senderId in db && senderId in Uids(s.incoming)
    ensures AcceptRequestAsWritten(db, me, s, senderId).db == AcceptRequest(db, me, s, senderId).db
    ensures senderId in AcceptRequestAsWritten(db, me, s, senderId).db[me].friends
    ensures senderId in Uids(AcceptRequestAsWritten(db, me, s, senderId).screen.incoming)
    ensures senderId !in Uids(AcceptRequest(db, me, s, senderId).screen.incoming)
    ensures AcceptRequestAsWritten(db, me, s, senderId).alert.title == "Error"
    ensures AcceptRequest(db, me, s, senderId).alert.title == "Success"
  {
  }

  /** handleRejectRequest: the request disappears from the store and from
      the incoming list. */
  function RejectRequest(db: Users, me: Uid, s: Screen, senderId: Uid): (o: Outcome)
    ensures FriendGraph.RejectRequest(db, me, senderId).Failure? ==>
              o == Outcome(db, s, Error("Failed to reject friend request"))
    ensures FriendGraph.RejectRequest(db, me, senderId).Success? ==>
              && o.db == FriendGraph.RejectRequest(db, me, senderId).value
              && o.alert == Done("Friend request rejected")
              && senderId !in Uids(o.screen.incoming)
              && (forall e | e in s.incoming && e.uid != senderId :: e in o.screen.incoming)
              && Subsequence(o.screen.incoming, s.incoming)
              && (forall e :: multiset(o.screen.incoming)[e] ==
                               if e.uid != senderId then multiset(s.incoming)[e] else 0)
              && o.screen.outgoing == s.outgoing && o.screen.friends == s.friends && o.screen.results == s.results
  {
    match FriendGraph.RejectRequest(db, me, senderId)
    case Failure(_) => Outcome(db, s, Error("Failed to reject friend request"))
    case Success(db') =>
      Outcome(db', s.(incoming := Without(s.incoming, senderId)), Done("Friend request rejected"))
  }

  /** handleCancelRequest: the request disappears from the store and from
      the outgoing list. */
  function CancelRequest(db: Users, me: Uid, s: Screen, recipientId: Uid): (o: Outcome)
    ensures FriendGraph.CancelRequest(db, me, recipientId).Failure? ==>
              o == Outcome(db, s, Error("Failed to cancel friend request"))
    ensures FriendGraph.CancelRequest(db, me, recipientId).Success? ==>
              && o.db == FriendGraph.CancelRequest(db, me, recipientId).value
              && o.alert == Done("Friend request canceled")
              && recipientId !in Uids(o.screen.outgoing)
              && (forall e | e in s.outgoing && e.uid != recipientId :: e in o.screen.outgoing)
              && Subsequence(o.screen.outgoing, s.outgoing)
              && (forall e :: multiset(o.screen.outgoing)[e] ==
                               if e.uid != recipientId then multiset(s.outgoing)[e] else 0)
              && o.screen.incoming == s.incoming && o.screen.friends == s.friends && o.screen.results == s.results
  {
    match FriendGraph.CancelRequest(db, me, recipientId)
    case Failure(_) => Outcome(db, s, Error("Failed to cancel friend request"))
    case Success(db') =>
      Outcome(db', s.(outgoing := Without(s.outgoing, recipientId)), Done("Friend request canceled"))
  }
}

=== FILE: friends_screen.dfy ===
/** The friends screen: the friend list with its search filter, removing a
    friend, and the chat it opens for a friend. */
module FriendsScreen {
  import opened Js
  import opened Text
  import opened Store
  import opened Ui
  import FriendGraph

  /** A friend matches an already lower-cased query when the lower-cased
      username, or a non-empty lower-cased displayName, contains it. */
  predicate Matches(e: Entry, lowerQuery: string)
  {
    e.username.Some?
    && (Includes(ToLower(e.username.value), lowerQuery)
        || (e.displayName != "" && Includes(ToLower(e.displayName), lowerQuery)))
  }

  function Keep(lowerQuery: string): Entry -> bool
  {
    (e: Entry) => Matches(e, lowerQuery)
  }

  /** The search-filter effect. A blank query shows the whole list. Otherwise
      the filter reads `username.toLowerCase()`, which throws on a friend
      whose username and email are both missing; `None` stands for that
      failure. */
  function FilterFriends(query: string, list: seq<Entry>): (r: Option<seq<Entry>>)
    ensures Blank(query) ==> r == Some(list)
    ensures !Blank(query) ==> (r.None? <==> exists e | e in list :: e.username.None?)
    ensures r.Some? ==> Subsequence(r.value, list)
    ensures r.Some? && !Blank(query) ==>
              forall e :: e in r.value <==> e in list && Matches(e, ToLower(query))
  {
    TrimEmptyIffBlank(query);
    SubsequenceRefl(list);
    if Trim(query) == [] then Some(list)
    else if exists e | e in list :: e.username.None? then None
    else Some(Filter(list, Keep(ToLower(query))))
  }

  /** Lower-casing twice is lower-casing once. */
  lemma ToLowerIdempotent(s: string)
    ensures ToLower(ToLower(s)) == ToLower(s)
  {
  }

  /** The query's letter case does not matter. */
  lemma FilterIgnoresCase(query: string, list: seq<Entry>)
    ensures FilterFriends(ToLower(query), list) == FilterFriends(query, list)
  {
    var q := ToLower(query);
    ToLowerIdempotent(query);
    assert Blank(q) <==> Blank(query) by {
      assert forall i :: 0 <= i < |query| ==> (IsSpace(q[i]) <==> IsSpace(query[i]));
    }
  }

  /** Filtering a list in two pieces is filtering the whole list. */
  lemma {:induction false} FilterFriendsAppend(query: string, a: seq<Entry>, b: seq<Entry>)
    requires FilterFriends(query, a).Some? && FilterFriends(query, b).Some?
    ensures FilterFriends(query, a + b) == Some(FilterFriends(query, a).value + FilterFriends(query, b).value)
  {
    TrimEmptyIffBlank(query);
    if Trim(query) != [] {
      FilterAppend(a, b, Keep(ToLower(query)));
    }
  }

  /** The local list and the outcome of a remove. */
  datatype Outcome = Outcome(db: Users, list: seq<Entry>, alert: Alert)

  /** Removing a friend who is no longer listed changes nothing. */
  lemma WithoutIdempotent(list: seq<Entry>, friendId: Uid)
    ensures Without(Without(list, friendId), friendId) == Without(list, friendId)
  {
    FilterIdempotent(list, (e: Entry) => e.uid != friendId);
  }

  /** handleRemoveFriend as written: both documents are updated and the
      local list loses the friend, then `updateFriends`, which userSlice does
      not export, throws; the catch reports a failure. */
  function RemoveFriendAsWritten(db: Users, me: Uid, list: seq<Entry>, friendId: Uid): (o: Outcome)
    ensures FriendGraph.RemoveFriend(db, me, friendId).Failure? ==> o.db == db && o.list == list
    ensures FriendGraph.RemoveFriend(db, me, friendId).Success? ==>
              o.db == FriendGraph.RemoveFriend(db, me, friendId).value && o.list == Without(list, friendId)
    ensures o.alert == Error("Failed to remove friend")
  {
    match FriendGraph.RemoveFriend(db, me, friendId)
    case Failure(_) => Outcome(db, list, Error("Failed to remove friend"))
    case Success(db') => Outcome(db', Without(list, friendId), Error("Failed to remove friend"))
  }

  /** handleRemoveFriend as evidently intended: the same writes, reported as
      a success. */
  function RemoveFriend(db: Users, me: Uid, list: seq<Entry>, friendId: Uid): (o: Outcome)
    ensures FriendGraph.RemoveFriend(db, me, friendId).Failure? ==>
              o == Outcome(db, list, Error("Failed to remove friend"))
    ensures FriendGraph.RemoveFriend(db, me, friendId).Success? ==>
              && o.db == FriendGraph.RemoveFriend(db, me, friendId).value
              && friendId !in o.db[me].friends && me !in o.db[friendId].friends
              && friendId !in Uids(o.list) && Subsequence(o.list, list)
              && (forall e | e in list && e.uid != friendId :: e in o.list)
              && o.alert == Done("Friend removed successfully")
  {
    match FriendGraph.RemoveFriend(db, me, friendId)
    case Failure(_) => Outcome(db, list, Error("Failed to remove friend"))
    case Success(db') => Outcome(db', Without(list, friendId), Done("Friend removed successfully"))
  }

  /** Discovered discrepancy: a remove that succeeds in the store is reported
      as a failure, although the friend has already left the list. */
  lemma RemoveAsWrittenReportsFailure(db: Users, me: Uid, list: seq<Entry>, friendId: Uid)
    requires me in db && friendId in db
    ensures RemoveFriendAsWritten(db, me, list, friendId).db == RemoveFriend(db, me, list, friendId).db
    ensures RemoveFriendAsWritten(db, me, list, friendId).list == RemoveFriend(db, me, list, friendId).list
    ensures RemoveFriendAsWritten(db, me, list, friendId).alert.title == "Error"
    ensures RemoveFriend(db, me, list, friendId).alert.title == "Success"
  {
  }

  /** The chat the chat button opens: `<my uid>_<friend uid>`. */
  function DirectChatId(me: Uid, friend: Uid): (id: string)
    ensures |id| == |me| + 1 + |friend|
    ensures id[..|me|] == me && id[|me|] == '_' && id[|me| + 1..] == friend
  {
    me + "_" + friend
  }

  /** The uid of the opener, read back from a direct chat id whose first
      part has no underscore. */
  function Opener(id: string): (u: string)
    ensures |u| <= |id| && u == id[..|u|] && '_' !in u
    ensures |u| < |id| ==> id[|u|] == '_'
    ensures |u| == |id| ==> '_' !in id
  {
    if |id| == 0 || id[0] == '_' then "" else [id[0]] + Opener(id[1..])
  }

  /** For uids without underscores the chat id determines both uids. */
  lemma {:induction false} DirectChatIdInjective(me: Uid, friend: Uid)
    requires '_' !in me
    ensures Opener(DirectChatId(me, friend)) == me
    ensures DirectChatId(me, friend)[|me| + 1..] == friend
    decreases |me|
  {
    var id := DirectChatId(me, friend);
    if |me| > 0 {
      assert id[1..] == DirectChatId(me[1..], friend);
      assert me[0] in me;
      DirectChatIdInjective(me[1..], friend);
    }
  }

  /** The two friends of a pair open different chats, because the id puts
      the opener's uid first. */
  lemma DirectChatIdNotSymmetric(a: Uid, b: Uid)
    requires '_' !in a && '_' !in b && a != b
    ensures DirectChatId(a, b) != DirectChatId(b, a)
  {
    DirectChatIdInjective(a, b);
    DirectChatIdInjective(b, a);
  }

  /** The parameters of the chat screen opened from a friend row. */
  datatype ChatParams = ChatParams(chatId: string, recipientId: Uid, recipientName: Option<string>, recipientPhoto: Option<string>)

  /** The chat button: the name shown is displayName, else username. */
  function OpenChat(me: Uid, e: Entry): (p: ChatParams)
    ensures p.chatId == DirectChatId(me, e.uid) && p.recipientId == e.uid
    ensures e.displayName != "" ==> p.recipientName == Some(e.displayName)
    ensures e.displayName == "" ==> p.recipientName == e.username
    ensures p.recipientPhoto == e.photoURL
  {
    ChatParams(DirectChatId(me, e.uid), e.uid, Or(Some(e.displayName), e.username), e.photoURL)
  }
}

=== FILE: group_chat.dfy ===
/** The create-group screen: selecting friends and creating the group chat
    with its first, system-authored message. */
module CreateGroupChat {
  import opened Js
  import opened Text
  import opened Store
  import opened Ui
  import opened Chats

  /** `selected.some(f => f.uid === friend.uid)`. */
  predicate Selected(sel: seq<Entry>, f: Entry)
  {
    f.uid in Uids(sel)
  }

  /** No uid is selected twice. */
  predicate UniqueUids(sel: seq<Entry>)
  {
    forall i, j | 0 <= i < j < |sel| :: sel[i].uid != sel[j].uid
  }

  /** Filtering keeps uids distinct. */
  lemma {:induction false} FilterKeepsUnique(sel: seq<Entry>, p: Entry -> bool)
    requires UniqueUids(sel)
    ensures UniqueUids(Filter(sel, p))
    decreases |sel|
  {
    if |sel| > 0 {
      var rest := sel[1..];
      FilterKeepsUnique(rest, p);
      var t := Filter(rest, p);
      if p(sel[0]) {
        var r := [sel[0]] + t;
        forall i, j | 0 <= i < j < |r| ensures r[i].uid != r[j].uid {
          if i == 0 {
            assert r[j] in rest;
            var k :| 0 <= k < |rest| && rest[k] == r[j];
            assert sel[k + 1] == r[j];
          }
        }
      }
    }
  }

  /** handleFriendSelect: a selected friend is dropped, any other appended. */
  function Toggle(sel: seq<Entry>, f: Entry): (r: seq<Entry>)
    ensures Selected(r, f) <==> !Selected(sel, f)
    ensures forall g: Entry | g.uid != f.uid :: g in r <==> g in sel
    ensures Selected(sel, f) ==> Subsequence(r, sel)
    ensures !Selected(sel, f) ==> |r| == |sel| + 1 && r[..|sel|] == sel
    ensures UniqueUids(sel) ==> UniqueUids(r)
  {
    var p := (g: Entry) => g.uid != f.uid;
    if Selected(sel, f) then
      var r := Filter(sel, p);
      assert !Selected(r, f) by {
        forall i | 0 <= i < |r| ensures Uids(r)[i] != f.uid {
          assert r[i] in r;
        }
      }
      assert UniqueUids(sel) ==> UniqueUids(r) by {
        if UniqueUids(sel) { FilterKeepsUnique(sel, p); }
      }
      r
    else
      var r := sel + [f];
      assert Uids(r)[|sel|] == f.uid;
      assert forall i | 0 <= i < |sel| :: sel[i].uid != f.uid by {
        forall i | 0 <= i < |sel| ensures sel[i].uid != f.uid {
          assert Uids(sel)[i] == sel[i].uid;
        }
      }
      r
  }

  /** Toggling a friend on and off again restores the selection. */
  lemma ToggleTwice(sel: seq<Entry>, f: Entry)
    requires !Selected(sel, f)
    ensures Toggle(Toggle(sel, f), f) == sel
  {
    var p := (g: Entry) => g.uid != f.uid;
    assert forall i | 0 <= i < |sel| :: p(sel[i]) by {
      forall i | 0 <= i < |sel| ensures p(sel[i]) {
        assert Uids(sel)[i] == sel[i].uid;
      }
    }
    FilterAppend(sel, [f], p);
    assert Filter([f], p) == [];
  }

  /** The name the group records for its creator: displayName, else email. */
  function CreatorName(me: AuthUser): (n: Option<string>)
    ensures Truthy(me.displayName) ==> n == me.displayName
    ensures !Truthy(me.displayName) ==> n == me.email
  {
    Or(me.displayName, me.email)
  }

  /** The name the group records for a friend: displayName, else username. */
  function FriendName(f: Entry): (n: Option<string>)
    ensures f.displayName != "" ==> n == Some(f.displayName)
    ensures f.displayName == "" ==> n == f.username
  {
    Or(Some(f.displayName), f.username)
  }

  /** The `participantNames` map: the creator's entry, then each selected
      friend's entry in order, a later entry overwriting an earlier one. */
  function NamesFrom(m: map<Uid, Option<string>>, sel: seq<Entry>): (r: map<Uid, Option<string>>)
    ensures forall k :: k in r <==> k in m || k in Uids(sel)
    ensures forall k | k in m && k !in Uids(sel) :: r[k] == m[k]
    ensures forall i | 0 <= i < |sel| :: sel[i].uid in r
    ensures UniqueUids(sel) ==> forall i | 0 <= i < |sel| :: r[sel[i].uid] == FriendName(sel[i])
    decreases |sel|
  {
    if |sel| == 0 then m
    else
      var rest := sel[1..];
      var r := NamesFrom(m[sel[0].uid := FriendName(sel[0])], rest);
      assert forall k :: k in Uids(sel) <==> k == sel[0].uid || k in Uids(rest) by {
        assert Uids(sel) == [sel[0].uid] + Uids(rest);
      }
      assert forall i | 0 <= i < |sel| :: sel[i].uid in r by {
        forall i | 0 <= i < |sel| ensures sel[i].uid in r {
          if i > 0 { assert sel[i] == rest[i - 1]; }
        }
      }
      assert UniqueUids(sel) ==> UniqueUids(rest) && sel[0].uid !in Uids(rest) by {
        if UniqueUids(sel) {
          forall i | 0 <= i < |rest| ensures Uids(rest)[i] != sel[0].uid {
            assert rest[i] == sel[i + 1];
          }
        }
      }
      assert UniqueUids(sel) ==> forall i | 0 <= i < |sel| :: r[sel[i].uid] == FriendName(sel[i]) by {
        if UniqueUids(sel) {
          forall i | 0 <= i < |sel| ensures r[sel[i].uid] == FriendName(sel[i]) {
            if i > 0 { assert sel[i] == rest[i - 1]; }
          }
        }
      }
      r
  }

  /** The group's creator followed by the selected uids, in order. */
  function Participants(me: AuthUser, sel: seq<Entry>): (ps: seq<Uid>)
    ensures |ps| == 1 + |sel| && ps[0] == me.uid && ps[1..] == Uids(sel)
  {
    [me.uid] + Uids(sel)
  }

  /** The group chat document. */
  function GroupDoc(me: AuthUser, name: string, sel: seq<Entry>): (c: ChatDoc)
    ensures IsGroup(c) && c.name == Some(Trim(name)) && c.createdBy == Some(me.uid)
    ensures c.participants == Participants(me, sel)
    ensures forall k :: k in c.participantNames <==> k == me.uid || k in Uids(sel)
    ensures me.uid !in Uids(sel) ==> c.participantNames[me.uid] == CreatorName(me)
    ensures UniqueUids(sel) ==> forall i | 0 <= i < |sel| :: c.participantNames[sel[i].uid] == FriendName(sel[i])
    ensures c.lastMessage == None && c.lastMessageSenderId == Some(me.uid) && c.unreadCounts == map[]
  {
    var creator := map[me.uid := CreatorName(me)];
    var names := NamesFrom(creator, sel);
    assert me.uid in creator && creator[me.uid] == CreatorName(me);
    ChatDoc(Some("group"), Some(Trim(name)), Some(me.uid), Participants(me, sel),
            names, None, Some(me.uid), map[])
  }

  /** The group's first message: `<creator> created the group "<name>"`,
      from 'system', already read. The signed-in user's displayName and
      email are `null` when unset, so a creator with neither reads "null". */
  function SystemMessage(me: AuthUser, name: string): (m: MessageDoc)
    ensures m.senderId == "system" && m.senderName == Some("System") && m.read && m.kind == "system"
    ensures var who := InterpolateNull(CreatorName(me));
            && |m.text| == |who| + 20 + |Trim(name)| + 1
            && m.text[..|who|] == who
            && m.text[|who|..|who| + 20] == " created the group \""
            && m.text[|who| + 20..|m.text| - 1] == Trim(name)
            && m.text[|m.text| - 1] == '"'
  {
    MessageDoc(InterpolateNull(CreatorName(me)) + " created the group \"" + Trim(name) + "\"",
               "system", Some("System"), true, "system")
  }

  /** A group invitation the creator sends to one selected friend. */
  datatype Invite = Invite(from: Uid, to: Uid, groupName: string, chatId: string)

  /** The invitations, one per selected friend, in selection order. */
  function Invites(me: AuthUser, name: string, sel: seq<Entry>, chatId: string): (r: seq<Invite>)
    ensures |r| == |sel|
    ensures forall i | 0 <= i < |sel| :: r[i] == Invite(me.uid, sel[i].uid, Trim(name), chatId)
    ensures me.uid !in Uids(sel) ==> forall v | v in r :: v.to != me.uid
  {
    var r := seq(|sel|, i requires 0 <= i < |sel| => Invite(me.uid, sel[i].uid, Trim(name), chatId));
    assert forall i | 0 <= i < |sel| :: r[i].to == Uids(sel)[i];
    r
  }

  /** Where the success alert's button leads. */
  datatype Route = Route(chatId: string, isGroupChat: bool, groupName: string)

  /** The effect of handleCreateGroup. `newId` is the id the backend gives
      the new chat document. */
  datatype Outcome = Outcome(chats: ChatStore, messages: MessageStore, invites: seq<Invite>, alert: Alert, route: Option<Route>)

  /** The two checks before anything is written, in the source's order. */
  function Validate(name: string, sel: seq<Entry>): (r: Option<Alert>)
    ensures Blank(name) ==> r == Some(Error("Please enter a group name"))
    ensures !Blank(name) && |sel| == 0 ==> r == Some(Error("Please select at least one friend"))
    ensures r.None? <==> !Blank(name) && |sel| > 0
  {
    TrimEmptyIffBlank(name);
    if Trim(name) == [] then Some(Error("Please enter a group name"))
    else if |sel| == 0 then Some(Error("Please select at least one friend"))
    else None
  }

  /** handleCreateGroup as written: the chat and its system message are
      written, then the first call to `sendGroupInviteNotification`, which
      NotificationHelper does not define, throws; the catch reports a
      failure and no navigation is offered. */
  function CreateGroupAsWritten(chats: ChatStore, ms: MessageStore, me: AuthUser, name: string, sel: seq<Entry>, newId: string): (o: Outcome)
    ensures Validate(name, sel).Some? ==> o == Outcome(chats, ms, [], Validate(name, sel).value, None)
    ensures Validate(name, sel).None? ==>
              && o.chats == chats[newId := GroupDoc(me, name, sel)]
              && o.messages == Post(ms, newId, SystemMessage(me, name))
              && o.invites == [] && o.alert == Error("Failed to create group chat") && o.route == None
  {
    match Validate(name, sel)
    case Some(a) => Outcome(chats, ms, [], a, None)
    case None =>
      Outcome(chats[newId := GroupDoc(me, name, sel)], Post(ms, newId, SystemMessage(me, name)),
              [], Error("Failed to create group chat"), None)
  }

  /** handleCreateGroup as evidently intended: the same writes, one
      invitation per selected friend, and a success alert leading to the new
      chat. */
  function CreateGroup(chats: ChatStore, ms: MessageStore, me: AuthUser, name: string, sel: seq<Entry>, newId: string): (o: Outcome)
    ensures Validate(name, sel).Some? ==> o == Outcome(chats, ms, [], Validate(name, sel).value, None)
    ensures Validate(name, sel).None? ==>
              && o.chats == chats[newId := GroupDoc(me, name, sel)]
              && o.messages == Post(ms, newId, SystemMessage(me, name))
    ensures Validate(name, sel).None? ==> o.invites == Invites(me, name, sel, newId)
    ensures Validate(name, sel).None? ==> o.alert == Done("Group chat created successfully")
    ensures Validate(name, sel).None? ==> o.route == Some(Route(newId, true, Trim(name)))
  {
    match Validate(name, sel)
    case Some(a) => Outcome(chats, ms, [], a, None)
    case None =>
      Outcome(chats[newId := GroupDoc(me, name, sel)], Post(ms, newId, SystemMessage(me, name)),
              Invites(me, name, sel, newId), Done("Group chat created successfully"),
              Some(Route(newId, true, Trim(name))))
  }

  /** Discovered discrepancy: every valid creation writes the group, yet
      reports a failure, sends no invitation and never opens the chat. */
  lemma CreateAsWrittenReportsFailure(chats: ChatStore, ms: MessageStore, me: AuthUser, name: string, sel: seq<Entry>, newId: string)
    requires !Blank(name) && |sel| > 0
    ensures CreateGroupAsWritten(chats, ms, me, name, sel, newId).chats == CreateGroup(chats, ms, me, name, sel, newId).chats
    ensures CreateGroupAsWritten(chats, ms, me, name, sel, newId).messages == CreateGroup(chats, ms, me, name, sel, newId).messages
    ensures |CreateGroup(chats, ms, me, name, sel, newId).invites| == |sel| > 0
    ensures CreateGroupAsWritten(chats, ms, me, name, sel, newId).invites == []
    ensures CreateGroupAsWritten(chats, ms, me, name, sel, newId).route.None?
    ensures CreateGroupAsWritten(chats, ms, me, name, sel, newId).alert.title == "Error"
  {
  }
}

=== FILE: js.dfy ===
/** JavaScript value idioms the app relies on: optional fields, the `||`
    fallback on strings, `Array.prototype.filter`, and the backend's
    `arrayUnion` / `arrayRemove` array updates. */
module Js {

  /** A field that may be missing: `None` stands for `undefined` (and for
      `null` where the source stores an explicit null). */
  datatype Option<+T> = None | Some(value: T)

  /** Success or failure of an operation that the source wraps in try/catch. */
  datatype Result<+T, +E> = Success(value: T) | Failure(error: E)

  /** JavaScript truthiness of an optional string: undefined, null and ''
      are falsy, every other string is truthy. */
  predicate Truthy(s: Option<string>)
  {
    s.Some? && |s.value| > 0
  }

  /** `a || b` on optional strings. */
  function Or(a: Option<string>, b: Option<string>): (r: Option<string>)
    ensures Truthy(a) ==> r == a
    ensures !Truthy(a) ==> r == b
  {
    if Truthy(a) then a else b
  }

  /** `a || d` where the default `d` is a string literal. */
  function OrText(a: Option<string>, d: string): (r: string)
    ensures Truthy(a) ==> r == a.value
    ensures !Truthy(a) ==> r == d
  {
    if Truthy(a) then a.value else d
  }

  /** The text a template literal `${x}` produces for an optional string
      whose missing value is `null`. */
  function InterpolateNull(a: Option<string>): (r: string)
    ensures a.Some? ==> r == a.value
    ensures a.None? ==> r == "null"
  {
    match a
    case Some(s) => s
    case None => "null"
  }

  /** `r` is `s` with some elements deleted and the rest kept in order. */
  predicate Subsequence<T(==)>(r: seq<T>, s: seq<T>)
    decreases |s|
  {
    if |r| == 0 then true
    else if |s| == 0 then false
    else (r[0] == s[0] && Subsequence(r[1..], s[1..])) || Subsequence(r, s[1..])
  }

  /** Every sequence is a subsequence of itself. */
  lemma {:induction false} SubsequenceRefl<T>(s: seq<T>)
    ensures Subsequence(s, s)
    decreases |s|
  {
    if |s| > 0 {
      SubsequenceRefl(s[1..]);
    }
  }

  /** `Array.prototype.filter`: keeps, in order, the elements satisfying `p`. */
  function Filter<T(!new)>(s: seq<T>, p: T -> bool): (r: seq<T>)
    ensures |r| <= |s| && Subsequence(r, s)
    ensures forall x :: x in r <==> x in s && p(x)
    ensures (forall i :: 0 <= i < |s| ==> p(s[i])) ==> r == s
  {
    if |s| == 0 then []
    else
      var t := Filter(s[1..], p);
      if p(s[0]) then
        assert ([s[0]] + t)[1..] == t;
        [s[0]] + t
      else t
  }

  /** Filtering distributes over concatenation: the kept elements appear in
      the order of the input, which is what makes the result a subsequence. */
  lemma {:induction false} FilterAppend<T(!new)>(a: seq<T>, b: seq<T>, p: T -> bool)
    ensures Filter(a + b, p) == Filter(a, p) + Filter(b, p)
    decreases |a|
  {
    if |a| == 0 {
      assert a + b == b;
    } else {
      assert (a + b)[1..] == a[1..] + b;
      FilterAppend(a[1..], b, p);
    }
  }

  /** The values of the `Some` entries of `opts`, in order (a map-and-filter
      over a list of optional results). */
  function Somes<T(!new)>(opts: seq<Option<T>>): (vs: seq<T>)
    ensures |vs| <= |opts|
    ensures forall v :: v in vs <==> Some(v) in opts
  {
    if |opts| == 0 then []
    else
      var rest := Somes(opts[1..]);
      assert forall o | o in opts[1..] :: o in opts;
      assert forall o | o in opts :: o == opts[0] || o in opts[1..];
      (if opts[0].Some? then [opts[0].value] else []) + rest
  }

  /** `Somes` of a list with one more entry in front. */
  lemma SomesCons<T(!new)>(o: Option<T>, opts: seq<Option<T>>)
    ensures Somes([o] + opts) == (if o.Some? then [o.value] else []) + Somes(opts)
  {
    assert ([o] + opts)[1..] == opts;
  }

  /** Filtering keeps every copy of a kept value: each value occurs in the
      result as often as in the input if it passes, and not at all if not. */
  lemma {:induction false} FilterMultiset<T(!new)>(s: seq<T>, p: T -> bool)
    ensures forall x :: multiset(Filter(s, p))[x] == if p(x) then multiset(s)[x] else 0
    decreases |s|
  {
    if |s| > 0 {
      FilterMultiset(s[1..], p);
      assert s == [s[0]] + s[1..];
      assert multiset(s) == multiset([s[0]]) + multiset(s[1..]);
    }
  }

  /** Filtering twice by the same predicate is filtering once. */
  lemma {:induction false} FilterIdempotent<T(!new)>(s: seq<T>, p: T -> bool)
    ensures Filter(Filter(s, p), p) == Filter(s, p)
  {
    var r := Filter(s, p);
    forall i | 0 <= i < |r| ensures p(r[i]) {
      assert r[i] in r;
    }
  }

  /** `arr.find(p)`: the first element satisfying `p`, if any. */
  function Find<T>(s: seq<T>, p: T -> bool): (r: Option<T>)
    ensures r.Some? ==> r.value in s && p(r.value)
    ensures r.None? <==> forall i :: 0 <= i < |s| ==> !p(s[i])
    ensures r.Some? ==> exists i :: 0 <= i < |s| && s[i] == r.value
                                    && forall j :: 0 <= j < i ==> !p(s[j])
  {
    if |s| == 0 then None
    else if p(s[0]) then Some(s[0])
    else
      var t := Find(s[1..], p);
      assert t.Some? ==> exists i :: 0 <= i < |s| && s[i] == t.value
                                    && forall j :: 0 <= j < i ==> !p(s[j]) by {
        if t.Some? {
          var k :| 0 <= k < |s[1..]| && s[1..][k] == t.value
                   && forall j :: 0 <= j < k ==> !p(s[1..][j]);
          assert s[k + 1] == t.value;
          assert forall j :: 0 <= j < k + 1 ==> !p(s[j]) by {
            forall j | 0 <= j < k + 1 ensures !p(s[j]) {
              if j > 0 { assert s[j] == s[1..][j - 1]; }
            }
          }
        }
      }
      t
  }

  /** Backend `arrayUnion(x)`: appends `x` only when it is absent. */
  function ArrayUnion<T(==,!new)>(a: seq<T>, x: T): (r: seq<T>)
    ensures forall y :: y in r <==> y in a || y == x
    ensures x in a ==> r == a
    ensures x !in a ==> r == a + [x]
  {
    if x in a then a else a + [x]
  }

  /** Backend `arrayRemove(x)`: removes every occurrence of `x`. */
  function ArrayRemove<T(==,!new)>(a: seq<T>, x: T): (r: seq<T>)
    ensures forall y :: y in r <==> y in a && y != x
    ensures x !in a ==> r == a
  {
    Filter(a, y => y != x)
  }
}

=== FILE: login.dfy ===
/** Sign-in: the form check and the message for each sign-in failure. The
    auth service is reduced to its answer: the signed-in user or an error
    code. */
module Login {
  import opened Js
  import opened Store
  import opened Ui

  /** The message for a sign-in error code. */
  function ErrorMessage(code: string): (m: string)
    ensures m == "Invalid email or password" <==> code == "auth/user-not-found" || code == "auth/wrong-password"
    ensures m == "Too many failed login attempts. Please try again later." <==> code == "auth/too-many-requests"
    ensures m == "Failed to login. Please try again." <==>
              code !in {"auth/user-not-found", "auth/wrong-password", "auth/too-many-requests"}
  {
    if code == "auth/user-not-found" || code == "auth/wrong-password" then "Invalid email or password"
    else if code == "auth/too-many-requests" then "Too many failed login attempts. Please try again later."
    else "Failed to login. Please try again."
  }

  /** The effect of a sign-in attempt: the session, the auth error the
      store records, the alert, and the loading flag. */
  datatype Outcome = Outcome(session: Option<AuthUser>, authError: Option<string>, alert: Option<Alert>, loading: bool)

  /** handleLogin. An empty field is rejected before the service is asked. */
  function Submit(email: string, password: string, signIn: Result<AuthUser, string>): (o: Outcome)
    ensures !o.loading
    ensures email == "" || password == "" ==> o == Outcome(None, None, Some(Error("Please fill in all fields")), false)
    ensures email != "" && password != "" && signIn.Success? ==> o == Outcome(Some(signIn.value), None, None, false)
    ensures email != "" && password != "" && signIn.Failure? ==>
              var m := ErrorMessage(signIn.error);
              o == Outcome(None, Some(m), Some(Alert("Login Error", m)), false)
  {
    if email == "" || password == "" then Outcome(None, None, Some(Error("Please fill in all fields")), false)
    else match signIn
      case Success(u) => Outcome(Some(u), None, None, false)
      case Failure(code) =>
        var m := ErrorMessage(code);
        Outcome(None, Some(m), Some(Alert("Login Error", m)), false)
  }

  /** A wrong password and an unknown account read the same, so the form
      does not reveal which emails have accounts. */
  lemma NoAccountProbe(email: string, password: string)
    requires email != "" && password != ""
    ensures Submit(email, password, Failure("auth/user-not-found")) == Submit(email, password, Failure("auth/wrong-password"))
  {
  }
}

=== FILE: notification_helper.dfy ===
/** The local notifications the app schedules for messages, friend requests
    and stories: the sender's name, the title and body, and the data payload
    a tap is routed by. The payload's ISO timestamp comes from the clock and
    is not modelled. */
module NotificationHelper {
  import opened Js
  import opened Store

  /** The `data` payload; `kind` is its `type` field. */
  datatype Payload = Payload(kind: Option<string>, senderId: Option<Uid>, chatId: Option<string>, storyId: Option<string>)

  /** A scheduled local notification. */
  datatype Notice = Notice(title: string, body: string, data: Payload)

  /** The longest body a message notification carries. */
  const MaxBody := 100

  /** The sender's name: displayName, else username, else 'Someone'. */
  function SenderName(d: UserDoc): (n: string)
    ensures Truthy(d.displayName) ==> n == d.displayName.value
    ensures !Truthy(d.displayName) && Truthy(d.username) ==> n == d.username.value
    ensures !Truthy(d.displayName) && !Truthy(d.username) ==> n == "Someone"
    ensures |n| > 0
  {
    OrText(Or(d.displayName, d.username), "Someone")
  }

  /** A message body longer than 100 characters is cut to its first 97
      characters followed by '...'. */
  function Truncate(body: string): (r: string)
    ensures |r| <= MaxBody
    ensures |body| <= MaxBody ==> r == body
    ensures |body| > MaxBody ==> |r| == MaxBody && r[..97] == body[..97] && r[97..] == "..."
  {
    if |body| > MaxBody then body[..97] + "..." else body
  }

  /** Truncating a truncated body changes nothing. */
  lemma TruncateIdempotent(body: string)
    ensures Truncate(Truncate(body)) == Truncate(body)
  {
  }

  /** What survives truncation is a prefix of the original body. */
  lemma TruncateKeepsPrefix(body: string)
    ensures var r := Truncate(body);
            |r| <= |body| && (r == body || r[..|r| - 3] == body[..|r| - 3])
  {
  }

  /** sendMessageNotification. A sender without a user document schedules
      nothing. */
  function MessageNotice(users: Users, senderId: Uid, message: string, chatId: string): (n: Option<Notice>)
    ensures n.None? <==> senderId !in users
    ensures n.Some? ==> n.value.title == SenderName(users[senderId]) + " sent you a message"
    ensures n.Some? ==> n.value.body == Truncate(message) && |n.value.body| <= MaxBody
    ensures n.Some? ==> n.value.data == Payload(Some("message"), Some(senderId), Some(chatId), None)
  {
    if senderId !in users then None
    else Some(Notice(SenderName(users[senderId]) + " sent you a message", Truncate(message),
                     Payload(Some("message"), Some(senderId), Some(chatId), None)))
  }

  /** sendFriendRequestNotification. */
  function FriendRequestNotice(users: Users, senderId: Uid): (n: Option<Notice>)
    ensures n.None? <==> senderId !in users
    ensures n.Some? ==> n.value.title == "New Friend Request"
    ensures n.Some? ==> n.value.body == SenderName(users[senderId]) + " wants to add you as a friend"
    ensures n.Some? ==> n.value.data == Payload(Some("friendRequest"), Some(senderId), None, None)
  {
    if senderId !in users then None
    else Some(Notice("New Friend Request", SenderName(users[senderId]) + " wants to add you as a friend",
                     Payload(Some("friendRequest"), Some(senderId), None, None)))
  }

  /** sendStoryNotification. */
  function StoryNotice(users: Users, senderId: Uid, storyId: string): (n: Option<Notice>)
    ensures n.None? <==> senderId !in users
    ensures n.Some? ==> n.value.title == "New Story"
    ensures n.Some? ==> n.value.body == SenderName(users[senderId]) + " added a new story"
    ensures n.Some? ==> n.value.data == Payload(Some("story"), Some(senderId), None, Some(storyId))
  {
    if senderId !in users then None
    else Some(Notice("New Story", SenderName(users[senderId]) + " added a new story",
                     Payload(Some("story"), Some(senderId), None, Some(storyId))))
  }

  /** sendTestNotification; a missing argument takes its default. */
  function TestNotice(title: Option<string>, body: Option<string>): (n: Notice)
    ensures title.Some? ==> n.title == title.value
    ensures title.None? ==> n.title == "Test Notification"
    ensures body.Some? ==> n.body == body.value
    ensures body.None? ==> n.body == "This is a test notification"
    ensures n.data.kind == Some("test") && n.data.senderId.None?
  {
    Notice(match title case Some(t) => t case None => "Test Notification",
           match body case Some(b) => b case None => "This is a test notification",
           Payload(Some("test"), None, None, None))
  }

  /** The three sender-based notifications carry distinct payload types, so
      a tap on one is never routed as another. */
  lemma NoticeKindsDistinct(users: Users, senderId: Uid, message: string, chatId: string, storyId: string)
    requires senderId in users
    ensures MessageNotice(users, senderId, message, chatId).value.data.kind
            != FriendRequestNotice(users, senderId).value.data.kind
    ensures MessageNotice(users, senderId, message, chatId).value.data.kind
            != StoryNotice(users, senderId, storyId).value.data.kind
    ensures FriendRequestNotice(users, senderId).value.data.kind
            != StoryNotice(users, senderId, storyId).value.data.kind
  {
  }
}

=== FILE: notification_inbox.dfy ===
/** The in-app notification list kept by the notification context: the
    entries newest first, the unread counter, and the app-icon badge, which
    every operation sets to the new counter. Operations are taken one at a
    time, each seeing the state the previous one left. */
module NotificationInbox {
  import opened Js
  import opened NotificationHelper

  /** An entry of the list; `createdAt` is in milliseconds. */
  datatype Item = Item(id: string, title: string, body: string, data: Payload, read: bool, createdAt: int)

  datatype Inbox = Inbox(items: seq<Item>, unread: int, badge: int)

  const Empty := Inbox([], 0, 0)

  /** Number of entries not yet read. */
  function CountUnread(items: seq<Item>): (n: nat)
    ensures n <= |items|
  {
    if |items| == 0 then 0 else (if items[0].read then 0 else 1) + CountUnread(items[1..])
  }

  /** No two entries share an id. */
  predicate UniqueIds(items: seq<Item>)
  {
    forall i, j | 0 <= i < j < |items| :: items[i].id != items[j].id
  }

  /** The inbox invariant: the badge shows the counter, and the counter is
      never negative and never above the number of unread entries. */
  predicate Valid(b: Inbox)
  {
    b.badge == b.unread && 0 <= b.unread <= CountUnread(b.items) && UniqueIds(b.items)
  }

  /** The record the foreground listener adds for a received notification. */
  function Received(id: string, n: Notice, now: int): (it: Item)
    ensures !it.read && it.id == id && it.createdAt == now
    ensures it.title == n.title && it.body == n.body && it.data == n.data
  {
    Item(id, n.title, n.body, n.data, false, now)
  }

  /** addNotification: the entry goes first and the counter goes up by one. */
  function Add(b: Inbox, it: Item): (r: Inbox)
    ensures r.items == [it] + b.items
    ensures r.unread == b.unread + 1 && r.badge == r.unread
  {
    Inbox([it] + b.items, b.unread + 1, b.unread + 1)
  }

  /** `{ ...n, read: true }` for the entry with the given id. */
  function MarkIf(items: seq<Item>, id: string): (r: seq<Item>)
    ensures |r| == |items|
    ensures forall i | 0 <= i < |items| ::
              r[i] == if items[i].id == id then items[i].(read := true) else items[i]
  {
    seq(|items|, i requires 0 <= i < |items| =>
      if items[i].id == id then items[i].(read := true) else items[i])
  }

  /** markNotificationAsRead: the entries with that id become read; the
      counter goes down by one but not below zero, whether or not such an
      unread entry exists. */
  function MarkRead(b: Inbox, id: string): (r: Inbox)
    ensures |r.items| == |b.items|
    ensures forall i | 0 <= i < |b.items| && b.items[i].id != id :: r.items[i] == b.items[i]
    ensures forall i | 0 <= i < |b.items| && b.items[i].id == id :: r.items[i].read
    ensures r.unread == (if b.unread > 0 then b.unread - 1 else 0) && r.unread >= 0
    ensures r.badge == r.unread
  {
    var u := if b.unread - 1 > 0 then b.unread - 1 else 0;
    Inbox(MarkIf(b.items, id), u, u)
  }

  /** markAllNotificationsAsRead: every entry read, counter and badge 0. */
  function MarkAll(b: Inbox): (r: Inbox)
    ensures |r.items| == |b.items|
    ensures forall i | 0 <= i < |b.items| :: r.items[i] == b.items[i].(read := true)
    ensures CountUnread(r.items) == 0
    ensures r.unread == 0 && r.badge == 0
  {
    var items := seq(|b.items|, i requires 0 <= i < |b.items| => b.items[i].(read := true));
    AllReadCount(items);
    Inbox(items, 0, 0)
  }

  lemma {:induction false} AllReadCount(items: seq<Item>)
    requires forall i | 0 <= i < |items| :: items[i].read
    ensures CountUnread(items) == 0
    decreases |items|
  {
    if |items| > 0 {
      AllReadCount(items[1..]);
    }
  }

  /** Number of unread entries with the given id. */
  function UnreadWith(items: seq<Item>, id: string): (n: nat)
    ensures n <= CountUnread(items)
  {
    if |items| == 0 then 0
    else (if items[0].id == id && !items[0].read then 1 else 0) + UnreadWith(items[1..], id)
  }

  /** Marking the entries with one id read lowers the unread count by the
      number of unread entries with that id. */
  lemma {:induction false} MarkIfCount(items: seq<Item>, id: string)
    ensures CountUnread(MarkIf(items, id)) + UnreadWith(items, id) == CountUnread(items)
    decreases |items|
  {
    if |items| > 0 {
      assert MarkIf(items[1..], id) == MarkIf(items, id)[1..];
      MarkIfCount(items[1..], id);
    }
  }

  /** With unique ids at most one unread entry has a given id, and one does
      exactly when some entry with that id is unread. */
  lemma {:induction false} UnreadWithUnique(items: seq<Item>, id: string)
    requires UniqueIds(items)
    ensures UnreadWith(items, id) <= 1
    ensures UnreadWith(items, id) == 1 <==> exists i | 0 <= i < |items| :: items[i].id == id && !items[i].read
    decreases |items|
  {
    if |items| > 0 {
      var tail := items[1..];
      assert UniqueIds(tail) by {
        forall i, j | 0 <= i < j < |tail| ensures tail[i].id != tail[j].id {
          assert tail[i] == items[i + 1] && tail[j] == items[j + 1];
        }
      }
      UnreadWithUnique(tail, id);
      if items[0].id == id {
        forall i | 0 <= i < |tail| ensures tail[i].id != id {
          assert items[i + 1] == tail[i];
        }
      }
      if exists i | 0 <= i < |items| :: items[i].id == id && !items[i].read {
        var i :| 0 <= i < |items| && items[i].id == id && !items[i].read;
        if i > 0 { assert tail[i - 1] == items[i]; }
      }
      if UnreadWith(tail, id) == 1 {
        var i :| 0 <= i < |tail| && tail[i].id == id && !tail[i].read;
        assert items[i + 1] == tail[i];
      }
    }
  }

  /** Marking by id keeps every id where it was. */
  lemma MarkIfKeepsIds(items: seq<Item>, id: string)
    requires UniqueIds(items)
    ensures UniqueIds(MarkIf(items, id))
  {
    var r := MarkIf(items, id);
    forall i, j | 0 <= i < j < |r| ensures r[i].id != r[j].id {
      assert r[i].id == items[i].id && r[j].id == items[j].id;
    }
  }

  /** Adding an entry with a fresh id keeps the inbox valid; so do both
      mark operations. */
  lemma AddKeepsValid(b: Inbox, it: Item)
    requires Valid(b) && !it.read
    requires forall i | 0 <= i < |b.items| :: b.items[i].id != it.id
    ensures Valid(Add(b, it))
  {
    var r := Add(b, it);
    assert r.items[1..] == b.items;
    forall i, j | 0 <= i < j < |r.items| ensures r.items[i].id != r.items[j].id {
      if i == 0 { assert r.items[j] == b.items[j - 1]; }
      else { assert r.items[i] == b.items[i - 1] && r.items[j] == b.items[j - 1]; }
    }
  }

  lemma MarkReadKeepsValid(b: Inbox, id: string)
    requires Valid(b)
    ensures Valid(MarkRead(b, id))
  {
    MarkIfCount(b.items, id);
    UnreadWithUnique(b.items, id);
    MarkIfKeepsIds(b.items, id);
  }

  lemma MarkAllKeepsValid(b: Inbox)
    requires Valid(b)
    ensures Valid(MarkAll(b))
  {
    var r := MarkAll(b);
    forall i, j | 0 <= i < j < |r.items| ensures r.items[i].id != r.items[j].id {
      assert r.items[i].id == b.items[i].id && r.items[j].id == b.items[j].id;
    }
  }

  /** The counter matches the list exactly. */
  predicate Exact(b: Inbox)
  {
    Valid(b) && b.unread == CountUnread(b.items)
  }

  /** Adding an unread entry keeps the counter exact; so does marking an
      entry that is listed as unread, and marking everything. */
  lemma AddKeepsExact(b: Inbox, it: Item)
    requires Exact(b) && !it.read
    requires forall i | 0 <= i < |b.items| :: b.items[i].id != it.id
    ensures Exact(Add(b, it))
  {
    AddKeepsValid(b, it);
    assert Add(b, it).items[1..] == b.items;
  }

  lemma MarkUnreadKeepsExact(b: Inbox, id: string)
    requires Exact(b)
    requires exists i | 0 <= i < |b.items| :: b.items[i].id == id && !b.items[i].read
    ensures Exact(MarkRead(b, id))
  {
    MarkReadKeepsValid(b, id);
    MarkIfCount(b.items, id);
    UnreadWithUnique(b.items, id);
  }

  lemma MarkAllKeepsExact(b: Inbox)
    requires Exact(b)
    ensures Exact(MarkAll(b))
  {
    MarkAllKeepsValid(b);
  }

  /** Marking an entry that is already read still lowers the counter, so the
      counter can fall below the number of unread entries. */
  lemma MarkReadTwiceUndercounts()
    ensures var it1 := Item("a", "", "", Payload(None, None, None, None), false, 0);
            var it2 := Item("b", "", "", Payload(None, None, None, None), false, 0);
            var b := MarkRead(MarkRead(Add(Add(Empty, it1), it2), "a"), "a");
            b.unread == 0 && CountUnread(b.items) == 1
  {
    var it1 := Item("a", "", "", Payload(None, None, None, None), false, 0);
    var it2 := Item("b", "", "", Payload(None, None, None, None), false, 0);
    var b2 := Add(Add(Empty, it1), it2);
    assert b2.items == [it2, it1];
    var m1 := MarkRead(b2, "a");
    assert m1.items == [it2, it1.(read := true)];
    var m2 := MarkRead(m1, "a");
    assert m2.items == [it2, it1.(read := true)];
    assert m2.items[1..] == [it1.(read := true)];
  }
}

=== FILE: notifications_screen.dfy ===
/** The notifications screen: how old an entry looks, its icon, where a tap
    on it leads, and when "Mark all read" is offered. */
module NotificationsScreen {
  import opened Js
  import opened Text
  import opened NotificationHelper
  import opened NotificationInbox

  const MsPerMinute := 60000
  const MinutesPerHour := 60
  const MinutesPerDay := 1440

  /** The age bucket of an entry. */
  datatype Age = JustNow | Minutes(m: nat) | Hours(h: nat) | Days(d: nat)

  /** `Math.floor(diffMs / 60000)`; Dafny's division by a positive divisor
      rounds down like `Math.floor`, for negative differences too. */
  function WholeMinutes(diffMs: int): (m: int)
    ensures m * MsPerMinute <= diffMs < (m + 1) * MsPerMinute
  {
    diffMs / MsPerMinute
  }

  /** The bucket for an age of `diffMs` milliseconds (now minus createdAt). */
  function Bucket(diffMs: int): (a: Age)
    ensures a.JustNow? <==> WholeMinutes(diffMs) < 1
    ensures a.Minutes? ==> 1 <= a.m < 60 && a.m == WholeMinutes(diffMs)
    ensures a.Hours? ==> 1 <= a.h <= 23
                         && a.h * MinutesPerHour <= WholeMinutes(diffMs) < (a.h + 1) * MinutesPerHour
    ensures a.Days? ==> a.d >= 1
                        && a.d * MinutesPerDay <= WholeMinutes(diffMs) < (a.d + 1) * MinutesPerDay
  {
    var m := WholeMinutes(diffMs);
    if m < 1 then JustNow
    else if m < MinutesPerHour then Minutes(m)
    else if m < MinutesPerDay then Hours(m / MinutesPerHour)
    else Days(m / MinutesPerDay)
  }

  /** The text shown for a bucket. */
  function Label(a: Age): (s: string)
    ensures a.JustNow? <==> s == "Just now"
    ensures !a.JustNow? ==> |s| > 0 && '0' <= s[0] <= '9'
  {
    match a
    case JustNow => "Just now"
    case Minutes(m) => Counted(m, 'm')
    case Hours(h) => Counted(h, 'h')
    case Days(d) => Counted(d, 'd')
  }

  /** `${n}<unit> ago`. */
  function Counted(n: nat, unit: char): (s: string)
    ensures |s| >= 6 && '0' <= s[0] <= '9'
    ensures s[..|s| - 5] == NatToString(n) && s[|s| - 5] == unit && s[|s| - 4..] == " ago"
  {
    var digits := NatToString(n);
    assert (digits + [unit] + " ago")[0] == digits[0];
    digits + [unit] + " ago"
  }

  /** Number and unit read back from a label: a label names one bucket. */
  lemma LabelInjective(a: Age, b: Age)
    requires Label(a) == Label(b)
    ensures a == b
  {
    if !a.JustNow? && !b.JustNow? {
      var x := match a case Minutes(m) => m case Hours(h) => h case Days(d) => d case JustNow => 0;
      var y := match b case Minutes(m) => m case Hours(h) => h case Days(d) => d case JustNow => 0;
      ParseNatToString(x);
      ParseNatToString(y);
    }
  }

  /** The smallest age in minutes a bucket stands for. */
  function Floor(a: Age): nat
  {
    match a
    case JustNow => 0
    case Minutes(m) => m
    case Hours(h) => h * MinutesPerHour
    case Days(d) => d * MinutesPerDay
  }

  /** An older entry never shows a younger label. */
  lemma BucketMonotone(d1: int, d2: int)
    requires d1 <= d2
    ensures Floor(Bucket(d1)) <= Floor(Bucket(d2))
  {
    var m1 := WholeMinutes(d1);
    var m2 := WholeMinutes(d2);
    MulCancel(m1, m2 + 1, MsPerMinute);
    var a1 := Bucket(d1);
    var a2 := Bucket(d2);
    if a1.JustNow? {
    } else if a2.Hours? {
      assert a2.h == m2 / MinutesPerHour;
      if a1.Hours? {
        assert a1.h == m1 / MinutesPerHour;
        DivMonotone(m1, m2, MinutesPerHour);
      }
    } else if a2.Days? {
      assert a2.d == m2 / MinutesPerDay;
      if a1.Days? {
        assert a1.d == m1 / MinutesPerDay;
        DivMonotone(m1, m2, MinutesPerDay);
      }
    }
  }

  lemma DivMonotone(x: int, y: int, k: int)
    requires 0 <= x <= y && k > 0
    ensures x / k <= y / k
  {
    var q1, q2 := x / k, y / k;
    assert q1 * k <= x && y < (q2 + 1) * k;
    MulCancel(q1, q2 + 1, k);
  }

  lemma MulCancel(a: int, b: int, k: int)
    requires k > 0 && a * k < b * k
    ensures a < b
  {
  }

  /** The icon for a payload type. */
  function Icon(kind: Option<string>): (name: string)
    ensures kind == Some("message") <==> name == "chatbubble-outline"
    ensures kind == Some("friendRequest") <==> name == "person-add-outline"
    ensures kind == Some("story") <==> name == "camera-outline"
    ensures name == "notifications-outline" <==>
            kind !in {Some("message"), Some("friendRequest"), Some("story")}
  {
    if kind == Some("message") then "chatbubble-outline"
    else if kind == Some("friendRequest") then "person-add-outline"
    else if kind == Some("story") then "camera-outline"
    else "notifications-outline"
  }

  /** Where a tap leads. */
  datatype Route = ToChat(chatId: string) | ToFriendRequests | ToStory(storyId: string)

  /** The route for a payload: the type must match and its id field be
      present and non-empty. */
  function RouteOf(d: Payload): (r: Option<Route>)
    ensures r == Some(ToFriendRequests) <==> d.kind == Some("friendRequest") && Truthy(d.senderId)
    ensures (exists c :: r == Some(ToChat(c))) <==> d.kind == Some("message") && Truthy(d.chatId)
    ensures (exists s :: r == Some(ToStory(s))) <==> d.kind == Some("story") && Truthy(d.storyId)
    ensures r.Some? && r.value.ToChat? ==> Some(r.value.chatId) == d.chatId
    ensures r.Some? && r.value.ToStory? ==> Some(r.value.storyId) == d.storyId
  {
    if d.kind == Some("message") && Truthy(d.chatId) then Some(ToChat(d.chatId.value))
    else if d.kind == Some("friendRequest") && Truthy(d.senderId) then Some(ToFriendRequests)
    else if d.kind == Some("story") && Truthy(d.storyId) then Some(ToStory(d.storyId.value))
    else None
  }

  /** The notifications the app schedules itself are routed to the place
      they announce. */
  lemma SchedulesAreRoutable(users: Store.Users, senderId: Store.Uid, message: string, chatId: string, storyId: string)
    requires senderId in users && senderId != "" && chatId != "" && storyId != ""
    ensures RouteOf(MessageNotice(users, senderId, message, chatId).value.data) == Some(ToChat(chatId))
    ensures RouteOf(FriendRequestNotice(users, senderId).value.data) == Some(ToFriendRequests)
    ensures RouteOf(StoryNotice(users, senderId, storyId).value.data) == Some(ToStory(storyId))
  {
  }

  /** handleNotificationPress: the entry is marked read only if it was
      unread; then the route, if any, is followed. */
  function Press(b: Inbox, it: Item): (r: (Inbox, Option<Route>))
    ensures it.read ==> r.0 == b
    ensures !it.read ==> r.0 == MarkRead(b, it.id)
    ensures r.1 == RouteOf(it.data)
  {
    (if it.read then b else MarkRead(b, it.id), RouteOf(it.data))
  }

  /** A press on a listed entry keeps the counter exact, because an entry
      already read is not marked again. */
  lemma PressKeepsExact(b: Inbox, i: nat)
    requires Exact(b) && i < |b.items|
    ensures Exact(Press(b, b.items[i]).0)
  {
    if !b.items[i].read {
      MarkUnreadKeepsExact(b, b.items[i].id);
    }
  }

  /** "Mark all read" is offered exactly when something is unread. */
  predicate MarkAllVisible(unread: int)
  {
    unread > 0
  }

  /** With an exact counter the control is offered exactly when an entry is
      unread. */
  lemma MarkAllVisibleIffUnread(b: Inbox)
    requires Exact(b)
    ensures MarkAllVisible(b.unread) <==> exists i | 0 <= i < |b.items| :: !b.items[i].read
  {
    CountUnreadPositive(b.items);
  }

  lemma {:induction false} CountUnreadPositive(items: seq<Item>)
    ensures CountUnread(items) > 0 <==> exists i | 0 <= i < |items| :: !items[i].read
    decreases |items|
  {
    if |items| > 0 {
      CountUnreadPositive(items[1..]);
      assert forall i | 1 <= i < |items| :: items[i] == items[1..][i - 1];
      if CountUnread(items[1..]) > 0 {
        var i :| 0 <= i < |items[1..]| && !items[1..][i].read;
        assert !items[i + 1].read;
      }
    }
  }

  /** Pressing "Mark all read" hides the control. */
  lemma MarkAllHidesControl(b: Inbox)
    ensures !MarkAllVisible(MarkAll(b).unread)
  {
  }
}

=== FILE: records.dfy ===
/** The plain objects the client-side stores hold, and the three list
    updates their reducers share: find the first entry with a given `id`,
    merge a partial object into it with object spread, and drop every entry
    with a given `id`. Field values are primitives, for which JavaScript's
    `===` is structural equality. */
module Records {
  import opened Js

  /** A primitive field value. */
  datatype Value = Null | Bool(b: bool) | Num(n: int) | Str(s: string)

  /** A plain object: field name to value; a missing key reads `undefined`. */
  type Record = map<string, Value>

  /** `obj.id`: `None` is `undefined`. */
  function IdOf(r: Record): (id: Option<Value>)
    ensures id.Some? <==> "id" in r
    ensures id.Some? ==> id.value == r["id"]
  {
    if "id" in r then Some(r["id"]) else None
  }

  /** `{ ...a, ...b }`: the fields of `b` override those of `a`. */
  function Spread(a: Record, b: Record): (r: Record)
    ensures r.Keys == a.Keys + b.Keys
    ensures forall k | k in b :: r[k] == b[k]
    ensures forall k | k in a && k !in b :: r[k] == a[k]
  {
    a + b
  }

  /** Spreading the same object in twice is spreading it once. */
  lemma SpreadIdempotent(a: Record, b: Record)
    ensures Spread(Spread(a, b), b) == Spread(a, b)
  {
  }

  /** `list.findIndex(x => x.id === id)`, with `None` for -1. */
  function FindIndex(list: seq<Record>, id: Option<Value>): (r: Option<nat>)
    ensures r.None? <==> forall i | 0 <= i < |list| :: IdOf(list[i]) != id
    ensures r.Some? ==> r.value < |list| && IdOf(list[r.value]) == id
    ensures r.Some? ==> forall j | 0 <= j < r.value :: IdOf(list[j]) != id
    decreases |list|
  {
    if |list| == 0 then None
    else if IdOf(list[0]) == id then Some(0)
    else
      var t := FindIndex(list[1..], id);
      assert forall i | 1 <= i < |list| :: list[i] == list[1..][i - 1];
      if t.None? then None else Some(t.value + 1)
  }

  /** Searching a list with one entry appended finds an earlier match
      first, and otherwise the appended entry if it matches. */
  lemma FindIndexAppend(list: seq<Record>, x: Record, id: Option<Value>)
    ensures FindIndex(list + [x], id) ==
              if FindIndex(list, id).Some? then FindIndex(list, id)
              else if IdOf(x) == id then Some(|list|) else None
  {
    var l := list + [x];
    assert forall i | 0 <= i < |list| :: l[i] == list[i];
    assert l[|list|] == x;
  }

  /** The `update*` reducers: the payload is spread into the first entry
      whose `id` equals the payload's `id`; with no such entry nothing
      changes. */
  function UpdateById(list: seq<Record>, payload: Record): (r: seq<Record>)
    ensures |r| == |list|
    ensures FindIndex(list, IdOf(payload)).None? ==> r == list
    ensures FindIndex(list, IdOf(payload)).Some? ==>
              var i := FindIndex(list, IdOf(payload)).value;
              && r[i] == Spread(list[i], payload)
              && forall j | 0 <= j < |list| && j != i :: r[j] == list[j]
  {
    match FindIndex(list, IdOf(payload))
    case None => list
    case Some(i) => list[i := Spread(list[i], payload)]
  }

  /** The merged entry keeps the id it was found by. */
  lemma SpreadKeepsId(a: Record, b: Record)
    requires IdOf(a) == IdOf(b)
    ensures IdOf(Spread(a, b)) == IdOf(b)
  {
  }

  /** Updating twice with the same payload is updating once: the merged
      entry is still the first one carrying that id. */
  lemma UpdateByIdIdempotent(list: seq<Record>, payload: Record)
    ensures UpdateById(UpdateById(list, payload), payload) == UpdateById(list, payload)
  {
    var id := IdOf(payload);
    var once := UpdateById(list, payload);
    match FindIndex(list, id)
    case None =>
    case Some(i) =>
      SpreadKeepsId(list[i], payload);
      assert forall j | 0 <= j < i :: once[j] == list[j];
      var k := FindIndex(once, id);
      assert k == Some(i);
      SpreadIdempotent(list[i], payload);
  }

  /** The `remove*` reducers: `list.filter(x => x.id !== id)`. */
  function RemoveById(list: seq<Record>, id: Option<Value>): (r: seq<Record>)
    ensures Subsequence(r, list)
    ensures forall x :: x in r <==> x in list && IdOf(x) != id
    ensures forall i | 0 <= i < |r| :: IdOf(r[i]) != id
    ensures forall x :: multiset(r)[x] == if IdOf(x) != id then multiset(list)[x] else 0
  {
    var r := Filter(list, (x: Record) => IdOf(x) != id);
    FilterMultiset(list, (x: Record) => IdOf(x) != id);
    assert forall i | 0 <= i < |r| :: r[i] in r;
    r
  }

  /** Removing twice is removing once. */
  lemma RemoveByIdIdempotent(list: seq<Record>, id: Option<Value>)
    ensures RemoveById(RemoveById(list, id), id) == RemoveById(list, id)
  {
    FilterIdempotent(list, (x: Record) => IdOf(x) != id);
  }

  /** Removal distributes over concatenation, so the survivors keep their
      relative order. */
  lemma RemoveByIdAppend(a: seq<Record>, b: seq<Record>, id: Option<Value>)
    ensures RemoveById(a + b, id) == RemoveById(a, id) + RemoveById(b, id)
  {
    FilterAppend(a, b, (x: Record) => IdOf(x) != id);
  }

  /** A list without an entry carrying the id is left as it is. */
  lemma RemoveAbsent(list: seq<Record>, id: Option<Value>)
    requires forall i | 0 <= i < |list| :: IdOf(list[i]) != id
    ensures RemoveById(list, id) == list
  {
  }

  /** The loading and error flags every slice carries. */
  datatype Flags = Flags(loading: bool, error: Value)

  /** `*Start`: loading, no error. */
  function Begin(f: Flags): (r: Flags)
    ensures r.loading && r.error == Null
  {
    Flags(true, Null)
  }

  /** `*Success`: no longer loading, no error. */
  function Succeed(f: Flags): (r: Flags)
    ensures !r.loading && r.error == Null
  {
    Flags(false, Null)
  }

  /** `*Failure`: no longer loading, the payload as the error. */
  function Fail(f: Flags, e: Value): (r: Flags)
    ensures !r.loading && r.error == e
  {
    Flags(false, e)
  }

  /** Whatever the flags were before, a fetch that starts and then succeeds
      or fails ends not loading; the outcome alone decides the error. */
  lemma FetchCycle(f: Flags, g: Flags, e: Value)
    ensures Succeed(Begin(f)) == Succeed(g)
    ensures Fail(Begin(f), e) == Fail(g, e)
  {
  }
}

=== FILE: register.dfy ===
/** Sign-up: the form checks, the account and user document created, and
    the message for each sign-up failure. The auth service is reduced to
    its answer: the new account's uid or an error code. */
module Register {
  import opened Js
  import opened Store
  import opened Ui

  datatype Form = Form(username: string, email: string, password: string, confirm: string)

  /** The shortest password the form accepts. */
  const MinPassword := 6

  /** The form checks, in order; the first failing one gives the message. */
  function Validate(f: Form): (m: Option<string>)
    ensures (f.username == "" || f.email == "" || f.password == "" || f.confirm == "") <==>
              m == Some("Please fill in all fields")
    ensures m == Some("Passwords do not match") <==>
              f.username != "" && f.email != "" && f.password != "" && f.confirm != "" && f.password != f.confirm
    ensures m == Some("Password must be at least 6 characters") <==>
              f.username != "" && f.email != "" && f.password != "" && f.confirm != ""
              && f.password == f.confirm && |f.password| < MinPassword
    ensures m.None? <==> f.username != "" && f.email != "" && f.password == f.confirm && |f.password| >= MinPassword
  {
    if f.username == "" || f.email == "" || f.password == "" || f.confirm == "" then Some("Please fill in all fields")
    else if f.password != f.confirm then Some("Passwords do not match")
    else if |f.password| < MinPassword then Some("Password must be at least 6 characters")
    else None
  }

  /** A six-character password repeated correctly passes. */
  lemma SixCharactersPass(username: string, email: string, password: string)
    requires username != "" && email != "" && |password| == 6
    ensures Validate(Form(username, email, password, password)).None?
  {
  }

  /** The message for a sign-up error code. */
  function ErrorMessage(code: string): (m: string)
    ensures code == "auth/email-already-in-use" <==> m == "Email is already in use"
    ensures code == "auth/invalid-email" <==> m == "Invalid email address"
    ensures code == "auth/weak-password" <==> m == "Password is too weak"
    ensures m == "Failed to register. Please try again." <==>
              code !in {"auth/email-already-in-use", "auth/invalid-email", "auth/weak-password"}
  {
    if code == "auth/email-already-in-use" then "Email is already in use"
    else if code == "auth/invalid-email" then "Invalid email address"
    else if code == "auth/weak-password" then "Password is too weak"
    else "Failed to register. Please try again."
  }

  /** The new user's document: no photo and no friends or requests yet. */
  function NewUser(uid: Uid, f: Form, createdAt: string): (d: UserDoc)
    ensures d.uid == uid && d.username == Some(f.username) && d.email == Some(f.email)
    ensures d.photoURL.None? && d.displayName.None? && d.createdAt == Some(createdAt)
    ensures d.friends == [] && d.friendRequests == [] && d.incomingRequests == [] && d.outgoingRequests == []
  {
    UserDoc(uid, Some(f.username), Some(f.email), None, None, None, Some(createdAt), [], [], [], [])
  }

  /** The effect of a sign-up attempt. */
  datatype Outcome = Outcome(users: Users, session: Option<AuthUser>, alert: Option<Alert>, loading: bool)

  /** handleRegister. `signUp` is the new account's uid or the error code;
      `createdAt` is the clock's ISO text. */
  function Submit(f: Form, users: Users, signUp: Result<Uid, string>, createdAt: string): (o: Outcome)
    ensures !o.loading
    ensures Validate(f).Some? ==> o == Outcome(users, None, Some(Error(Validate(f).value)), false)
    ensures Validate(f).None? && signUp.Failure? ==>
              o == Outcome(users, None, Some(Alert("Registration Error", ErrorMessage(signUp.error))), false)
    ensures Validate(f).None? && signUp.Success? ==>
              && o.users == users[signUp.value := NewUser(signUp.value, f, createdAt)]
              && o.session == Some(AuthUser(signUp.value, Some(f.email), Some(f.username), None))
              && o.alert.None?
  {
    match Validate(f)
    case Some(m) => Outcome(users, None, Some(Error(m)), false)
    case None =>
      match signUp
      case Failure(code) => Outcome(users, None, Some(Alert("Registration Error", ErrorMessage(code))), false)
      case Success(uid) =>
        Outcome(users[uid := NewUser(uid, f, createdAt)], Some(AuthUser(uid, Some(f.email), Some(f.username), None)), None, false)
  }

  /** A sign-up writes one document, stored under its own uid, and signs in
      as that uid; a failing one writes nothing and signs no one in. */
  lemma SubmitWritesOwnDocument(f: Form, users: Users, signUp: Result<Uid, string>, createdAt: string)
    ensures var o := Submit(f, users, signUp, createdAt);
            && (o.session.None? ==> o.users == users)
            && (o.session.Some? ==> o.users.Keys == users.Keys + {o.session.value.uid}
                                    && o.users[o.session.value.uid].uid == o.session.value.uid
                                    && forall u | u in users && u != o.session.value.uid :: o.users[u] == users[u])
  {
  }
}

=== FILE: store.dfy ===
/** The backend documents the screens read and write, as immutable records,
    and the list entries the screens build from them. */
module Store {
  import opened Js

  type Uid = string

  /** A document of the `users` collection. Missing array fields read as
      empty arrays (every reader uses `field || []`). */
  datatype UserDoc = UserDoc(
    uid: Uid,
    username: Option<string>,
    email: Option<string>,
    displayName: Option<string>,
    photoURL: Option<string>,
    bio: Option<string>,
    createdAt: Option<string>,
    friends: seq<Uid>,
    incomingRequests: seq<Uid>,
    outgoingRequests: seq<Uid>,
    friendRequests: seq<Uid>)

  /** The `users` collection, keyed by document id. */
  type Users = map<Uid, UserDoc>

  /** The signed-in user as the auth state holds it. */
  datatype AuthUser = AuthUser(uid: Uid, email: Option<string>, displayName: Option<string>, photoURL: Option<string>)

  /** A row of the friend, request and search lists. */
  datatype Entry = Entry(uid: Uid, username: Option<string>, displayName: string, photoURL: Option<string>)

  /** The record every list screen builds from a fetched user document:
      username falls back to the email, displayName to '' and photoURL to null. */
  function ToEntry(d: UserDoc): (e: Entry)
    ensures e.uid == d.uid
    ensures Truthy(d.username) ==> e.username == d.username
    ensures !Truthy(d.username) ==> e.username == d.email
    ensures e.displayName == (if Truthy(d.displayName) then d.displayName.value else "")
    ensures Truthy(d.photoURL) <==> e.photoURL.Some?
    ensures e.photoURL.Some? ==> e.photoURL == d.photoURL
  {
    Entry(d.uid, Or(d.username, d.email), OrText(d.displayName, ""), Or(d.photoURL, None))
  }

  /** The uids of a list of entries, in order. */
  function Uids(es: seq<Entry>): (r: seq<Uid>)
    ensures |r| == |es|
    ensures forall i :: 0 <= i < |es| ==> r[i] == es[i].uid
  {
    seq(|es|, i requires 0 <= i < |es| => es[i].uid)
  }

  /** `list.filter(e => e.uid !== u)`: every copy of an entry with uid `u`
      is dropped, every other entry kept with its multiplicity and order. */
  function Without(list: seq<Entry>, u: Uid): (r: seq<Entry>)
    ensures Subsequence(r, list)
    ensures forall e :: multiset(r)[e] == if e.uid != u then multiset(list)[e] else 0
    ensures forall e :: e in r <==> e in list && e.uid != u
    ensures u !in Uids(r)
  {
    var r := Filter(list, (e: Entry) => e.uid != u);
    FilterMultiset(list, (e: Entry) => e.uid != u);
    assert u !in Uids(r) by {
      forall i | 0 <= i < |r| ensures Uids(r)[i] != u {
        assert r[i] in r;
      }
    }
    r
  }
}

=== FILE: stories.dfy ===
/** The two story document shapes of the `stories` collection. The camera
    screen writes one media item inline with a `viewers` list and the stories
    grid reads that shape; the story composer writes a `media` list with a
    `views` list and the story viewer reads that one. Server timestamps are
    not modelled. */
module Stories {
  import opened Js
  import opened Store

  /** How long a story stays up: 24 hours in milliseconds. */
  const DayMs := 24 * 60 * 60 * 1000

  /** The camera screen's story: `mediaURL`, `mediaType` and `viewers`. */
  datatype CameraStory = CameraStory(
    userId: Uid,
    username: Option<string>,
    mediaURL: string,
    mediaType: string,
    expiresAt: int,
    viewers: seq<Uid>)

  /** One entry of a composed story's `media` list; `kind` is its `type`. */
  datatype Media = Media(mediaUrl: string, kind: string)

  /** The composer's story: a caption, a `media` list and `views`. */
  datatype PostedStory = PostedStory(
    userId: Uid,
    username: Option<string>,
    userPhoto: Option<string>,
    expiresAt: int,
    caption: string,
    media: seq<Media>,
    views: seq<Uid>)

  type CameraStories = map<string, CameraStory>
  type PostedStories = map<string, PostedStory>

  /** The camera's facing and flash settings, each flipped between its two
      values by its button. */
  datatype Facing = Back | Front
  datatype Flash = FlashOff | FlashOn

  function Flip(f: Facing): (r: Facing)
    ensures r != f
  {
    if f == Back then Front else Back
  }

  function ToggleFlash(f: Flash): (r: Flash)
    ensures r != f
  {
    if f == FlashOff then FlashOn else FlashOff
  }

  /** Each toggle is an involution: pressing twice restores the setting. */
  lemma TogglesAreInvolutions(f: Facing, g: Flash)
    ensures Flip(Flip(f)) == f
    ensures ToggleFlash(ToggleFlash(g)) == g
  {
  }
}

=== FILE: stories_feed.dfy ===
/** The stories grid: the stories not yet expired, newest expiry first, how
    each tile looks, and what a tap on a tile does. */
module StoriesFeed {
  import opened Js
  import opened Store
  import opened Stories

  /** A listed story: the document id and its fields. */
  datatype Listed = Listed(id: string, story: CameraStory)

  /** Ordered by `expiresAt`, latest first. */
  predicate SortedDesc(s: seq<Listed>)
  {
    forall i, j | 0 <= i < j < |s| :: s[i].story.expiresAt >= s[j].story.expiresAt
  }

  /** An entry expiring no earlier than a sorted list may head it. */
  lemma ConsSorted(h: Listed, t: seq<Listed>)
    requires SortedDesc(t)
    requires forall k | 0 <= k < |t| :: h.story.expiresAt >= t[k].story.expiresAt
    ensures SortedDesc([h] + t)
  {
    var r := [h] + t;
    forall i, j | 0 <= i < j < |r| ensures r[i].story.expiresAt >= r[j].story.expiresAt {
      assert r[j] == t[j - 1];
      if i > 0 { assert r[i] == t[i - 1]; }
    }
  }

  /** Places `x` before the first entry that expires no later. */
  function Insert(x: Listed, s: seq<Listed>): (r: seq<Listed>)
    requires SortedDesc(s)
    ensures SortedDesc(r)
    ensures multiset(r) == multiset(s) + multiset{x}
    ensures forall e | e in r :: e == x || e in s
    decreases |s|
  {
    if |s| == 0 || x.story.expiresAt >= s[0].story.expiresAt then
      ConsSorted(x, s);
      [x] + s
    else
      var t := Insert(x, s[1..]);
      assert s == [s[0]] + s[1..];
      assert forall k | 0 <= k < |t| :: s[0].story.expiresAt >= t[k].story.expiresAt by {
        forall k | 0 <= k < |t| ensures s[0].story.expiresAt >= t[k].story.expiresAt {
          assert t[k] in t;
          if t[k] != x {
            var j :| 0 <= j < |s[1..]| && s[1..][j] == t[k];
            assert s[j + 1] == t[k];
          }
        }
      }
      ConsSorted(s[0], t);
      [s[0]] + t
  }

  /** Insertion sort by `expiresAt`, latest first. */
  function SortDesc(s: seq<Listed>): (r: seq<Listed>)
    ensures SortedDesc(r)
    ensures multiset(r) == multiset(s)
    decreases |s|
  {
    if |s| == 0 then []
    else
      assert s == [s[0]] + s[1..];
      Insert(s[0], SortDesc(s[1..]))
  }

  function Unexpired(now: int): Listed -> bool
  {
    (e: Listed) => e.story.expiresAt > now
  }

  /** The stories query: those expiring after `now`, latest expiry first. */
  function Feed(all: seq<Listed>, now: int): (r: seq<Listed>)
    ensures SortedDesc(r)
    ensures multiset(r) == multiset(Filter(all, Unexpired(now)))
    ensures forall e :: e in r <==> e in all && e.story.expiresAt > now
  {
    var live := Filter(all, Unexpired(now));
    var r := SortDesc(live);
    assert forall e :: e in r <==> e in live by {
      forall e ensures e in r <==> e in live {
        assert e in r <==> e in multiset(r);
        assert e in live <==> e in multiset(live);
      }
    }
    r
  }

  /** Listing again later never brings back an expired story. */
  lemma FeedShrinksOverTime(all: seq<Listed>, now: int, later: int)
    requires now <= later
    ensures forall e | e in Feed(all, later) :: e in Feed(all, now)
  {
  }

  /** A tile: dimmed when already viewed, with a video badge for videos. */
  datatype Tile = Tile(viewed: bool, video: bool)

  function TileOf(s: CameraStory, me: Uid): (t: Tile)
    ensures t.viewed <==> me in s.viewers
    ensures t.video <==> s.mediaType == "video"
  {
    Tile(me in s.viewers, s.mediaType == "video")
  }

  /** The empty state replaces the grid exactly when nothing is listed. */
  predicate ShowsEmptyState(listed: seq<Listed>)
  {
    |listed| == 0
  }

  /** The empty state shows exactly when every fetched story has expired. */
  lemma EmptyStateIffAllExpired(all: seq<Listed>, now: int)
    ensures ShowsEmptyState(Feed(all, now)) <==> forall i | 0 <= i < |all| :: all[i].story.expiresAt <= now
  {
    var r := Feed(all, now);
    if |r| > 0 {
      assert r[0] in r;
      var i :| 0 <= i < |all| && all[i] == r[0];
    } else {
      forall i | 0 <= i < |all| ensures all[i].story.expiresAt <= now {
        assert all[i] in all && all[i] !in r;
      }
    }
  }

  /** Once the empty state shows, it stays as time passes. */
  lemma EmptyStateStays(all: seq<Listed>, now: int, later: int)
    requires now <= later
    ensures ShowsEmptyState(Feed(all, now)) ==> ShowsEmptyState(Feed(all, later))
  {
    EmptyStateIffAllExpired(all, now);
    EmptyStateIffAllExpired(all, later);
  }

  /** handleStoryPress on the listed copy `item` of story `id`: unless the
      listed copy already shows the viewer, `viewers` gains the viewer's
      uid; a failing update (the document is gone) skips the navigation. */
  function Press(stories: CameraStories, id: string, item: CameraStory, me: Uid): (r: (CameraStories, bool))
    ensures me in item.viewers ==> r == (stories, true)
    ensures me !in item.viewers ==> (r.1 <==> id in stories)
    ensures r.0.Keys == stories.Keys
    ensures forall k | k in stories && k != id :: r.0[k] == stories[k]
    ensures r.1 && me !in item.viewers ==> me in r.0[id].viewers && r.0[id] == stories[id].(viewers := r.0[id].viewers)
    ensures r.1 && me !in item.viewers ==> forall u :: u in r.0[id].viewers <==> u in stories[id].viewers || u == me
  {
    if me in item.viewers then (stories, true)
    else if id !in stories then (stories, false)
    else (stories[id := stories[id].(viewers := ArrayUnion(stories[id].viewers, me))], true)
  }

  /** Tapping the same tile twice, even from a stale listing, writes no more
      than tapping it once. */
  lemma PressIdempotent(stories: CameraStories, id: string, item: CameraStory, me: Uid)
    ensures Press(Press(stories, id, item, me).0, id, item, me) == Press(stories, id, item, me)
  {
    if me !in item.viewers && id in stories {
      var once := Press(stories, id, item, me).0;
      assert once[id].viewers == ArrayUnion(stories[id].viewers, me);
      assert ArrayUnion(once[id].viewers, me) == once[id].viewers;
      assert once[id := once[id].(viewers := once[id].viewers)] == once;
    }
  }
}

=== FILE: story_slice.dfy ===
/** The client-side story store: other users' stories, the current user's
    own stories and the shared loading and error flags. Only `myStories` is
    ever edited entry by entry. */
module StorySlice {
  import opened Js
  import opened Records

  datatype State = State(stories: seq<Record>, myStories: seq<Record>, flags: Flags)

  const Initial := State([], [], Flags(false, Null))

  datatype Action =
    | FetchStoriesStart
    | FetchStoriesSuccess(stories: seq<Record>)
    | FetchStoriesFailure(error: Value)
    | FetchMyStoriesStart
    | FetchMyStoriesSuccess(mine: seq<Record>)
    | FetchMyStoriesFailure(error: Value)
    | AddStory(story: Record)
    | RemoveStory(id: Option<Value>)
    | UpdateStory(payload: Record)

  /** The reducer. */
  function Reduce(s: State, a: Action): (r: State)
    // the flags
    ensures a.FetchStoriesStart? || a.FetchMyStoriesStart? ==> r.flags.loading && r.flags.error == Null
    ensures a.FetchStoriesSuccess? || a.FetchMyStoriesSuccess? ==> !r.flags.loading && r.flags.error == Null
    ensures a.FetchStoriesFailure? || a.FetchMyStoriesFailure? ==> !r.flags.loading && r.flags.error == a.error
    ensures a.AddStory? || a.RemoveStory? || a.UpdateStory? ==> r.flags == s.flags
    // other users' stories are only ever replaced wholesale
    ensures a.FetchStoriesSuccess? ==> r.stories == a.stories
    ensures !a.FetchStoriesSuccess? ==> r.stories == s.stories
    // the user's own stories
    ensures a.FetchMyStoriesSuccess? ==> r.myStories == a.mine
    ensures a.AddStory? ==> r.myStories == s.myStories + [a.story]
    ensures a.RemoveStory? ==> Subsequence(r.myStories, s.myStories)
                               && forall x :: x in r.myStories <==> x in s.myStories && IdOf(x) != a.id
    ensures a.UpdateStory? ==> r.myStories == UpdateById(s.myStories, a.payload)
    ensures r.myStories != s.myStories ==>
              a.FetchMyStoriesSuccess? || a.AddStory? || a.RemoveStory? || a.UpdateStory?
  {
    match a
    case FetchStoriesStart => s.(flags := Begin(s.flags))
    case FetchStoriesSuccess(ss) => s.(stories := ss, flags := Succeed(s.flags))
    case FetchStoriesFailure(e) => s.(flags := Fail(s.flags, e))
    case FetchMyStoriesStart => s.(flags := Begin(s.flags))
    case FetchMyStoriesSuccess(ms) => s.(myStories := ms, flags := Succeed(s.flags))
    case FetchMyStoriesFailure(e) => s.(flags := Fail(s.flags, e))
    case AddStory(st) => s.(myStories := s.myStories + [st])
    case RemoveStory(id) => s.(myStories := RemoveById(s.myStories, id))
    case UpdateStory(p) => s.(myStories := UpdateById(s.myStories, p))
  }

  /** Removing and updating are both idempotent. */
  lemma RemoveAndUpdateIdempotent(s: State, id: Option<Value>, p: Record)
    ensures Reduce(Reduce(s, RemoveStory(id)), RemoveStory(id)) == Reduce(s, RemoveStory(id))
    ensures Reduce(Reduce(s, UpdateStory(p)), UpdateStory(p)) == Reduce(s, UpdateStory(p))
  {
    RemoveByIdIdempotent(s.myStories, id);
    UpdateByIdIdempotent(s.myStories, p);
  }

  /** After a story is removed, an update for its id changes nothing. */
  lemma UpdateAfterRemove(s: State, p: Record)
    ensures var gone := Reduce(s, RemoveStory(IdOf(p)));
            Reduce(gone, UpdateStory(p)) == gone
  {
    var gone := Reduce(s, RemoveStory(IdOf(p)));
    assert forall i | 0 <= i < |gone.myStories| :: IdOf(gone.myStories[i]) != IdOf(p);
  }
}

=== FILE: story_viewer.dfy ===
/** The story viewer: the media list of one composed story, the index of
    the item shown, the pause flag, the progress bars, and the view mark. */
module StoryViewer {
  import opened Js
  import opened Store
  import opened Stories

  /** fetchStories: the story's `media` list, or nothing when the document
      is missing. */
  function Load(stories: PostedStories, storyId: string): (items: seq<Media>)
    ensures storyId !in stories ==> items == []
    ensures storyId in stories ==> items == stories[storyId].media
  {
    if storyId in stories then stories[storyId].media else []
  }

  /** The viewer's state over `count` media items. */
  datatype Viewer = Viewer(count: nat, index: int, paused: bool)

  /** The shown index lies inside the list. */
  predicate Showing(v: Viewer)
  {
    0 <= v.index < v.count
  }

  /** The viewer as it opens. */
  function Start(count: nat): (v: Viewer)
    ensures v.index == 0 && !v.paused && v.count == count
    ensures Showing(v) <==> count > 0
  {
    Viewer(count, 0, false)
  }

  /** handleNext: the next item, or `None` when the viewer goes back. */
  function Next(v: Viewer): (r: Option<Viewer>)
    ensures r.Some? <==> v.index < v.count - 1
    ensures r.Some? ==> r.value == v.(index := v.index + 1)
  {
    if v.index < v.count - 1 then Some(v.(index := v.index + 1)) else None
  }

  /** handlePrevious: the previous item, or `None` when the viewer goes back. */
  function Previous(v: Viewer): (r: Option<Viewer>)
    ensures r.Some? <==> v.index > 0
    ensures r.Some? ==> r.value == v.(index := v.index - 1)
  {
    if v.index > 0 then Some(v.(index := v.index - 1)) else None
  }

  /** Stepping either way keeps the index inside the list; an empty list
      exits at once. */
  lemma StepsKeepShowing(v: Viewer)
    requires Showing(v) || v == Start(v.count)
    ensures Next(v).Some? ==> Showing(Next(v).value)
    ensures Previous(v).Some? ==> Showing(Previous(v).value)
    ensures v.count == 0 ==> Next(v).None? && Previous(v).None?
  {
  }

  /** Previous undoes Next, and Next undoes Previous. */
  lemma StepsUndo(v: Viewer)
    requires Showing(v)
    ensures Next(v).Some? ==> Previous(Next(v).value) == Some(v)
    ensures Previous(v).Some? ==> Next(Previous(v).value) == Some(v)
  {
  }

  /** From any shown item, Next taken `count - index` times leaves the viewer. */
  function NextTimes(v: Viewer, k: nat): Option<Viewer>
    decreases k
  {
    if k == 0 then Some(v)
    else match Next(v) case None => None case Some(w) => NextTimes(w, k - 1)
  }

  lemma {:induction false} NextReachesEnd(v: Viewer)
    requires Showing(v)
    ensures NextTimes(v, v.count - 1 - v.index) == Some(v.(index := v.count - 1))
    ensures NextTimes(v, v.count - v.index) == None
    decreases v.count - v.index
  {
    if v.index < v.count - 1 {
      NextReachesEnd(v.(index := v.index + 1));
    }
  }

  /** handlePause flips the pause flag and nothing else. */
  function Pause(v: Viewer): (r: Viewer)
    ensures r.paused != v.paused
    ensures r.(paused := v.paused) == v
  {
    v.(paused := !v.paused)
  }

  lemma PauseTwice(v: Viewer)
    ensures Pause(Pause(v)) == v
  {
  }

  /** A progress bar segment. */
  datatype Bar = Full | Empty | Animating

  /** The width of segment `i` while item `current` is shown. */
  function BarAt(i: nat, current: int): (b: Bar)
    ensures b == Animating <==> i == current
    ensures b == Full <==> i < current
    ensures b == Empty <==> i > current
  {
    if i == current then Animating else if i < current then Full else Empty
  }

  /** All segments. */
  function Bars(v: Viewer): (bars: seq<Bar>)
    ensures |bars| == v.count
    ensures forall i | 0 <= i < v.count :: bars[i] == BarAt(i, v.index)
  {
    seq(v.count, i requires 0 <= i < v.count => BarAt(i, v.index))
  }

  /** While an item is shown exactly one segment animates, and it is that
      item's. */
  lemma OneBarAnimates(v: Viewer)
    requires Showing(v)
    ensures Bars(v)[v.index] == Animating
    ensures forall i | 0 <= i < v.count && Bars(v)[i] == Animating :: i == v.index
  {
  }

  /** markStoryAsViewed: `views` gains the viewer's uid if absent; a missing
      document makes the update fail, which is only logged. */
  function MarkViewed(stories: PostedStories, storyId: string, me: Uid): (r: PostedStories)
    ensures r.Keys == stories.Keys
    ensures forall id | id in stories && id != storyId :: r[id] == stories[id]
    ensures storyId in stories ==> r[storyId] == stories[storyId].(views := r[storyId].views)
    ensures storyId in stories ==> forall u :: u in r[storyId].views <==> u in stories[storyId].views || u == me
    ensures storyId in stories && me in stories[storyId].views ==> r == stories
  {
    if storyId !in stories then stories
    else stories[storyId := stories[storyId].(views := ArrayUnion(stories[storyId].views, me))]
  }

  /** Viewing a story again changes nothing. */
  lemma MarkViewedIdempotent(stories: PostedStories, storyId: string, me: Uid)
    ensures MarkViewed(MarkViewed(stories, storyId, me), storyId, me) == MarkViewed(stories, storyId, me)
  {
  }

  /** The reply box is offered unless the `userId` navigation parameter is
      the viewer's uid; `None` is a parameter the caller did not pass. */
  predicate ReplyVisible(ownerId: Option<Uid>, me: Uid)
  {
    ownerId != Some(me)
  }

  /** With the owner passed, the box is hidden exactly on one's own story;
      with no owner passed, as by both screens that open the viewer, it is
      shown to everyone, the story's owner included. */
  lemma ReplyVisibleCases(owner: Uid, me: Uid)
    ensures ReplyVisible(Some(owner), me) <==> owner != me
    ensures ReplyVisible(None, me)
  {
  }
}

=== FILE: text.dfy ===
/** String operations of JavaScript's `String.prototype` that the screens use:
    `trim`, `toLowerCase` (ASCII letters only), `includes`, and decimal
    rendering of non-negative integers in template literals. */
module Text {

  /** The characters `String.prototype.trim` strips: WhiteSpace (tab, vertical
      tab, form feed, space, no-break space, byte-order mark and the Unicode
      space separators) and LineTerminator (LF, CR, LS, PS). */
  predicate IsSpace(c: char)
  {
    c == ' ' || c == '\t' || c == '\n' || c == '\r' || c == '\U{000B}' || c == '\U{000C}'
    || c == '\U{00A0}' || c == '\U{FEFF}' || c == '\U{1680}' || ('\U{2000}' <= c <= '\U{200A}')
    || c == '\U{2028}' || c == '\U{2029}' || c == '\U{202F}' || c == '\U{205F}' || c == '\U{3000}'
  }

  /** Every character is whitespace (the empty string included). */
  predicate Blank(s: string)
  {
    forall i :: 0 <= i < |s| ==> IsSpace(s[i])
  }

  function TrimStart(s: string): (r: string)
    ensures |r| <= |s| && r == s[|s| - |r|..]
    ensures |r| > 0 ==> !IsSpace(r[0])
    ensures forall i :: 0 <= i < |s| - |r| ==> IsSpace(s[i])
  {
    if |s| > 0 && IsSpace(s[0]) then TrimStart(s[1..]) else s
  }

  function TrimEnd(s: string): (r: string)
    ensures |r| <= |s| && r == s[..|r|]
    ensures |r| > 0 ==> !IsSpace(r[|r| - 1])
    ensures forall i :: |r| <= i < |s| ==> IsSpace(s[i])
  {
    if |s| > 0 && IsSpace(s[|s| - 1]) then TrimEnd(s[..|s| - 1]) else s
  }

  /** Number of whitespace characters `trimStart` removes. */
  function Leading(s: string): (k: nat)
    ensures k <= |s| && Blank(s[..k])
  {
    var k := |s| - |TrimStart(s)|;
    assert forall i :: 0 <= i < k ==> s[..k][i] == s[i];
    k
  }

  /** `s.trim()`: the infix of `s` left after removing its leading and
      trailing whitespace; it neither starts nor ends with whitespace. */
  function Trim(s: string): (r: string)
    ensures |r| > 0 ==> !IsSpace(r[0]) && !IsSpace(r[|r| - 1])
    ensures Leading(s) + |r| <= |s| && r == s[Leading(s)..Leading(s) + |r|]
    ensures forall i :: Leading(s) + |r| <= i < |s| ==> IsSpace(s[i])
  {
    var t := TrimStart(s);
    var r := TrimEnd(t);
    assert forall i :: Leading(s) + |r| <= i < |s| ==> s[i] == t[i - Leading(s)];
    r
  }

  /** The source's `!s.trim()` test: the trimmed text is empty exactly when
      the input is whitespace only. */
  lemma {:induction false} TrimEmptyIffBlank(s: string)
    ensures Trim(s) == [] <==> Blank(s)
  {
    var r := Trim(s);
    var k := Leading(s);
    if r == [] {
      forall i | 0 <= i < |s| ensures IsSpace(s[i]) {
        if i < k { assert s[i] == s[..k][i]; }
      }
    } else {
      assert s[k] == r[0];
    }
  }

  /** Trimming a trimmed string changes nothing. */
  lemma TrimIdempotent(s: string)
    ensures Trim(Trim(s)) == Trim(s)
  {
    var r := Trim(s);
    if |r| > 0 {
      assert !IsSpace(r[0]) && !IsSpace(r[|r| - 1]);
    }
  }

  /** ASCII `toLowerCase` of one character; other characters are unchanged. */
  function LowerChar(c: char): char
  {
    if 'A' <= c <= 'Z' then (c as int + 32) as char else c
  }

  /** `s.toLowerCase()` restricted to ASCII letters. */
  function ToLower(s: string): (r: string)
    ensures |r| == |s|
    ensures forall i :: 0 <= i < |s| ==> r[i] == LowerChar(s[i])
  {
    seq(|s|, i requires 0 <= i < |s| => LowerChar(s[i]))
  }

  predicate StartsWith(s: string, p: string)
  {
    |p| <= |s| && s[..|p|] == p
  }

  /** `s.includes(sub)`: `sub` occurs at some position of `s`. */
  predicate Includes(s: string, sub: string)
    decreases |s|
  {
    StartsWith(s, sub) || (|s| > 0 && Includes(s[1..], sub))
  }

  /** `sub` occurs in `s` starting at index `i`. */
  predicate OccursAt(s: string, sub: string, i: int)
  {
    0 <= i <= |s| - |sub| && s[i..i + |sub|] == sub
  }

  /** `includes` agrees with the positional definition of a substring. */
  lemma {:induction false} IncludesIffOccurs(s: string, sub: string)
    ensures Includes(s, sub) <==> exists i :: OccursAt(s, sub, i)
    decreases |s|
  {
    if |s| > 0 {
      IncludesIffOccurs(s[1..], sub);
    }
    if Includes(s, sub) {
      if StartsWith(s, sub) {
        assert OccursAt(s, sub, 0);
      } else {
        var i :| OccursAt(s[1..], sub, i);
        assert s[i + 1..i + 1 + |sub|] == s[1..][i..i + |sub|];
        assert OccursAt(s, sub, i + 1);
      }
    }
    if exists i :: OccursAt(s, sub, i) {
      var i :| OccursAt(s, sub, i);
      if i == 0 {
        assert StartsWith(s, sub);
      } else {
        assert s[1..][i - 1..i - 1 + |sub|] == s[i..i + |sub|];
        assert OccursAt(s[1..], sub, i - 1);
      }
    }
  }

  /** Every string includes the empty string. */
  lemma IncludesEmpty(s: string)
    ensures Includes(s, "")
  {
    assert StartsWith(s, "");
  }

  function DigitChar(d: nat): (c: char)
    requires d < 10
    ensures '0' <= c <= '9'
  {
    "0123456789"[d]
  }

  predicate AllDigits(s: string)
  {
    forall i :: 0 <= i < |s| ==> '0' <= s[i] <= '9'
  }

  /** Decimal rendering of a non-negative integer, as `${n}` produces it. */
  function NatToString(n: nat): (r: string)
    ensures |r| >= 1 && AllDigits(r)
    ensures r[0] == '0' ==> n == 0
  {
    if n < 10 then [DigitChar(n)] else NatToString(n / 10) + [DigitChar(n % 10)]
  }

  /** Reads a run of decimal digits back as a number. */
  function ParseNat(s: string): nat
    requires AllDigits(s)
  {
    if |s| == 0 then 0 else ParseNat(s[..|s| - 1]) * 10 + (s[|s| - 1] as int - '0' as int)
  }

  /** Rendering then reading a number gives the number back, so distinct
      numbers render to distinct texts. */
  lemma {:induction false} ParseNatToString(n: nat)
    ensures ParseNat(NatToString(n)) == n
    decreases n
  {
    var r := NatToString(n);
    if n >= 10 {
      var q := NatToString(n / 10);
      assert r[..|r| - 1] == q;
      ParseNatToString(n / 10);
    }
  }
}

=== FILE: ui.dfy ===
/** What a screen shows the user besides its own state. */
module Ui {

  /** `Alert.alert(title, message)`. */
  datatype Alert = Alert(title: string, message: string)

  function Error(message: string): Alert
  {
    Alert("Error", message)
  }

  function Done(message: string): Alert
  {
    Alert("Success", message)
  }
}

=== FILE: user_slice.dfy ===
/** The client-side friend store: the friend list, the request list and
    the shared loading and error flags. */
module UserSlice {
  import opened Js
  import opened Records

  datatype State = State(friends: seq<Record>, friendRequests: seq<Record>, flags: Flags)

  const Initial := State([], [], Flags(false, Null))

  /** The slice's actions; a removal's payload is the id itself. */
  datatype Action =
    | FetchFriendsStart
    | FetchFriendsSuccess(friends: seq<Record>)
    | FetchFriendsFailure(error: Value)
    | FetchFriendRequestsStart
    | FetchFriendRequestsSuccess(requests: seq<Record>)
    | FetchFriendRequestsFailure(error: Value)
    | AddFriend(friend: Record)
    | RemoveFriend(id: Option<Value>)
    | AddFriendRequest(request: Record)
    | RemoveFriendRequest(id: Option<Value>)

  /** The reducer. */
  function Reduce(s: State, a: Action): (r: State)
    // the flags
    ensures a.FetchFriendsStart? || a.FetchFriendRequestsStart? ==> r.flags.loading && r.flags.error == Null
    ensures a.FetchFriendsSuccess? || a.FetchFriendRequestsSuccess? ==> !r.flags.loading && r.flags.error == Null
    ensures a.FetchFriendsFailure? || a.FetchFriendRequestsFailure? ==> !r.flags.loading && r.flags.error == a.error
    ensures a.AddFriend? || a.RemoveFriend? || a.AddFriendRequest? || a.RemoveFriendRequest? ==> r.flags == s.flags
    // the friend list
    ensures a.FetchFriendsSuccess? ==> r.friends == a.friends
    ensures a.AddFriend? ==> r.friends == s.friends + [a.friend]
    ensures a.RemoveFriend? ==> Subsequence(r.friends, s.friends)
                                && forall x :: x in r.friends <==> x in s.friends && IdOf(x) != a.id
    ensures r.friends != s.friends ==> a.FetchFriendsSuccess? || a.AddFriend? || a.RemoveFriend?
    // the request list
    ensures a.FetchFriendRequestsSuccess? ==> r.friendRequests == a.requests
    ensures a.AddFriendRequest? ==> r.friendRequests == s.friendRequests + [a.request]
    ensures a.RemoveFriendRequest? ==> Subsequence(r.friendRequests, s.friendRequests)
                                       && forall x :: x in r.friendRequests <==> x in s.friendRequests && IdOf(x) != a.id
    ensures r.friendRequests != s.friendRequests ==>
              a.FetchFriendRequestsSuccess? || a.AddFriendRequest? || a.RemoveFriendRequest?
  {
    match a
    case FetchFriendsStart => s.(flags := Begin(s.flags))
    case FetchFriendsSuccess(fs) => s.(friends := fs, flags := Succeed(s.flags))
    case FetchFriendsFailure(e) => s.(flags := Fail(s.flags, e))
    case FetchFriendRequestsStart => s.(flags := Begin(s.flags))
    case FetchFriendRequestsSuccess(rs) => s.(friendRequests := rs, flags := Succeed(s.flags))
    case FetchFriendRequestsFailure(e) => s.(flags := Fail(s.flags, e))
    case AddFriend(f) => s.(friends := s.friends + [f])
    case RemoveFriend(id) => s.(friends := RemoveById(s.friends, id))
    case AddFriendRequest(q) => s.(friendRequests := s.friendRequests + [q])
    case RemoveFriendRequest(id) => s.(friendRequests := RemoveById(s.friendRequests, id))
  }

  /** Removing a friend twice is removing it once; likewise for requests. */
  lemma RemoveTwice(s: State, id: Option<Value>)
    ensures Reduce(Reduce(s, RemoveFriend(id)), RemoveFriend(id)) == Reduce(s, RemoveFriend(id))
    ensures Reduce(Reduce(s, RemoveFriendRequest(id)), RemoveFriendRequest(id)) == Reduce(s, RemoveFriendRequest(id))
  {
    RemoveByIdIdempotent(s.friends, id);
    RemoveByIdIdempotent(s.friendRequests, id);
  }

  /** Adding a friend and then removing its id leaves the list the removal
      alone would have left. */
  lemma AddThenRemoveFriend(s: State, f: Record)
    ensures Reduce(Reduce(s, AddFriend(f)), RemoveFriend(IdOf(f))) == Reduce(s, RemoveFriend(IdOf(f)))
  {
    RemoveByIdAppend(s.friends, [f], IdOf(f));
    assert RemoveById([f], IdOf(f)) == [];
  }
}
